=== FILE: README.md ===
# metadata-retrieval: the GitHub downloader and the in-memory store, in Dafny

This project models the replication core of metadata-retrieval. Three pieces are covered.

1. **The downloader** (`github/downloader.go`). It reads a repository or an organization from the GitHub v4 API and writes every entity through a storer.
   - Every `download*` function walks one paginated connection in the same way:
     - take the nodes of the first page, which comes embedded in the parent;
     - then, while the page just processed says `hasNextPage`, ask for the next page with that page's `endCursor`;
     - handle each node in arrival order;
     - stop at the first error.
   - `DownloadRepository` runs, in this order: the root query, the topics, `SaveRepository`, every issue, then every pull request.
     - An issue is processed as: assignees, labels, `SaveIssue`, comments.
     - A pull request is processed as: assignees, labels, `SavePullRequest`, comments, then reviews. Each review is saved and followed by its comments.
   - `DownloadOrganization` runs the root query, `SaveOrganization`, then the members.
   - Both are bracketed by `Version`, `Begin`, and then `Commit` or `Rollback`.
2. **The in-memory storer** (`github/store/mem.go`). It maps owner, then name, to a repository. Each repository holds its pull requests by number, and each pull request holds its reviews by database id. Comment lists only grow at the end. The pull request, pull request comment, review and review comment saves answer `NotFound` when their parent is missing. The organization, user, issue and issue comment saves keep nothing and always succeed.
3. **Two pieces of the Bitbucket Server migration example** (`examples/bitbucket-server-migration/main.go`): `trim`, and the choice of which stored pull requests `migrate` hands on.

## How the model is built

- **The API.** It is a value. A connection (`Graphql.Connection`) is its embedded first page, plus the server's answers to the follow-up page queries in order. Each answer is a page or a failure, and a query issued after the answers run out fails.
- **The walker.** `Pagination.Walk` turns a connection into the exact schedule of what the walker does: visit a node, issue a page query with a cursor, or abort.
  - `Pagination.Served` and `Pagination.Content` are an independent reference view: the pages the server serves, and their nodes in order.
  - `Pagination.WalkDeliversServedPages` connects the two views.
- **A run.** It threads the storer state, a trace of every query and storer call, and the first failure. The storer is any function from a state and a call to the next state and an optional error (`Storer.Backend`). `MemStore.Apply` is the in-memory one.
- **Reference call lists.** `Traversal.RepositoryCalls` and `Traversal.OrganizationCalls` list the saves of a fully served resource tree in traversal order. The main theorems compare a run with these lists.
- **Three views of a run against those lists.**
  - `Traversal` covers the runs that end well: the calls made are exactly the reference calls.
  - `Stopping` covers the runs that fail after `Begin`: the calls made are a prefix of the reference calls, followed by `Rollback`. What failed, a rejected save or a failed query, is the event right before `Rollback`.
  - `Asking` covers the page queries in the trace: each connection is asked for the cursors of its walk, in order. A failed run asks for a prefix of them.

## Model

| member | source | states |
|---|---|---|
| `Pagination.WalkDeliversServedPages` | github/downloader.go:194-239 | A walk hands over exactly the served pages' nodes, in arrival order, as many as those pages hold together. It queries once per follow-up page, each time with the end cursor of the page just processed. It aborts, as its very last step, exactly when a page query fails. |
| `Pagination.Walk` | github/downloader.go:196-236 | The embedded page's nodes come first. The walk goes past them exactly when that page says `hasNextPage`, and then its next step is the query with that page's end cursor. |
| `Pagination.Continue` | github/downloader.go:213-236 | After a page, the walk stops exactly when the page says there is no next page. Otherwise it begins with the query for the page after that page's end cursor. |
| `Pagination.LastFirstPageMeansNoQuery` | github/downloader.go:209-213 | When the embedded page says there is no next page, the walk issues no query and hands over exactly that page's nodes. |
| `Pagination.Visits` | github/downloader.go:198-200 | The nodes of one page are handled one by one, in page order. |
| `Pagination.ServedFrom` | github/downloader.go:213-236 | The served pages start at the given page. Every page but the last says `hasNextPage` and is the server's answer to the query that follows its predecessor. The sequence ends at a page without a successor, at a failed query, or when the answers run out. |
| `Downloader.Save` | github/downloader.go:158-161 | One save through the storer. An unfailed run stays unfailed exactly when the storer accepts the call, and a failed run is left as it is. |
| `Downloader.Drive` | github/downloader.go:241-315 | Handling a walk's nodes only extends the run, by queries and saves, never by transaction calls. If the schedule contains an abort, an unfailed run ends failed. The page queries it makes are stated by `Asking.DriveAsks`. |
| `Downloader.Collect` | github/downloader.go:317-362 | A walk that only gathers names leaves the store untouched and makes no storer call. It fails exactly when the schedule aborts. Otherwise it yields the visited names in order. The page queries it makes are stated by `Asking.CollectAsks`. |
| `Downloader.DownloadTopics` | github/downloader.go:194-239 | The topics walk fails exactly when the topics connection is not served to the end. Otherwise it yields all topics in order and only issues page queries. |
| `Downloader.DownloadIssueAssignees` | github/downloader.go:317-362 | The same holds for an issue's assignees. |
| `Downloader.DownloadIssueLabels` | github/downloader.go:364-409 | The same holds for an issue's labels. |
| `Downloader.DownloadPullRequestAssignees` | github/downloader.go:551-596 | The same holds for a pull request's assignees. |
| `Downloader.DownloadPullRequestLabels` | github/downloader.go:598-643 | The same holds for a pull request's labels. |
| `Downloader.DownloadIssueComments` | github/downloader.go:411-460 | An issue's comment walk fails the run when the comment connection is not served to the end. |
| `Downloader.DownloadIssues` | github/downloader.go:241-315 | The issues walk fails the run when the issue connection is not served to the end. |
| `Downloader.DownloadPullRequestComments` | github/downloader.go:645-694 | A pull request's comment walk fails the run when its connection is not served to the end. |
| `Downloader.DownloadPullRequestReviews` | github/downloader.go:696-756 | A pull request's review walk fails the run when its connection is not served to the end. |
| `Downloader.DownloadReviewComments` | github/downloader.go:758-819 | A review's comment walk fails the run when its connection is not served to the end. |
| `Downloader.DownloadPullRequests` | github/downloader.go:462-549 | The pull request walk fails the run when the pull request connection is not served to the end. |
| `Downloader.DownloadUsers` | github/downloader.go:875-931 | The members walk fails the run when the member connection is not served to the end. |
| `Downloader.ProcessIssue` | github/downloader.go:242-258 | Processing one issue only extends the run, by page queries and saves. It makes no transaction call, and a failed run stays as it was. |
| `Downloader.ProcessReview` | github/downloader.go:697-711 | The same holds for processing one review. |
| `Downloader.ProcessPullRequest` | github/downloader.go:463-488 | The same holds for processing one pull request. |
| `Downloader.RepositoryContents` | github/downloader.go:152-173 | The same holds for the traversal of a fetched repository. |
| `Downloader.RepositoryBody` | github/downloader.go:116-173 | The same holds for the root query followed by that traversal. |
| `Downloader.OrganizationContents` | github/downloader.go:855-869 | The same holds for the traversal of a fetched organization. |
| `Downloader.OrganizationBody` | github/downloader.go:840-869 | The same holds for the root query followed by that traversal. |
| `Downloader.Bracket` | github/downloader.go:99-114 | `Version` and then `Begin` come first. A failed `Begin` ends the run there, with no `Commit` and no `Rollback`. Otherwise exactly one closing call follows the traversal: `Rollback` when the run failed, `Commit` when it did not. No transaction call appears in between. |
| `Downloader.DownloadRepository` | github/downloader.go:98-176 | The same bracketing holds for a repository download. |
| `Downloader.DownloadOrganization` | github/downloader.go:823-873 | The same bracketing holds for an organization download. |
| `Traversal.DriveReplays` | github/downloader.go:260-312 | A walk with no failed query, whose nodes each replay their own calls, replays the calls of all its nodes one after the other. |
| `Traversal.DriveFails` | github/downloader.go:261-266 | A node whose handling always fails makes the whole walk fail. |
| `Traversal.ReviewReplays` | github/downloader.go:697-711 | A fully served review makes exactly its save, followed by all its comments in order. The run succeeds exactly when the storer accepts those calls. |
| `Traversal.IssueReplays` | github/downloader.go:242-258 | A fully served issue makes exactly one `SaveIssue`, carrying all assignees and all labels, followed by all its comments in order. |
| `Traversal.PullRequestReplays` | github/downloader.go:463-488 | A fully served pull request makes exactly one `SavePullRequest`, carrying all assignees and labels. Its comments follow, then each review followed by that review's comments. |
| `Traversal.PullRequestFails` | github/downloader.go:478-485 | A pull request with any connection not served to the end, including one of a review, fails the run. |
| `Traversal.IssuesReplays` | github/downloader.go:260-312 | Fully served issues are processed one after another. Each issue's calls finish before the next issue's calls start. |
| `Traversal.PullRequestsReplays` | github/downloader.go:490-546 | Fully served pull requests are processed one after another, each one's subtree finishing before the next starts. |
| `Traversal.RepositorySaveReplays` | github/downloader.go:152-161 | The topics are gathered to the end before the one `SaveRepository` call, which carries all of them. |
| `Traversal.RepositoryContentsReplays` | github/downloader.go:152-173 | A fully served repository makes `SaveRepository` first, then all issue calls, then all pull request calls, and nothing else. |
| `Traversal.RepositoryContentsFails` | github/downloader.go:153-172 | Any connection of the repository tree that is not served to the end fails the run. |
| `Traversal.DownloadRepositoryOutcome` | github/downloader.go:98-176 | Once `Begin` succeeds, a repository download succeeds exactly when every connection is served to the end and the storer accepts the reference calls. It then made `Version`, `Begin`, those calls and `Commit`, in that order and nothing else, and the store is where replaying them leaves it. |
| `Traversal.RepositoryQueryFailure` | github/downloader.go:147-150 | A failed root query makes no save. The run's events are exactly `Version`, `Begin`, the repository query and `Rollback`, and the failure reports that query. |
| `Traversal.OrganizationQueryFailure` | github/downloader.go:856-859 | A failed organization query makes no save. The run's events are exactly `Version`, `Begin`, the organization query and `Rollback`, and the failure reports that query. |
| `Traversal.OrganizationContentsReplays` | github/downloader.go:861-869 | A fully served organization makes `SaveOrganization`, then one `SaveUser` per member in order. |
| `Traversal.DownloadOrganizationOutcome` | github/downloader.go:823-873 | The organization counterpart of the repository outcome. |
| `Stopping.FollowsDrive` | github/downloader.go:260-312 | For any schedule, served to the end or not: if each node's handling makes a prefix of that node's calls and nothing after its first error, then the walk makes a prefix of all nodes' calls, in order. The storer accepted every call in that prefix, except a rejected save. A rejected save or a failed page query is the last event of the run: nothing is asked or called after it. A run that ends well made all the calls. |
| `Stopping.ReviewFollows` | github/downloader.go:697-711 | Processing one review, served to the end or not, makes a prefix of that review's reference calls and stops at its first error: the rejected save or the failed page query is the last event of the run, so nothing is asked or called after it. |
| `Stopping.IssueFollows` | github/downloader.go:242-258 | Processing one issue makes a prefix of that issue's reference calls and stops at its first error: the rejected save or the failed page query is the last event of the run, so nothing is asked or called after it. |
| `Stopping.PullRequestFollows` | github/downloader.go:463-488 | Processing one pull request makes a prefix of its reference calls and stops at its first error: the rejected save or the failed page query is the last event of the run, so nothing is asked or called after it. |
| `Stopping.RepositoryContentsFollows` | github/downloader.go:152-173 | The traversal of a fetched repository makes a prefix of the repository's reference calls and stops at its first error: the rejected save or the failed page query is the last event of the run, so nothing is asked or called after it. |
| `Stopping.RepositoryBodyFollows` | github/downloader.go:147-173 | The same holds when the root query comes first, whatever it got: when that query failed, it is the last event of the run and no call was made. |
| `Stopping.OrganizationBodyFollows` | github/downloader.go:856-869 | The organization counterpart: the root query, then the organization traversal's prefix; a failed organization query is the last event and no call was made. |
| `Stopping.OrganizationContentsFollows` | github/downloader.go:855-869 | The traversal of a fetched organization makes a prefix of the organization's reference calls and stops at its first error: the rejected save or the failed page query is the last event of the run, so nothing is asked or called after it. |
| `Stopping.IssueGatherStops` | github/downloader.go:242-251 | When an issue's assignee or label walk fails, processing the issue ends there: the result is that failed run, and it made no call, so `SaveIssue` and the comments are never reached. |
| `Stopping.PullRequestGatherStops` | github/downloader.go:463-476 | When a pull request's assignee or label walk fails, processing ends there with no call: `SavePullRequest`, the comments and the reviews are never reached. |
| `Stopping.TopicsStop` | github/downloader.go:152-158 | When the topics walk fails, the traversal of a fetched repository ends there with no call, before `SaveRepository`. |
| `Stopping.WalkCollectEndsAtQuery` | github/downloader.go:213-236 | A gathering walk that fails ends with the page query that failed, for its own kind and parent, as the last event. |
| `Pagination.WalkFetchesBeforeAbort` | github/downloader.go:213-236 | In every walk schedule, an abort comes right after the page query whose reply failed. |
| `MemDownload.PullRequestBlocksHold` | github/store/mem.go:76-141 | Replaying the pull request blocks leaves every other number's entry unchanged; with distinct numbers, each pull request's entry is that pull request with its assignees, labels, comments and review ids as served. |
| `Stopping.BracketStops` | github/downloader.go:99-114 | When a bracketed body fails, the calls made are `Version`, `Begin`, the body's prefix of its calls, and `Rollback`, and nothing else. The event just before `Rollback` is what failed: the rejected save, which is the last call of the prefix, or the failed query. |
| `Stopping.DownloadRepositoryStops` | github/downloader.go:98-176 | Once `Begin` succeeds, whatever the root query got, a failed repository download made `Version`, `Begin`, a prefix of the reference calls, and `Rollback`, and nothing else. The storer accepted every call in the prefix. When a save was rejected, that save is the last call of the prefix and the event just before `Rollback`, and the failure names it and the storer's error. When a page or root query failed instead, that query, with the failure's kind and parent, is the event just before `Rollback`. A failed root query made no call at all. |
| `Stopping.DownloadOrganizationStops` | github/downloader.go:823-873 | The organization counterpart of `Stopping.DownloadRepositoryStops`, for any result of the organization query. |
| `Asking.CollectAsks` | github/downloader.go:209-236 | A walk that gathers names asks for one page per query step of its schedule up to the first abort, with that step's cursor, in order, and asks for nothing else. |
| `Asking.DriveAsks` | github/downloader.go:283-312 | Suppose a walk's node handling never asks for the walk's own connection. Then the walk asks that connection for a prefix of its schedule's query cursors before the first abort, in order. When the run ends well, it asks for all of those cursors. |
| `Asking.DriveAsksOnly` | github/downloader.go:283-312 | A walk asks for pages of its own connection and of the connections its node handling asks for, and of no other connection. |
| `Asking.WalkCollectAsks` | github/downloader.go:317-362 | A walk over names asks only its own connection, for a prefix of the walk's query cursors. When the run ends well, it asks for all of them. For a connection served to the end, its queries are exactly one per follow-up page, in order. |
| `Asking.WalkDriveAsks` | github/downloader.go:241-315 | The same holds for the cursors of a walk that handles nodes, whose handling asks only for other connections. |
| `Asking.ProcessIssueAsks` | github/downloader.go:242-258 | Processing an issue asks for pages of its assignees, labels and comments only. |
| `Asking.ProcessReviewAsks` | github/downloader.go:697-711 | Processing a review asks for pages of its comments only. |
| `Asking.ProcessPullRequestAsks` | github/downloader.go:463-488 | Processing a pull request asks for pages of its assignees, labels, comments, reviews and review comments only. |
| `Asking.IssuesAsk` | github/downloader.go:241-315 | The issue connection is asked along its walk. Apart from it, only the issues' own connections are asked. |
| `Asking.PullRequestsAsk` | github/downloader.go:462-549 | The pull request connection is asked along its walk. Apart from it, only the pull requests' own connections are asked. |
| `Asking.UsersAsk` | github/downloader.go:875-931 | The member connection is asked along its walk, and nothing else is asked. |
| `Asking.RepositoryContentsAsks` | github/downloader.go:152-173 | A repository's traversal asks its topic, issue and pull request connections, each along its own walk. It asks no organization member pages. |
| `Asking.OrganizationContentsAsks` | github/downloader.go:855-869 | An organization's traversal asks its member connection along its walk, and nothing else. |
| `Asking.BracketAsks` | github/downloader.go:99-114 | A bracketed run's trace asks for exactly the pages its body asked for, and ends as its body did. When `Begin` fails, the run asks for nothing and fails. |
| `Asking.DownloadRepositoryAsks` | github/downloader.go:98-176 | Over a repository download's whole trace, the topic, issue and pull request connections are each asked for a prefix of their walk's cursors, in order. When the download committed, they are asked for all of them. |
| `Asking.DownloadOrganizationAsks` | github/downloader.go:823-873 | Over an organization download's whole trace, the member connection is asked for a prefix of its walk's cursors, in order. When the download committed, it is asked for all of them. |
| `MemStore.SaveRepository` | github/store/mem.go:48-64 | The owner's map is created when absent. The repository is (re)installed with its fields, its topics and no pull requests, dropping any earlier ones. Every other repository is unchanged. |
| `MemStore.SavePullRequest` | github/store/mem.go:76-94 | Without the repository the answer is `NotFound` and nothing changes. Otherwise the pull request is stored with exactly the given assignees and labels, no comments and no reviews, replacing any earlier one with its number. Nothing else changes. |
| `MemStore.SavePullRequestComment` | github/store/mem.go:96-110 | Without the pull request the answer is `NotFound` and nothing changes. Otherwise the comment is appended at the end and nothing else changes. |
| `MemStore.SavePullRequestReview` | github/store/mem.go:112-127 | Without the pull request the answer is `NotFound` and nothing changes. Otherwise the review is stored under its database id with no comments. The pull request's other reviews, its comments and all else stay. |
| `MemStore.SavePullRequestReviewComment` | github/store/mem.go:129-144 | Without the review, or its pull request or repository, the answer is `NotFound` and nothing changes. Otherwise the comment is appended to exactly that review's comments. |
| `MemStore.Apply` | github/store/mem.go:38-167 | The store as a storer. Organizations, users, issues, issue comments, and every transaction or version call (including `Rollback`) succeed and change nothing. Any other save fails, changing nothing, exactly when its parent is missing. |
| `MemDownload.PullRequestCommentsAppend` | github/store/mem.go:102-107 | Comments saved one after the other end up stored in call order after the earlier ones. |
| `MemDownload.ReviewBlock` | github/store/mem.go:122-141 | After a review and its comments are saved, the review is stored with exactly those comments in order. |
| `MemDownload.PullRequestBlock` | github/store/mem.go:76-141 | After a pull request's reference calls, it is stored with its record, all assignees, labels and comments in order, and one review entry per served review. |
| `MemDownload.MemAcceptsRepository` | github/store/mem.go:48-144 | The in-memory store never answers `NotFound` to the reference calls of a repository whose own owner and name are the ones its children are saved under. Afterwards it holds the repository with all topics and one entry per pull request, and leaves every other repository unchanged. When the pull request numbers are distinct, each entry is its pull request as served: assignees, labels and comments in arrival order, and one review entry per review id. |
| `MemDownload.MemDownloadRepository` | github/downloader.go:98-176 | A fully served repository downloaded into the in-memory store succeeds, makes `Version`, `Begin`, the reference calls and `Commit`, and leaves the repository in the store. |
| `MemDownload.MemRejectsRenamedRepository` | github/downloader.go:158-170 | When the fetched repository's own owner or name differs from the requested pair, and nothing is stored under that pair, a repository with a pull request fails to download into the in-memory store and ends in `Rollback`. |
| `MemDownload.MemDownloadOrganization` | github/downloader.go:823-873 | An organization download into the in-memory store whose members are fully served commits the reference calls and leaves the store as it was. |
| `Migration.Trim` | examples/bitbucket-server-migration/main.go:191-196 | A text of at most 1000 bytes is unchanged. A longer one becomes its first 999 bytes followed by "...". The result is never longer than 1002 bytes, and is exactly 1002 bytes when the input was cut. |
| `Migration.TrimIdempotent` | examples/bitbucket-server-migration/main.go:191-196 | Trimming twice gives the same result as trimming once. |
| `Migration.Migrate` | examples/bitbucket-server-migration/main.go:57-74 | A missing repository is the only error. Otherwise exactly the pull requests in state `OPEN` are handed to the migration, each exactly once. A failed migration does not stop the others, and the failures reported are exactly the attempts that failed. |

## Left out

- GraphQL query construction, the `variables` maps, and the HTTP client, including the retrying transport. A page query's answer is part of the connection value instead.
- The downloader constructors and `RateRemaining`. They are plumbing around the client.
- The page-size constants. They bound page lengths, and a connection here has pages of any length.
- The messages that wrap an error. A failure names its kind: a failed `Begin`, a failed root query, a failed page query (with its connection), or a rejected save (with its call).
- The durable and standard-output storers, and any real version semantics. In the in-memory store, `Version`, `SetActiveVersion` and `Cleanup` are calls that change nothing. The downloader's `SetCurrent` and `Cleanup` are not part of this model.
- The store's mutex and all printing. The model is single-threaded.
- `github/getmemstore.go` and the live test in `github/bitbucket_test.go`.
- The Bitbucket client calls of the migration example: creating a pull request, its comments and its review comments. `Migration.Migrate` takes the outcome of migrating one pull request as a parameter. Configuration, OAuth and timing are left out too.
- The iteration order of Go maps. `Migration.Migrate` states no order among the pull requests it hands on.
- MemDownload.MemAcceptsRepository: states each pull request entry's contents only when the pull request numbers are distinct; with a repeated number the later pull request replaces the entry, and the model does not describe the merged review map that results.
- After a failed run, `Stopping.DownloadRepositoryStops` and `Stopping.DownloadOrganizationStops` state the store only up to the storer's answer to the calls made. The model does not fix what a real `Rollback` undoes, and the source makes no promise about it either.
- In the in-memory store `Rollback` does nothing (github/store/mem.go:154-156), so the saves made before a failure stay. `MemStore.Apply` treats `Rollback` as a call that changes nothing.

=== FILE: asking.dfy ===
/**
  The page queries of a run: which cursors the downloader asks of each
  connection, in which order, and how they follow the walker's schedule.
  A connection is named by its kind and its parent's id, as in the
  downloader's page queries; a walk asks for the page after each Fetch
  cursor of its schedule, up to the first abort, and nested walks never ask
  for a page of an enclosing connection.
 */
module Asking {
  import opened Graphql
  import opened Pagination
  import opened Storer
  import opened Downloader

  /** The events `out` added to `r`'s trace. */
  function Added<S>(r: Run<S>, out: Run<S>): seq<Event>
  {
    if |r.trace| <= |out.trace| then out.trace[|r.trace|..] else []
  }

  /** The page queries, as trace events, for `cursors` of one connection. */
  function PageQueries(kind: Kind, parent: string, cursors: seq<Cursor>): (events: seq<Event>)
    ensures |events| == |cursors|
  {
    if |cursors| == 0 then []
    else [Queried(PageQuery(kind, parent, cursors[0]))] + PageQueries(kind, parent, cursors[1..])
  }

  /** Whether `e` asks for a page of connection (`kind`, `parent`). */
  predicate AsksOf(kind: Kind, parent: string, e: Event)
  {
    e.Queried? && e.query.PageQuery? && e.query.kind == kind && e.query.parent == parent
  }

  /** The cursors asked of connection (`kind`, `parent`) in `events`, in order. */
  function AskedOf(kind: Kind, parent: string, events: seq<Event>): seq<Cursor>
  {
    if |events| == 0 then []
    else (if AsksOf(kind, parent, events[0]) then [events[0].query.after] else []) + AskedOf(kind, parent, events[1..])
  }

  /** Every query among `events` is a page query of one of `kinds`. */
  ghost predicate AsksOnly(events: seq<Event>, kinds: set<Kind>)
  {
    forall i :: 0 <= i < |events| && events[i].Queried? ==> events[i].query.PageQuery? && events[i].query.kind in kinds
  }

  /** The steps of a schedule before its first abort. */
  function UntilAbort<T>(steps: seq<Step<T>>): (prefix: seq<Step<T>>)
    ensures |prefix| <= |steps| && prefix == steps[..|prefix|]
    ensures NoAbort(prefix)
    ensures |prefix| < |steps| ==> steps[|prefix|].Abort?
  {
    if |steps| == 0 || steps[0].Abort? then []
    else
      var rest := UntilAbort(steps[1..]);
      NoAbortTail([steps[0]] + rest);
      assert ([steps[0]] + rest)[1..] == rest;
      [steps[0]] + rest
  }

  // ---------------------------------------------------------------------
  // Projections.
  // ---------------------------------------------------------------------

  lemma {:induction false} AskedOfAppend(kind: Kind, parent: string, a: seq<Event>, b: seq<Event>)
    ensures AskedOf(kind, parent, a + b) == AskedOf(kind, parent, a) + AskedOf(kind, parent, b)
    decreases |a|
  {
    if |a| > 0 {
      assert (a + b)[1..] == a[1..] + b;
      AskedOfAppend(kind, parent, a[1..], b);
    } else {
      assert a + b == b;
    }
  }

  lemma {:induction false} AskedOfPageQueries(kind: Kind, parent: string, cursors: seq<Cursor>)
    ensures AskedOf(kind, parent, PageQueries(kind, parent, cursors)) == cursors
    decreases |cursors|
  {
    if |cursors| > 0 {
      var events := PageQueries(kind, parent, cursors);
      assert events[1..] == PageQueries(kind, parent, cursors[1..]);
      AskedOfPageQueries(kind, parent, cursors[1..]);
    }
  }

  /** A connection outside `kinds` is asked nothing by events that page only `kinds`. */
  lemma {:induction false} AskedOfOther(kind: Kind, parent: string, events: seq<Event>, kinds: set<Kind>)
    requires AsksOnly(events, kinds) && kind !in kinds
    ensures AskedOf(kind, parent, events) == []
    decreases |events|
  {
    if |events| > 0 {
      assert AsksOnly(events[1..], kinds) by {
        forall i | 0 <= i < |events[1..]| && events[1..][i].Queried?
          ensures events[1..][i].query.PageQuery? && events[1..][i].query.kind in kinds
        {
          assert events[1..][i] == events[i + 1];
        }
      }
      AskedOfOther(kind, parent, events[1..], kinds);
    }
  }

  lemma PageQueriesAskOnly(kind: Kind, parent: string, cursors: seq<Cursor>)
    ensures AsksOnly(PageQueries(kind, parent, cursors), {kind})
    decreases |cursors|
  {
    if |cursors| > 0 {
      PageQueriesAskOnly(kind, parent, cursors[1..]);
      var events := PageQueries(kind, parent, cursors);
      forall i | 0 <= i < |events| && events[i].Queried?
        ensures events[i].query.PageQuery? && events[i].query.kind in {kind}
      {
        if i > 0 {
          assert events[i] == PageQueries(kind, parent, cursors[1..])[i - 1];
        }
      }
    }
  }

  lemma AsksOnlyAppend(a: seq<Event>, b: seq<Event>, kinds: set<Kind>, more: set<Kind>)
    requires AsksOnly(a, kinds) && AsksOnly(b, more)
    ensures AsksOnly(a + b, kinds + more)
  {
    forall i | 0 <= i < |a + b| && (a + b)[i].Queried?
      ensures (a + b)[i].query.PageQuery? && (a + b)[i].query.kind in kinds + more
    {
      if i >= |a| {
        assert (a + b)[i] == b[i - |a|];
      }
    }
  }

  /** What a step from `r1` to `r3` added is what it added up to `r2`, then from there. */
  lemma AddedSplit<S(!new)>(r1: Run<S>, r2: Run<S>, r3: Run<S>)
    requires Grows(r1, r2) && Grows(r2, r3)
    ensures Added(r1, r3) == Added(r1, r2) + Added(r2, r3)
  {
    assert r3.trace[..|r2.trace|][|r1.trace|..] == r2.trace[|r1.trace|..];
  }

  // ---------------------------------------------------------------------
  // The walker's queries.
  // ---------------------------------------------------------------------

  /** A gathering walk asks the page after each Fetch cursor of its schedule up
      to the first abort, in order, and nothing else. */
  lemma {:induction false} CollectAsks<S(!new)>(steps: seq<Step<string>>, kind: Kind, parent: string, r: Run<S>, acc: seq<string>)
    requires r.failure.None?
    ensures Added(r, Collect(steps, kind, parent, r, acc).run) == PageQueries(kind, parent, Cursors(UntilAbort(steps)))
    decreases |steps|
  {
    if |steps| > 0 {
      var prefix := UntilAbort(steps);
      match steps[0]
        case Visit(node) =>
          assert Collect(steps, kind, parent, r, acc) == Collect(steps[1..], kind, parent, r, acc + [node]);
          CollectAsks(steps[1..], kind, parent, r, acc + [node]);
          assert prefix == [steps[0]] + UntilAbort(steps[1..]);
          assert prefix[1..] == UntilAbort(steps[1..]);
          assert Cursors(prefix) == Cursors(prefix[1..]);
        case Fetch(cursor) =>
          var asked := Ask(r, PageQuery(kind, parent, cursor));
          var out := Collect(steps[1..], kind, parent, asked, acc);
          CollectAsks(steps[1..], kind, parent, asked, acc);
          AddedSplit(r, asked, out.run);
          assert Added(r, asked) == [Queried(PageQuery(kind, parent, cursor))];
          assert prefix == [steps[0]] + UntilAbort(steps[1..]);
          assert prefix[1..] == UntilAbort(steps[1..]);
        case Abort(_) =>
    }
  }

  /** `asked` is the first `|asked|` of `cursors`. */
  predicate PrefixOf(asked: seq<Cursor>, cursors: seq<Cursor>)
  {
    |asked| <= |cursors| && asked == cursors[..|asked|]
  }

  lemma PrefixOfCons(head: seq<Cursor>, asked: seq<Cursor>, cursors: seq<Cursor>)
    requires PrefixOf(asked, cursors)
    ensures PrefixOf(head + asked, head + cursors)
  {
    assert (head + cursors)[..|head| + |asked|] == head + cursors[..|asked|];
  }

  /** The run a walk continues from after a step that is not an abort. */
  function NextRun<T, S(!new)>(step: Step<T>, kind: Kind, parent: string, visit: (Run<S>, T) -> Run<S>, r: Run<S>): Run<S>
    requires !step.Abort?
  {
    if step.Visit? then visit(r, step.node) else Ask(r, PageQuery(kind, parent, step.after))
  }

  lemma DriveStep<T(!new), S(!new)>(steps: seq<Step<T>>, kind: Kind, parent: string, visit: (Run<S>, T) -> Run<S>, r: Run<S>)
    requires forall r', t :: Grows(r', visit(r', t))
    requires r.failure.None? && |steps| > 0 && !steps[0].Abort?
    ensures Drive(steps, kind, parent, visit, r) == Drive(steps[1..], kind, parent, visit, NextRun(steps[0], kind, parent, visit, r))
    ensures Grows(r, NextRun(steps[0], kind, parent, visit, r))
  {
  }

  /** A walk whose visits never page its own connection asks that
      connection for the Fetch cursors of its schedule, in order: a prefix
      of them before the first abort, and all of them when the run ends
      well. */
  lemma {:induction false} DriveAsks<T(!new), S(!new)>(steps: seq<Step<T>>, kind: Kind, parent: string, visit: (Run<S>, T) -> Run<S>, r: Run<S>)
    requires forall r', t :: Grows(r', visit(r', t))
    requires forall r', t :: AskedOf(kind, parent, Added(r', visit(r', t))) == []
    requires r.failure.None?
    ensures PrefixOf(AskedOf(kind, parent, Added(r, Drive(steps, kind, parent, visit, r))), Cursors(UntilAbort(steps)))
    ensures Drive(steps, kind, parent, visit, r).failure.None? ==>
      AskedOf(kind, parent, Added(r, Drive(steps, kind, parent, visit, r))) == Cursors(steps)
    decreases |steps|
  {
    if |steps| > 0 && !steps[0].Abort? {
      var out := Drive(steps, kind, parent, visit, r);
      var next := NextRun(steps[0], kind, parent, visit, r);
      DriveStep(steps, kind, parent, visit, r);
      var head := if steps[0].Fetch? then [steps[0].after] else [];
      assert Cursors(UntilAbort(steps)) == head + Cursors(UntilAbort(steps[1..])) by {
        var prefix := UntilAbort(steps);
        assert prefix == [steps[0]] + UntilAbort(steps[1..]);
        assert prefix[1..] == UntilAbort(steps[1..]);
      }
      assert Cursors(steps) == head + Cursors(steps[1..]);
      assert AskedOf(kind, parent, Added(r, out)) == head + AskedOf(kind, parent, Added(next, out)) by {
        assert AskedOf(kind, parent, Added(r, next)) == head by {
          if steps[0].Fetch? {
            assert Added(r, next) == [Queried(PageQuery(kind, parent, steps[0].after))];
          }
        }
        AddedSplit(r, next, out);
        AskedOfAppend(kind, parent, Added(r, next), Added(next, out));
      }
      if next.failure.None? {
        DriveAsks(steps[1..], kind, parent, visit, next);
        PrefixOfCons(head, AskedOf(kind, parent, Added(next, out)), Cursors(UntilAbort(steps[1..])));
      } else {
        assert out == next;
        assert Added(next, out) == [];
      }
    }
  }

  /** A walk pages only its own connection besides what its visits page. */
  lemma {:induction false} DriveAsksOnly<T(!new), S(!new)>(steps: seq<Step<T>>, kind: Kind, parent: string, visit: (Run<S>, T) -> Run<S>, r: Run<S>, kinds: set<Kind>)
    requires forall r', t :: Grows(r', visit(r', t))
    requires forall r', t :: AsksOnly(Added(r', visit(r', t)), kinds)
    ensures AsksOnly(Added(r, Drive(steps, kind, parent, visit, r)), kinds + {kind})
    decreases |steps|
  {
    var out := Drive(steps, kind, parent, visit, r);
    if r.failure.None? && |steps| > 0 {
      match steps[0]
        case Visit(node) =>
          var next := visit(r, node);
          DriveAsksOnly(steps[1..], kind, parent, visit, next, kinds);
          AddedSplit(r, next, out);
          AsksOnlyAppend(Added(r, next), Added(next, out), kinds, kinds + {kind});
          assert kinds + (kinds + {kind}) == kinds + {kind};
        case Fetch(cursor) =>
          var next := Ask(r, PageQuery(kind, parent, cursor));
          DriveAsksOnly(steps[1..], kind, parent, visit, next, kinds);
          AddedSplit(r, next, out);
          assert Added(r, next) == [Queried(PageQuery(kind, parent, cursor))];
          AsksOnlyAppend(Added(r, next), Added(next, out), {kind}, kinds + {kind});
          assert {kind} + (kinds + {kind}) == kinds + {kind};
        case Abort(_) =>
    }
  }

  // ---------------------------------------------------------------------
  // Walks of a connection.
  // ---------------------------------------------------------------------

  lemma CursorsUntilAbort<T>(steps: seq<Step<T>>)
    ensures PrefixOf(Cursors(UntilAbort(steps)), Cursors(steps))
    ensures NoAbort(steps) ==> UntilAbort(steps) == steps
  {
    var prefix := UntilAbort(steps);
    assert steps == prefix + steps[|prefix|..];
    VisitedAppend(prefix, steps[|prefix|..]);
  }

  /** The cursors asked of connection (`kind`, `parent`) between `r` and
      `out` follow the walk of `c`: a prefix of its Fetch cursors, all of
      them when `out` ended well. */
  ghost predicate AskedAlong<T, S>(kind: Kind, parent: string, c: Connection<T>, r: Run<S>, out: Run<S>)
  {
    Along(AskedOf(kind, parent, Added(r, out)), c, out.failure.None?)
  }

  /** `asked` is a prefix of the Fetch cursors of the walk of `c`, all of
      them when the run `ended` well. */
  ghost predicate Along<T>(asked: seq<Cursor>, c: Connection<T>, ended: bool)
  {
    PrefixOf(asked, Cursors(Walk(c))) && (ended ==> asked == Cursors(Walk(c)))
  }

  /** A gathering walk of `c` asks the page after each of its Fetch cursors and
      nothing else, all of them when the connection was served to the end. */
  lemma WalkCollectAsks<S(!new)>(c: Connection<string>, kind: Kind, parent: string, r: Run<S>)
    requires r.failure.None?
    ensures var out := Collect(Walk(c), kind, parent, r, []).run;
      && AsksOnly(Added(r, out), {kind})
      && AskedAlong(kind, parent, c, r, out)
      && (Complete(c) ==> Added(r, out) == PageQueries(kind, parent, Cursors(Walk(c))))
  {
    var steps := Walk(c);
    var out := Collect(steps, kind, parent, r, []).run;
    CollectAsks(steps, kind, parent, r, []);
    CursorsUntilAbort(steps);
    PageQueriesAskOnly(kind, parent, Cursors(UntilAbort(steps)));
    AskedOfPageQueries(kind, parent, Cursors(UntilAbort(steps)));
    WalkDeliversServedPages(c);
  }

  /** A gathering walk pages its own connection only. */
  lemma WalkCollectAsksOnly<S(!new)>(c: Connection<string>, kind: Kind, parent: string, r: Run<S>)
    ensures AsksOnly(Added(r, Collect(Walk(c), kind, parent, r, []).run), {kind})
  {
    if r.failure.None? {
      WalkCollectAsks(c, kind, parent, r);
    } else {
      assert Added(r, Collect(Walk(c), kind, parent, r, []).run) == [];
    }
  }

  /** A walk of `c` whose visits page only `kinds`, not its own, pages only
      those and its own connection, along the walk. */
  lemma WalkDriveAsks<T(!new), S(!new)>(c: Connection<T>, kind: Kind, parent: string, visit: (Run<S>, T) -> Run<S>, r: Run<S>, kinds: set<Kind>)
    requires forall r', t :: Grows(r', visit(r', t))
    requires forall r', t :: AsksOnly(Added(r', visit(r', t)), kinds)
    requires kind !in kinds && r.failure.None?
    ensures var out := Drive(Walk(c), kind, parent, visit, r);
      AsksOnly(Added(r, out), kinds + {kind}) && AskedAlong(kind, parent, c, r, out)
  {
    var steps := Walk(c);
    forall r', t ensures AskedOf(kind, parent, Added(r', visit(r', t))) == [] {
      AskedOfOther(kind, parent, Added(r', visit(r', t)), kinds);
    }
    DriveAsks(steps, kind, parent, visit, r);
    DriveAsksOnly(steps, kind, parent, visit, r, kinds);
    CursorsUntilAbort(steps);
    var asked := AskedOf(kind, parent, Added(r, Drive(steps, kind, parent, visit, r)));
    var cursors := Cursors(UntilAbort(steps));
    assert Cursors(steps)[..|cursors|][..|asked|] == Cursors(steps)[..|asked|];
  }

  lemma SaveAsksNothing<S(!new)>(apply: Backend<S>, r: Run<S>, call: Call)
    requires !call.IsControl()
    ensures AsksOnly(Added(r, Save(apply, r, call)), {})
  {
  }

  /** Paging only `first` and then only `second` pages only `kinds`, which holds both. */
  lemma ThenAsksOnly<S(!new)>(r: Run<S>, mid: Run<S>, out: Run<S>, first: set<Kind>, second: set<Kind>, kinds: set<Kind>)
    requires Grows(r, mid) && Grows(mid, out)
    requires AsksOnly(Added(r, mid), first)
    requires mid.failure.None? ==> AsksOnly(Added(mid, out), second)
    requires first <= kinds && second <= kinds
    ensures AsksOnly(Added(r, out), kinds)
  {
    AddedSplit(r, mid, out);
    if mid.failure.Some? {
      assert Added(mid, out) == [];
    }
    AsksOnlyAppend(Added(r, mid), Added(mid, out), first, second);
  }

  // ---------------------------------------------------------------------
  // The traversal's walks.
  // ---------------------------------------------------------------------

  const IssueKinds: set<Kind> := {IssueAssignees, IssueLabels, IssueComments}
  const ReviewKinds: set<Kind> := {ReviewComments}
  const PullRequestKinds: set<Kind> :=
    {PullRequestAssignees, PullRequestLabels, PullRequestComments, PullRequestReviews, ReviewComments}

  /** How the connections of the traversal's levels nest. */
  lemma KindsFit()
    ensures {IssueAssignees} <= {IssueAssignees, IssueLabels} && {IssueLabels} <= {IssueAssignees, IssueLabels}
    ensures {IssueAssignees, IssueLabels} <= IssueKinds && {IssueComments} <= IssueKinds
    ensures {PullRequestAssignees} <= {PullRequestAssignees, PullRequestLabels}
    ensures {PullRequestLabels} <= {PullRequestAssignees, PullRequestLabels}
    ensures {PullRequestAssignees, PullRequestLabels} <= {PullRequestAssignees, PullRequestLabels, PullRequestComments}
    ensures {PullRequestComments} <= {PullRequestAssignees, PullRequestLabels, PullRequestComments}
    ensures {PullRequestAssignees, PullRequestLabels, PullRequestComments} <= PullRequestKinds
    ensures ReviewKinds + {PullRequestReviews} <= PullRequestKinds
    ensures IssueKinds + {Issues} <= TailKinds && PullRequestKinds + {PullRequests} <= TailKinds
    ensures {Topics} <= RepositoryKinds && TailKinds <= RepositoryKinds
    ensures Issues !in IssueKinds && PullRequests !in PullRequestKinds && PullRequestReviews !in ReviewKinds
    ensures Issues !in PullRequestKinds + {PullRequests} && PullRequests !in IssueKinds + {Issues}
    ensures Topics !in TailKinds && Issues !in {Topics} && PullRequests !in {Topics}
  {
  }

  lemma IssueCommentsAsk<S(!new)>(apply: Backend<S>, owner: string, name: string, issue: Issue, r: Run<S>)
    requires r.failure.None?
    ensures var out := DownloadIssueComments(apply, owner, name, issue, r);
      AsksOnly(Added(r, out), {IssueComments}) && AskedAlong(IssueComments, issue.id, issue.comments, r, out)
  {
    var visit := SaveIssueCommentVisit(apply, owner, name, issue.number);
    forall r', t ensures AsksOnly(Added(r', visit(r', t)), {}) {
      SaveAsksNothing(apply, r', SaveIssueComment(owner, name, issue.number, t));
    }
    WalkDriveAsks(issue.comments, IssueComments, issue.id, visit, r, {});
  }

  /** Up to its save, an issue pages only its assignees and labels. */
  lemma IssueGatherAsks<S(!new)>(apply: Backend<S>, owner: string, name: string, issue: Issue, r: Run<S>)
    requires r.failure.None?
    ensures var assignees := DownloadIssueAssignees(issue, r);
      var labels := DownloadIssueLabels(issue, assignees.run);
      AsksOnly(Added(r, Save(apply, labels.run, SaveIssue(owner, name, issue, assignees.items, labels.items))),
               {IssueAssignees, IssueLabels})
  {
    var assignees := DownloadIssueAssignees(issue, r);
    var labels := DownloadIssueLabels(issue, assignees.run);
    var saved := Save(apply, labels.run, SaveIssue(owner, name, issue, assignees.items, labels.items));
    var kinds := {IssueAssignees, IssueLabels};
    GrowsTransitive(r, assignees.run, labels.run);
    WalkCollectAsksOnly(issue.assignees, IssueAssignees, issue.id, r);
    WalkCollectAsksOnly(issue.labels, IssueLabels, issue.id, assignees.run);
    KindsFit();
    ThenAsksOnly(r, assignees.run, labels.run, {IssueAssignees}, {IssueLabels}, kinds);
    SaveAsksNothing(apply, labels.run, SaveIssue(owner, name, issue, assignees.items, labels.items));
    ThenAsksOnly(r, labels.run, saved, kinds, {}, kinds);
  }

  /** An issue pages its assignees, its labels and its comments, nothing else. */
  lemma ProcessIssueAsks<S(!new)>(apply: Backend<S>, owner: string, name: string, issue: Issue, r: Run<S>)
    ensures AsksOnly(Added(r, ProcessIssue(apply, owner, name, issue, r)), IssueKinds)
  {
    if r.failure.None? {
      var assignees := DownloadIssueAssignees(issue, r);
      var labels := DownloadIssueLabels(issue, assignees.run);
      var saved := Save(apply, labels.run, SaveIssue(owner, name, issue, assignees.items, labels.items));
      var out := ProcessIssue(apply, owner, name, issue, r);
      GrowsTransitive(r, assignees.run, labels.run);
      GrowsTransitive(r, labels.run, saved);
      assert AsksOnly(Added(r, saved), {IssueAssignees, IssueLabels}) by {
        IssueGatherAsks(apply, owner, name, issue, r);
      }
      assert saved.failure.None? ==> AsksOnly(Added(saved, out), {IssueComments}) by {
        if saved.failure.None? {
          IssueCommentsAsk(apply, owner, name, issue, saved);
        }
      }
      KindsFit();
      ThenAsksOnly(r, saved, out, {IssueAssignees, IssueLabels}, {IssueComments}, IssueKinds);
    }
  }

  /** The issues of a repository are paged along the walk of its issue
      connection; besides, only the issues' own connections are paged. */
  lemma IssuesAsk<S(!new)>(apply: Backend<S>, owner: string, name: string, repository: Repository, r: Run<S>)
    requires r.failure.None?
    ensures var out := DownloadIssues(apply, owner, name, repository, r);
      && AsksOnly(Added(r, out), IssueKinds + {Issues})
      && AskedAlong(Issues, repository.fields.id, repository.issues, r, out)
  {
    var visit := ProcessIssueVisit(apply, owner, name);
    forall r', t ensures AsksOnly(Added(r', visit(r', t)), IssueKinds) {
      ProcessIssueAsks(apply, owner, name, t, r');
    }
    KindsFit();
    WalkDriveAsks(repository.issues, Issues, repository.fields.id, visit, r, IssueKinds);
  }

  lemma PullRequestCommentsAsk<S(!new)>(apply: Backend<S>, owner: string, name: string, pr: PullRequest, r: Run<S>)
    requires r.failure.None?
    ensures var out := DownloadPullRequestComments(apply, owner, name, pr, r);
      AsksOnly(Added(r, out), {PullRequestComments}) && AskedAlong(PullRequestComments, pr.id, pr.comments, r, out)
  {
    var visit := SavePullRequestCommentVisit(apply, owner, name, pr.number);
    forall r', t ensures AsksOnly(Added(r', visit(r', t)), {}) {
      SaveAsksNothing(apply, r', SavePullRequestComment(owner, name, pr.number, t));
    }
    WalkDriveAsks(pr.comments, PullRequestComments, pr.id, visit, r, {});
  }

  lemma ReviewCommentsAsk<S(!new)>(apply: Backend<S>, owner: string, name: string, number: int, review: PullRequestReview, r: Run<S>)
    requires r.failure.None?
    ensures var out := DownloadReviewComments(apply, owner, name, number, review, r);
      AsksOnly(Added(r, out), ReviewKinds) && AskedAlong(ReviewComments, review.id, review.comments, r, out)
  {
    var visit := SaveReviewCommentVisit(apply, owner, name, number, review.databaseId);
    forall r', t ensures AsksOnly(Added(r', visit(r', t)), {}) {
      SaveAsksNothing(apply, r', SavePullRequestReviewComment(owner, name, number, review.databaseId, t));
    }
    WalkDriveAsks(review.comments, ReviewComments, review.id, visit, r, {});
  }

  /** A review pages its comments, nothing else. */
  lemma ProcessReviewAsks<S(!new)>(apply: Backend<S>, owner: string, name: string, number: int, review: PullRequestReview, r: Run<S>)
    ensures AsksOnly(Added(r, ProcessReview(apply, owner, name, number, review, r)), ReviewKinds)
  {
    if r.failure.None? {
      var saved := Save(apply, r, SavePullRequestReview(owner, name, number, review));
      var out := DownloadReviewComments(apply, owner, name, number, review, saved);
      SaveAsksNothing(apply, r, SavePullRequestReview(owner, name, number, review));
      AddedSplit(r, saved, out);
      if saved.failure.None? {
        ReviewCommentsAsk(apply, owner, name, number, review, saved);
      } else {
        assert Added(saved, out) == [];
      }
      AsksOnlyAppend(Added(r, saved), Added(saved, out), {}, ReviewKinds);
    }
  }

  lemma PullRequestReviewsAsk<S(!new)>(apply: Backend<S>, owner: string, name: string, pr: PullRequest, r: Run<S>)
    requires r.failure.None?
    ensures var out := DownloadPullRequestReviews(apply, owner, name, pr, r);
      AsksOnly(Added(r, out), ReviewKinds + {PullRequestReviews}) && AskedAlong(PullRequestReviews, pr.id, pr.reviews, r, out)
  {
    var visit := ProcessReviewVisit(apply, owner, name, pr.number);
    forall r', t ensures AsksOnly(Added(r', visit(r', t)), ReviewKinds) {
      ProcessReviewAsks(apply, owner, name, pr.number, t, r');
    }
    KindsFit();
    WalkDriveAsks(pr.reviews, PullRequestReviews, pr.id, visit, r, ReviewKinds);
  }

  /** Up to its save, a pull request pages only its assignees and labels. */
  lemma PullRequestGatherAsks<S(!new)>(apply: Backend<S>, owner: string, name: string, pr: PullRequest, r: Run<S>)
    requires r.failure.None?
    ensures var assignees := DownloadPullRequestAssignees(pr, r);
      var labels := DownloadPullRequestLabels(pr, assignees.run);
      AsksOnly(Added(r, Save(apply, labels.run, SavePullRequest(owner, name, pr, assignees.items, labels.items))),
               {PullRequestAssignees, PullRequestLabels})
  {
    var assignees := DownloadPullRequestAssignees(pr, r);
    var labels := DownloadPullRequestLabels(pr, assignees.run);
    var saved := Save(apply, labels.run, SavePullRequest(owner, name, pr, assignees.items, labels.items));
    var kinds := {PullRequestAssignees, PullRequestLabels};
    GrowsTransitive(r, assignees.run, labels.run);
    WalkCollectAsksOnly(pr.assignees, PullRequestAssignees, pr.id, r);
    WalkCollectAsksOnly(pr.labels, PullRequestLabels, pr.id, assignees.run);
    KindsFit();
    ThenAsksOnly(r, assignees.run, labels.run, {PullRequestAssignees}, {PullRequestLabels}, kinds);
    SaveAsksNothing(apply, labels.run, SavePullRequest(owner, name, pr, assignees.items, labels.items));
    ThenAsksOnly(r, labels.run, saved, kinds, {}, kinds);
  }

  /** Up to its reviews, a pull request pages only its assignees, labels and comments. */
  lemma PullRequestHeadAsks<S(!new)>(apply: Backend<S>, owner: string, name: string, pr: PullRequest, r: Run<S>)
    requires r.failure.None?
    ensures var assignees := DownloadPullRequestAssignees(pr, r);
      var labels := DownloadPullRequestLabels(pr, assignees.run);
      var saved := Save(apply, labels.run, SavePullRequest(owner, name, pr, assignees.items, labels.items));
      AsksOnly(Added(r, DownloadPullRequestComments(apply, owner, name, pr, saved)),
               {PullRequestAssignees, PullRequestLabels, PullRequestComments})
  {
    var assignees := DownloadPullRequestAssignees(pr, r);
    var labels := DownloadPullRequestLabels(pr, assignees.run);
    var saved := Save(apply, labels.run, SavePullRequest(owner, name, pr, assignees.items, labels.items));
    var commented := DownloadPullRequestComments(apply, owner, name, pr, saved);
    GrowsTransitive(r, assignees.run, labels.run);
    GrowsTransitive(r, labels.run, saved);
    assert AsksOnly(Added(r, saved), {PullRequestAssignees, PullRequestLabels}) by {
      PullRequestGatherAsks(apply, owner, name, pr, r);
    }
    assert saved.failure.None? ==> AsksOnly(Added(saved, commented), {PullRequestComments}) by {
      if saved.failure.None? {
        PullRequestCommentsAsk(apply, owner, name, pr, saved);
      }
    }
    assert AsksOnly(Added(r, commented), {PullRequestAssignees, PullRequestLabels, PullRequestComments}) by {
      KindsFit();
      ThenAsksOnly(r, saved, commented, {PullRequestAssignees, PullRequestLabels}, {PullRequestComments},
                   {PullRequestAssignees, PullRequestLabels, PullRequestComments});
    }
  }

  /** A pull request pages its assignees, labels, comments, reviews and its
      reviews' comments, nothing else. */
  lemma ProcessPullRequestAsks<S(!new)>(apply: Backend<S>, owner: string, name: string, pr: PullRequest, r: Run<S>)
    ensures AsksOnly(Added(r, ProcessPullRequest(apply, owner, name, pr, r)), PullRequestKinds)
  {
    if r.failure.None? {
      var assignees := DownloadPullRequestAssignees(pr, r);
      var labels := DownloadPullRequestLabels(pr, assignees.run);
      var saved := Save(apply, labels.run, SavePullRequest(owner, name, pr, assignees.items, labels.items));
      var commented := DownloadPullRequestComments(apply, owner, name, pr, saved);
      var out := ProcessPullRequest(apply, owner, name, pr, r);
      GrowsTransitive(r, assignees.run, labels.run);
      GrowsTransitive(r, labels.run, saved);
      GrowsTransitive(r, saved, commented);
      assert out == DownloadPullRequestReviews(apply, owner, name, pr, commented);
      assert AsksOnly(Added(r, commented), {PullRequestAssignees, PullRequestLabels, PullRequestComments}) by {
        PullRequestHeadAsks(apply, owner, name, pr, r);
      }
      assert commented.failure.None? ==> AsksOnly(Added(commented, out), ReviewKinds + {PullRequestReviews}) by {
        if commented.failure.None? {
          PullRequestReviewsAsk(apply, owner, name, pr, commented);
        }
      }
      KindsFit();
      ThenAsksOnly(r, commented, out, {PullRequestAssignees, PullRequestLabels, PullRequestComments},
                   ReviewKinds + {PullRequestReviews}, PullRequestKinds);
    }
  }

  /** The pull requests of a repository are paged along the walk of their
      connection; besides, only the pull requests' own connections are paged. */
  lemma PullRequestsAsk<S(!new)>(apply: Backend<S>, owner: string, name: string, repository: Repository, r: Run<S>)
    requires r.failure.None?
    ensures var out := DownloadPullRequests(apply, owner, name, repository, r);
      && AsksOnly(Added(r, out), PullRequestKinds + {PullRequests})
      && AskedAlong(PullRequests, repository.fields.id, repository.pullRequests, r, out)
  {
    var visit := ProcessPullRequestVisit(apply, owner, name);
    forall r', t ensures AsksOnly(Added(r', visit(r', t)), PullRequestKinds) {
      ProcessPullRequestAsks(apply, owner, name, t, r');
    }
    KindsFit();
    WalkDriveAsks(repository.pullRequests, PullRequests, repository.fields.id, visit, r, PullRequestKinds);
  }

  /** The members of an organization are paged along the walk of their
      connection, and nothing else is paged. */
  lemma UsersAsk<S(!new)>(apply: Backend<S>, login: string, organization: Organization, r: Run<S>)
    requires r.failure.None?
    ensures var out := DownloadUsers(apply, login, organization, r);
      AsksOnly(Added(r, out), {MembersWithRole}) && AskedAlong(MembersWithRole, login, organization.membersWithRole, r, out)
  {
    var visit := SaveUserVisit(apply);
    forall r', t ensures AsksOnly(Added(r', visit(r', t)), {}) {
      SaveAsksNothing(apply, r', SaveUser(t));
    }
    WalkDriveAsks(organization.membersWithRole, MembersWithRole, login, visit, r, {});
  }

  // ---------------------------------------------------------------------
  // Whole traversals.
  // ---------------------------------------------------------------------

  /** A step that does not page connection (`kind`, `parent`) keeps the
      cursors asked of it along the walk of `c`. */
  lemma AlongThen<T, S(!new)>(kind: Kind, parent: string, c: Connection<T>, r: Run<S>, mid: Run<S>, out: Run<S>)
    requires Grows(r, mid) && Grows(mid, out)
    requires AskedAlong(kind, parent, c, r, mid)
    requires mid.failure.None? ==> AskedOf(kind, parent, Added(mid, out)) == []
    ensures AskedAlong(kind, parent, c, r, out)
  {
    AddedSplit(r, mid, out);
    AskedOfAppend(kind, parent, Added(r, mid), Added(mid, out));
    if mid.failure.Some? {
      assert Added(mid, out) == [];
    }
  }

  lemma AlongAfter<T, S(!new)>(kind: Kind, parent: string, c: Connection<T>, r: Run<S>, mid: Run<S>, out: Run<S>)
    requires Grows(r, mid) && Grows(mid, out)
    requires AskedOf(kind, parent, Added(r, mid)) == []
    requires mid.failure.None? ==> AskedAlong(kind, parent, c, mid, out)
    ensures AskedAlong(kind, parent, c, r, out)
  {
    AddedSplit(r, mid, out);
    AskedOfAppend(kind, parent, Added(r, mid), Added(mid, out));
    if mid.failure.Some? {
      assert Added(mid, out) == [];
    }
  }

  /** Every connection but an organization's members. */
  const RepositoryKinds: set<Kind> :=
    {Topics, Issues, IssueAssignees, IssueLabels, IssueComments, PullRequests, PullRequestAssignees,
     PullRequestLabels, PullRequestComments, PullRequestReviews, ReviewComments}
  const TailKinds: set<Kind> := RepositoryKinds - {Topics}

  /** After the repository save, only issue and pull request connections are paged. */
  lemma RepositoryTailAsksOnly<S(!new)>(apply: Backend<S>, owner: string, name: string, repository: Repository, r: Run<S>)
    requires r.failure.None?
    ensures var issues := DownloadIssues(apply, owner, name, repository, r);
      AsksOnly(Added(r, DownloadPullRequests(apply, owner, name, repository, issues)), TailKinds)
  {
    var issues := DownloadIssues(apply, owner, name, repository, r);
    var out := DownloadPullRequests(apply, owner, name, repository, issues);
    assert AsksOnly(Added(r, issues), IssueKinds + {Issues}) by {
      IssuesAsk(apply, owner, name, repository, r);
    }
    assert issues.failure.None? ==> AsksOnly(Added(issues, out), PullRequestKinds + {PullRequests}) by {
      if issues.failure.None? {
        PullRequestsAsk(apply, owner, name, repository, issues);
      }
    }
    KindsFit();
    ThenAsksOnly(r, issues, out, IssueKinds + {Issues}, PullRequestKinds + {PullRequests}, TailKinds);
  }

  /** After the repository save, issues are paged along their walk. */
  lemma RepositoryTailAsksIssues<S(!new)>(apply: Backend<S>, owner: string, name: string, repository: Repository, r: Run<S>)
    requires r.failure.None?
    ensures var issues := DownloadIssues(apply, owner, name, repository, r);
      AskedAlong(Issues, repository.fields.id, repository.issues, r, DownloadPullRequests(apply, owner, name, repository, issues))
  {
    var id := repository.fields.id;
    var issues := DownloadIssues(apply, owner, name, repository, r);
    var out := DownloadPullRequests(apply, owner, name, repository, issues);
    assert AskedAlong(Issues, id, repository.issues, r, issues) by {
      IssuesAsk(apply, owner, name, repository, r);
    }
    assert issues.failure.None? ==> AskedOf(Issues, id, Added(issues, out)) == [] by {
      if issues.failure.None? {
        assert AsksOnly(Added(issues, out), PullRequestKinds + {PullRequests}) by {
          PullRequestsAsk(apply, owner, name, repository, issues);
        }
        KindsFit();
        AskedOfOther(Issues, id, Added(issues, out), PullRequestKinds + {PullRequests});
      }
    }
    AlongThen(Issues, id, repository.issues, r, issues, out);
  }

  /** After the repository save and the issues, pull requests are paged along their walk. */
  lemma RepositoryTailAsksPullRequests<S(!new)>(apply: Backend<S>, owner: string, name: string, repository: Repository, r: Run<S>)
    requires r.failure.None?
    ensures var issues := DownloadIssues(apply, owner, name, repository, r);
      AskedAlong(PullRequests, repository.fields.id, repository.pullRequests, r, DownloadPullRequests(apply, owner, name, repository, issues))
  {
    var id := repository.fields.id;
    var issues := DownloadIssues(apply, owner, name, repository, r);
    var out := DownloadPullRequests(apply, owner, name, repository, issues);
    assert AskedOf(PullRequests, id, Added(r, issues)) == [] by {
      IssuesAsk(apply, owner, name, repository, r);
      KindsFit();
      AskedOfOther(PullRequests, id, Added(r, issues), IssueKinds + {Issues});
    }
    assert issues.failure.None? ==> AskedAlong(PullRequests, id, repository.pullRequests, issues, out) by {
      if issues.failure.None? {
        PullRequestsAsk(apply, owner, name, repository, issues);
      }
    }
    AlongAfter(PullRequests, id, repository.pullRequests, r, issues, out);
  }

  /** Up to its save, a repository pages its topics, along their walk. */
  lemma RepositoryHeadAsks<S(!new)>(apply: Backend<S>, repository: Repository, r: Run<S>)
    requires r.failure.None?
    ensures var topics := DownloadTopics(repository, r);
      var saved := Save(apply, topics.run, SaveRepository(repository.fields, topics.items));
      AsksOnly(Added(r, saved), {Topics}) && AskedAlong(Topics, repository.fields.id, repository.topics, r, saved)
  {
    var id := repository.fields.id;
    var topics := DownloadTopics(repository, r);
    var saved := Save(apply, topics.run, SaveRepository(repository.fields, topics.items));
    GrowsTransitive(r, topics.run, saved);
    assert AsksOnly(Added(r, topics.run), {Topics}) && AskedAlong(Topics, id, repository.topics, r, topics.run) by {
      WalkCollectAsks(repository.topics, Topics, id, r);
    }
    SaveAsksNothing(apply, topics.run, SaveRepository(repository.fields, topics.items));
    ThenAsksOnly(r, topics.run, saved, {Topics}, {}, {Topics});
    AskedOfOther(Topics, id, Added(topics.run, saved), {});
    AlongThen(Topics, id, repository.topics, r, topics.run, saved);
  }

  /** A repository's traversal pages its topics, its issues and its pull
      requests each along the walk of its connection, and otherwise only
      the connections of issues, pull requests and reviews. */
  lemma RepositoryContentsAsks<S(!new)>(apply: Backend<S>, owner: string, name: string, repository: Repository, r: Run<S>)
    requires r.failure.None?
    ensures var out := RepositoryContents(apply, owner, name, repository, r);
      var id := repository.fields.id;
      && AsksOnly(Added(r, out), RepositoryKinds)
      && AskedAlong(Topics, id, repository.topics, r, out)
      && AskedAlong(Issues, id, repository.issues, r, out)
      && AskedAlong(PullRequests, id, repository.pullRequests, r, out)
  {
    var id := repository.fields.id;
    var topics := DownloadTopics(repository, r);
    var saved := Save(apply, topics.run, SaveRepository(repository.fields, topics.items));
    var issues := DownloadIssues(apply, owner, name, repository, saved);
    var out := DownloadPullRequests(apply, owner, name, repository, issues);
    assert RepositoryContents(apply, owner, name, repository, r) == out;
    GrowsTransitive(r, topics.run, saved);
    GrowsTransitive(saved, issues, out);
    RepositoryHeadAsks(apply, repository, r);
    if saved.failure.None? {
      RepositoryTailAsksOnly(apply, owner, name, repository, saved);
      RepositoryTailAsksIssues(apply, owner, name, repository, saved);
      RepositoryTailAsksPullRequests(apply, owner, name, repository, saved);
    }
    RepositoryJoinAsks(id, repository, r, saved, out);
  }

  /** The repository save joins what its head and its tail page. */
  lemma RepositoryJoinAsks<S(!new)>(id: string, repository: Repository, r: Run<S>, saved: Run<S>, out: Run<S>)
    requires Grows(r, saved) && Grows(saved, out)
    requires AsksOnly(Added(r, saved), {Topics}) && AskedAlong(Topics, id, repository.topics, r, saved)
    requires saved.failure.None? ==>
      && AsksOnly(Added(saved, out), TailKinds)
      && AskedAlong(Issues, id, repository.issues, saved, out)
      && AskedAlong(PullRequests, id, repository.pullRequests, saved, out)
    ensures AsksOnly(Added(r, out), RepositoryKinds)
    ensures AskedAlong(Topics, id, repository.topics, r, out)
    ensures AskedAlong(Issues, id, repository.issues, r, out)
    ensures AskedAlong(PullRequests, id, repository.pullRequests, r, out)
  {
    KindsFit();
    ThenAsksOnly(r, saved, out, {Topics}, TailKinds, RepositoryKinds);
    if saved.failure.None? {
      AskedOfOther(Topics, id, Added(saved, out), TailKinds);
    }
    AlongThen(Topics, id, repository.topics, r, saved, out);
    AskedOfOther(Issues, id, Added(r, saved), {Topics});
    AlongAfter(Issues, id, repository.issues, r, saved, out);
    AskedOfOther(PullRequests, id, Added(r, saved), {Topics});
    AlongAfter(PullRequests, id, repository.pullRequests, r, saved, out);
  }

  /** An organization's traversal pages its members along the walk of their
      connection, and nothing else. */
  lemma OrganizationContentsAsks<S(!new)>(apply: Backend<S>, login: string, organization: Organization, r: Run<S>)
    requires r.failure.None?
    ensures var out := OrganizationContents(apply, login, organization, r);
      AsksOnly(Added(r, out), {MembersWithRole}) && AskedAlong(MembersWithRole, login, organization.membersWithRole, r, out)
  {
    var saved := Save(apply, r, SaveOrganization(organization));
    var out := DownloadUsers(apply, login, organization, saved);
    SaveAsksNothing(apply, r, SaveOrganization(organization));
    if saved.failure.None? {
      UsersAsk(apply, login, organization, saved);
    }
    ThenAsksOnly(r, saved, out, {}, {MembersWithRole}, {MembersWithRole});
    AskedOfOther(MembersWithRole, login, Added(r, saved), {});
    AlongAfter(MembersWithRole, login, organization.membersWithRole, r, saved, out);
  }

  lemma StartAsksNothing(kind: Kind, parent: string, version: int)
    ensures AskedOf(kind, parent, [Called(Version(version)), Called(Begin)]) == []
  {
    assert AskedOf(kind, parent, [Called(Begin)]) == [] by {
      assert [Called(Begin)][1..] == [];
    }
    assert [Called(Version(version)), Called(Begin)][1..] == [Called(Begin)];
  }

  /** A bracketed run pages, over its whole trace, what its body paged from
      the run Begin started, and ends as its body did; when Begin fails it
      pages nothing. */
  lemma BracketAsks<S(!new)>(apply: Backend<S>, s: S, version: int, body: Run<S> -> Run<S>, kind: Kind, parent: string)
    requires forall r :: Grows(r, body(r))
    ensures var out := Bracket(apply, s, version, body);
      var begun := apply(apply(s, Version(version)).state, Begin);
      var start := Run(begun.state, [Called(Version(version)), Called(Begin)], None);
      && (begun.err.Some? ==> AskedOf(kind, parent, out.trace) == [] && out.failure.Some?)
      && (begun.err.None? ==>
            AskedOf(kind, parent, out.trace) == AskedOf(kind, parent, Added(start, body(start)))
            && out.failure == body(start).failure)
  {
    var out := Bracket(apply, s, version, body);
    var begun := apply(apply(s, Version(version)).state, Begin);
    var start := Run(begun.state, [Called(Version(version)), Called(Begin)], None);
    StartAsksNothing(kind, parent, version);
    if begun.err.None? {
      var added := Added(start, body(start));
      var end := Called(if out.failure.Some? then Rollback else Commit);
      BracketTrace(apply, s, version, body);
      assert body(start).trace == start.trace + added;
      AskedOfAppend(kind, parent, start.trace + added, [end]);
      AskedOfAppend(kind, parent, start.trace, added);
      assert [end][1..] == [];
    } else {
      assert out.trace == start.trace;
    }
  }

  /** The root query adds no page query to the repository's traversal. */
  lemma RepositoryBodyAsks<S(!new)>(apply: Backend<S>, owner: string, name: string, repository: Repository, r: Run<S>)
    requires r.failure.None?
    ensures var out := RepositoryBody(apply, owner, name, Got(repository), r);
      var id := repository.fields.id;
      && AskedAlong(Topics, id, repository.topics, r, out)
      && AskedAlong(Issues, id, repository.issues, r, out)
      && AskedAlong(PullRequests, id, repository.pullRequests, r, out)
  {
    var id := repository.fields.id;
    var asked := Ask(r, RepositoryQuery(owner, name));
    var out := RepositoryContents(apply, owner, name, repository, asked);
    assert RepositoryBody(apply, owner, name, Got(repository), r) == out;
    assert Added(r, asked) == [Queried(RepositoryQuery(owner, name))];
    RepositoryContentsAsks(apply, owner, name, repository, asked);
    AlongAfter(Topics, id, repository.topics, r, asked, out);
    AlongAfter(Issues, id, repository.issues, r, asked, out);
    AlongAfter(PullRequests, id, repository.pullRequests, r, asked, out);
  }

  /** A repository download pages the topics, the issues and the pull
      requests of the repository, over its whole trace, along the walks of
      their connections: a prefix of each walk's cursors, all of them when
      the download committed. */
  lemma DownloadRepositoryAsks<S(!new)>(apply: Backend<S>, s: S, owner: string, name: string, version: int, repository: Repository)
    ensures var out := DownloadRepository(apply, s, owner, name, version, Got(repository));
      var id := repository.fields.id;
      && Along(AskedOf(Topics, id, out.trace), repository.topics, out.failure.None?)
      && Along(AskedOf(Issues, id, out.trace), repository.issues, out.failure.None?)
      && Along(AskedOf(PullRequests, id, out.trace), repository.pullRequests, out.failure.None?)
  {
    var id := repository.fields.id;
    var body := RepositoryBodyOf(apply, owner, name, Got(repository));
    var begun := apply(apply(s, Version(version)).state, Begin);
    var start := Run(begun.state, [Called(Version(version)), Called(Begin)], None);
    BracketAsks(apply, s, version, body, Topics, id);
    BracketAsks(apply, s, version, body, Issues, id);
    BracketAsks(apply, s, version, body, PullRequests, id);
    if begun.err.None? {
      RepositoryBodyAsks(apply, owner, name, repository, start);
    }
  }

  /** The root query adds no page query to the organization's traversal. */
  lemma OrganizationBodyAsks<S(!new)>(apply: Backend<S>, login: string, organization: Organization, r: Run<S>)
    requires r.failure.None?
    ensures AskedAlong(MembersWithRole, login, organization.membersWithRole, r, OrganizationBody(apply, login, Got(organization), r))
  {
    var asked := Ask(r, OrganizationQuery(login));
    var out := OrganizationContents(apply, login, organization, asked);
    assert OrganizationBody(apply, login, Got(organization), r) == out;
    assert Added(r, asked) == [Queried(OrganizationQuery(login))];
    OrganizationContentsAsks(apply, login, organization, asked);
    AlongAfter(MembersWithRole, login, organization.membersWithRole, r, asked, out);
  }

  /** An organization download pages the organization's members, over its
      whole trace, along the walk of their connection: a prefix of its
      cursors, all of them when the download committed. */
  lemma DownloadOrganizationAsks<S(!new)>(apply: Backend<S>, s: S, login: string, version: int, organization: Organization)
    ensures var out := DownloadOrganization(apply, s, login, version, Got(organization));
      Along(AskedOf(MembersWithRole, login, out.trace), organization.membersWithRole, out.failure.None?)
  {
    var body := OrganizationBodyOf(apply, login, Got(organization));
    var begun := apply(apply(s, Version(version)).state, Begin);
    var start := Run(begun.state, [Called(Version(version)), Called(Begin)], None);
    BracketAsks(apply, s, version, body, MembersWithRole, login);
    if begun.err.None? {
      OrganizationBodyAsks(apply, login, organization, start);
    }
  }
}

=== FILE: downloader.dfy ===
/**
  The downloader: the fixed traversal of a repository (topics, the repository
  itself, issues, pull requests) and of an organization (the organization,
  its members), paginating every connection with the walker and writing
  every resolved entity through the storer, inside one Begin/Commit or
  Begin/Rollback bracket.

  A run threads the storer state and records a trace of everything observable
  the downloader does: the queries it issues and the storer calls it makes.
  Once a run has failed, every later step leaves it as it is, which models the
  source returning at the first error.
 */
module Downloader {
  import opened Graphql
  import opened Pagination
  import opened Storer

  /** The connection a page query is for. */
  datatype Kind =
    | Topics | Issues | IssueAssignees | IssueLabels | IssueComments
    | PullRequests | PullRequestAssignees | PullRequestLabels | PullRequestComments
    | PullRequestReviews | ReviewComments | MembersWithRole

  datatype Query =
    | RepositoryQuery(owner: string, name: string)
    | OrganizationQuery(login: string)
    | PageQuery(kind: Kind, parent: string, after: Cursor)

  datatype Event = Queried(query: Query) | Called(call: Call)

  datatype Error =
    | BeginFailed(beginError: StoreError)
    | RootQueryFailed(query: Query, reason: string)
    | PageQueryFailed(kind: Kind, parent: string, reason: string)
    | SaveFailed(call: Call, saveError: StoreError)

  datatype Run<S> = Run(state: S, trace: seq<Event>, failure: Option<Error>)

  /** No transaction or version call among `events`. */
  ghost predicate NoControl(events: seq<Event>)
  {
    forall i :: 0 <= i < |events| ==> events[i].Called? ==> !events[i].call.IsControl()
  }

  /** `r'` continues `r`: the trace only grows, by events that are not
      transaction or version calls, a failed run stays as it is, and no
      failure arising after Begin is a Begin failure. */
  ghost predicate Grows<S(!new)>(r: Run<S>, r': Run<S>)
  {
    && |r.trace| <= |r'.trace|
    && r'.trace[..|r.trace|] == r.trace
    && NoControl(r'.trace[|r.trace|..])
    && (r.failure.Some? ==> r' == r)
    && (r.failure.None? && r'.failure.Some? ==> !r'.failure.value.BeginFailed?)
  }

  lemma GrowsTransitive<S(!new)>(r1: Run<S>, r2: Run<S>, r3: Run<S>)
    requires Grows(r1, r2) && Grows(r2, r3)
    ensures Grows(r1, r3)
  {
    var n1, n2 := |r1.trace|, |r2.trace|;
    assert r3.trace[..n1] == r3.trace[..n2][..n1];
    forall i | 0 <= i < |r3.trace| - n1
      ensures r3.trace[n1..][i].Called? ==> !r3.trace[n1..][i].call.IsControl()
    {
      if n1 + i < n2 {
        assert r3.trace[n1..][i] == r2.trace[n1..][i];
      } else {
        assert r3.trace[n1..][i] == r3.trace[n2..][n1 + i - n2];
      }
    }
  }

  // ---------------------------------------------------------------------
  // Single steps.
  // ---------------------------------------------------------------------

  /** One save through the storer; a rejected save fails the run. */
  function Save<S(!new)>(apply: Backend<S>, r: Run<S>, call: Call): (out: Run<S>)
    requires !call.IsControl()
    ensures Grows(r, out)
    ensures r.failure.None? ==> (out.failure.None? <==> apply(r.state, call).err.None?)
  {
    if r.failure.Some? then r
    else
      var ack := apply(r.state, call);
      Run(ack.state, r.trace + [Called(call)],
          if ack.err.Some? then Some(SaveFailed(call, ack.err.value)) else None)
  }

  function Ask<S(!new)>(r: Run<S>, q: Query): (out: Run<S>)
    ensures Grows(r, out)
  {
    if r.failure.Some? then r else r.(trace := r.trace + [Queried(q)])
  }

  // ---------------------------------------------------------------------
  // The walker, run against the storer.
  // ---------------------------------------------------------------------

  /** Runs a walk's steps: each node goes to `visit`, each page query is
      recorded, an abort fails the run; the first failure ends the walk. */
  function Drive<T(!new), S(!new)>(steps: seq<Step<T>>, kind: Kind, parent: string, visit: (Run<S>, T) -> Run<S>, r: Run<S>): (out: Run<S>)
    requires forall r', t :: Grows(r', visit(r', t))
    ensures Grows(r, out)
    ensures r.failure.None? && !NoAbort(steps) ==> out.failure.Some?
    decreases |steps|
  {
    if r.failure.Some? || |steps| == 0 then r
    else
      NoAbortTail(steps);
      match steps[0]
        case Visit(node) =>
          var next := visit(r, node);
          var out := Drive(steps[1..], kind, parent, visit, next);
          GrowsTransitive(r, next, out);
          out
        case Fetch(cursor) =>
          var next := Ask(r, PageQuery(kind, parent, cursor));
          var out := Drive(steps[1..], kind, parent, visit, next);
          GrowsTransitive(r, next, out);
          out
        case Abort(reason) => r.(failure := Some(PageQueryFailed(kind, parent, reason)))
  }

  /** A schedule has no abort when its head is not one and its tail has none. */
  lemma NoAbortTail<T>(steps: seq<Step<T>>)
    requires |steps| > 0
    ensures NoAbort(steps) <==> !steps[0].Abort? && NoAbort(steps[1..])
  {
    if !steps[0].Abort? && NoAbort(steps[1..]) {
      forall i | 1 <= i < |steps| ensures !steps[i].Abort? {
        assert steps[i] == steps[1..][i - 1];
      }
    }
  }

  datatype Collected<S> = Collected(run: Run<S>, items: seq<string>)

  /** A walk whose nodes are only gathered into a list (topics, assignees,
      labels): it issues page queries and makes no storer call. */
  function Collect<S(!new)>(steps: seq<Step<string>>, kind: Kind, parent: string, r: Run<S>, acc: seq<string>): (out: Collected<S>)
    ensures Grows(r, out.run) && out.run.state == r.state
    ensures forall i :: |r.trace| <= i < |out.run.trace| ==> out.run.trace[i].Queried?
    ensures r.failure.None? ==> (out.run.failure.None? <==> NoAbort(steps))
    ensures r.failure.None? && out.run.failure.Some? ==> out.run.failure.value.PageQueryFailed?
    ensures r.failure.None? && NoAbort(steps) ==> out.items == acc + Visited(steps)
    decreases |steps|
  {
    if r.failure.Some? || |steps| == 0 then Collected(r, acc)
    else match steps[0]
      case Visit(node) =>
        var out := Collect(steps[1..], kind, parent, r, acc + [node]);
        NoAbortTail(steps);
        assert acc + [node] + Visited(steps[1..]) == acc + Visited(steps);
        out
      case Fetch(cursor) =>
        var asked := Ask(r, PageQuery(kind, parent, cursor));
        var out := Collect(steps[1..], kind, parent, asked, acc);
        NoAbortTail(steps);
        GrowsTransitive(r, asked, out.run);
        assert forall i :: |r.trace| <= i < |out.run.trace| ==> out.run.trace[i].Queried? by {
          forall i | |r.trace| <= i < |out.run.trace|
            ensures out.run.trace[i].Queried?
          {
            if i >= |asked.trace| {
            } else {
              assert out.run.trace[..|asked.trace|] == asked.trace;
              assert out.run.trace[i] == asked.trace[i];
            }
          }
        }
        out
      case Abort(reason) => Collected(r.(failure := Some(PageQueryFailed(kind, parent, reason))), acc)
  }

  // ---------------------------------------------------------------------
  // Visitors: what happens to one node of a connection.
  // ---------------------------------------------------------------------

  function SaveIssueCommentVisit<S(!new)>(apply: Backend<S>, owner: string, name: string, issueNumber: int): (v: (Run<S>, IssueComment) -> Run<S>)
    ensures forall r, c :: Grows(r, v(r, c))
  {
    (r: Run<S>, c: IssueComment) => Save(apply, r, SaveIssueComment(owner, name, issueNumber, c))
  }

  function SavePullRequestCommentVisit<S(!new)>(apply: Backend<S>, owner: string, name: string, number: int): (v: (Run<S>, IssueComment) -> Run<S>)
    ensures forall r, c :: Grows(r, v(r, c))
  {
    (r: Run<S>, c: IssueComment) => Save(apply, r, SavePullRequestComment(owner, name, number, c))
  }

  function SaveReviewCommentVisit<S(!new)>(apply: Backend<S>, owner: string, name: string, number: int, reviewId: int)
    : (v: (Run<S>, PullRequestReviewComment) -> Run<S>)
    ensures forall r, c :: Grows(r, v(r, c))
  {
    (r: Run<S>, c: PullRequestReviewComment) => Save(apply, r, SavePullRequestReviewComment(owner, name, number, reviewId, c))
  }

  function SaveUserVisit<S(!new)>(apply: Backend<S>): (v: (Run<S>, UserExtended) -> Run<S>)
    ensures forall r, u :: Grows(r, v(r, u))
  {
    (r: Run<S>, u: UserExtended) => Save(apply, r, SaveUser(u))
  }

  function ProcessIssueVisit<S(!new)>(apply: Backend<S>, owner: string, name: string): (v: (Run<S>, Issue) -> Run<S>)
    ensures forall r, i :: Grows(r, v(r, i))
  {
    (r: Run<S>, i: Issue) => ProcessIssue(apply, owner, name, i, r)
  }

  function ProcessReviewVisit<S(!new)>(apply: Backend<S>, owner: string, name: string, number: int)
    : (v: (Run<S>, PullRequestReview) -> Run<S>)
    ensures forall r, rv :: Grows(r, v(r, rv))
  {
    (r: Run<S>, rv: PullRequestReview) => ProcessReview(apply, owner, name, number, rv, r)
  }

  function ProcessPullRequestVisit<S(!new)>(apply: Backend<S>, owner: string, name: string): (v: (Run<S>, PullRequest) -> Run<S>)
    ensures forall r, pr :: Grows(r, v(r, pr))
  {
    (r: Run<S>, pr: PullRequest) => ProcessPullRequest(apply, owner, name, pr, r)
  }

  // ---------------------------------------------------------------------
  // The traversal.
  // ---------------------------------------------------------------------

  function DownloadTopics<S(!new)>(repository: Repository, r: Run<S>): (out: Collected<S>)
    ensures Grows(r, out.run) && out.run.state == r.state
    ensures forall i :: |r.trace| <= i < |out.run.trace| ==> out.run.trace[i].Queried?
    ensures r.failure.None? ==> (out.run.failure.None? <==> Complete(repository.topics))
    ensures r.failure.None? && out.run.failure.Some? ==> out.run.failure.value.PageQueryFailed?
    ensures r.failure.None? && Complete(repository.topics) ==> out.items == Content(repository.topics)
  {
    WalkDeliversServedPages(repository.topics);
    Collect(Walk(repository.topics), Topics, repository.fields.id, r, [])
  }

  function DownloadIssueAssignees<S(!new)>(issue: Issue, r: Run<S>): (out: Collected<S>)
    ensures Grows(r, out.run) && out.run.state == r.state
    ensures forall i :: |r.trace| <= i < |out.run.trace| ==> out.run.trace[i].Queried?
    ensures r.failure.None? ==> (out.run.failure.None? <==> Complete(issue.assignees))
    ensures r.failure.None? && out.run.failure.Some? ==> out.run.failure.value.PageQueryFailed?
    ensures r.failure.None? && Complete(issue.assignees) ==> out.items == Content(issue.assignees)
  {
    WalkDeliversServedPages(issue.assignees);
    Collect(Walk(issue.assignees), IssueAssignees, issue.id, r, [])
  }

  function DownloadIssueLabels<S(!new)>(issue: Issue, r: Run<S>): (out: Collected<S>)
    ensures Grows(r, out.run) && out.run.state == r.state
    ensures forall i :: |r.trace| <= i < |out.run.trace| ==> out.run.trace[i].Queried?
    ensures r.failure.None? ==> (out.run.failure.None? <==> Complete(issue.labels))
    ensures r.failure.None? && out.run.failure.Some? ==> out.run.failure.value.PageQueryFailed?
    ensures r.failure.None? && Complete(issue.labels) ==> out.items == Content(issue.labels)
  {
    WalkDeliversServedPages(issue.labels);
    Collect(Walk(issue.labels), IssueLabels, issue.id, r, [])
  }

  function DownloadIssueComments<S(!new)>(apply: Backend<S>, owner: string, name: string, issue: Issue, r: Run<S>): (out: Run<S>)
    ensures Grows(r, out)
    ensures r.failure.None? && !Complete(issue.comments) ==> out.failure.Some?
  {
    WalkDeliversServedPages(issue.comments);
    Drive(Walk(issue.comments), IssueComments, issue.id, SaveIssueCommentVisit(apply, owner, name, issue.number), r)
  }

  /** Assignees and labels are walked to the end before the issue is saved
      with them; the issue's comments are saved after it. */
  function ProcessIssue<S(!new)>(apply: Backend<S>, owner: string, name: string, issue: Issue, r: Run<S>): (out: Run<S>)
    ensures Grows(r, out)
  {
    var assignees := DownloadIssueAssignees(issue, r);
    var labels := DownloadIssueLabels(issue, assignees.run);
    var saved := Save(apply, labels.run, SaveIssue(owner, name, issue, assignees.items, labels.items));
    var out := DownloadIssueComments(apply, owner, name, issue, saved);
    GrowsTransitive(r, assignees.run, labels.run);
    GrowsTransitive(r, labels.run, saved);
    GrowsTransitive(r, saved, out);
    out
  }

  function DownloadIssues<S(!new)>(apply: Backend<S>, owner: string, name: string, repository: Repository, r: Run<S>): (out: Run<S>)
    ensures Grows(r, out)
    ensures r.failure.None? && !Complete(repository.issues) ==> out.failure.Some?
  {
    WalkDeliversServedPages(repository.issues);
    Drive(Walk(repository.issues), Issues, repository.fields.id, ProcessIssueVisit(apply, owner, name), r)
  }

  function DownloadPullRequestAssignees<S(!new)>(pr: PullRequest, r: Run<S>): (out: Collected<S>)
    ensures Grows(r, out.run) && out.run.state == r.state
    ensures forall i :: |r.trace| <= i < |out.run.trace| ==> out.run.trace[i].Queried?
    ensures r.failure.None? ==> (out.run.failure.None? <==> Complete(pr.assignees))
    ensures r.failure.None? && out.run.failure.Some? ==> out.run.failure.value.PageQueryFailed?
    ensures r.failure.None? && Complete(pr.assignees) ==> out.items == Content(pr.assignees)
  {
    WalkDeliversServedPages(pr.assignees);
    Collect(Walk(pr.assignees), PullRequestAssignees, pr.id, r, [])
  }

  function DownloadPullRequestLabels<S(!new)>(pr: PullRequest, r: Run<S>): (out: Collected<S>)
    ensures Grows(r, out.run) && out.run.state == r.state
    ensures forall i :: |r.trace| <= i < |out.run.trace| ==> out.run.trace[i].Queried?
    ensures r.failure.None? ==> (out.run.failure.None? <==> Complete(pr.labels))
    ensures r.failure.None? && out.run.failure.Some? ==> out.run.failure.value.PageQueryFailed?
    ensures r.failure.None? && Complete(pr.labels) ==> out.items == Content(pr.labels)
  {
    WalkDeliversServedPages(pr.labels);
    Collect(Walk(pr.labels), PullRequestLabels, pr.id, r, [])
  }

  function DownloadPullRequestComments<S(!new)>(apply: Backend<S>, owner: string, name: string, pr: PullRequest, r: Run<S>): (out: Run<S>)
    ensures Grows(r, out)
    ensures r.failure.None? && !Complete(pr.comments) ==> out.failure.Some?
  {
    WalkDeliversServedPages(pr.comments);
    Drive(Walk(pr.comments), PullRequestComments, pr.id, SavePullRequestCommentVisit(apply, owner, name, pr.number), r)
  }

  function DownloadReviewComments<S(!new)>(apply: Backend<S>, owner: string, name: string, number: int, review: PullRequestReview, r: Run<S>)
    : (out: Run<S>)
    ensures Grows(r, out)
    ensures r.failure.None? && !Complete(review.comments) ==> out.failure.Some?
  {
    WalkDeliversServedPages(review.comments);
    Drive(Walk(review.comments), ReviewComments, review.id,
          SaveReviewCommentVisit(apply, owner, name, number, review.databaseId), r)
  }

  /** A review is saved, then its comments are walked to the end. */
  function ProcessReview<S(!new)>(apply: Backend<S>, owner: string, name: string, number: int, review: PullRequestReview, r: Run<S>)
    : (out: Run<S>)
    ensures Grows(r, out)
  {
    var saved := Save(apply, r, SavePullRequestReview(owner, name, number, review));
    var out := DownloadReviewComments(apply, owner, name, number, review, saved);
    GrowsTransitive(r, saved, out);
    out
  }

  function DownloadPullRequestReviews<S(!new)>(apply: Backend<S>, owner: string, name: string, pr: PullRequest, r: Run<S>): (out: Run<S>)
    ensures Grows(r, out)
    ensures r.failure.None? && !Complete(pr.reviews) ==> out.failure.Some?
  {
    WalkDeliversServedPages(pr.reviews);
    Drive(Walk(pr.reviews), PullRequestReviews, pr.id, ProcessReviewVisit(apply, owner, name, pr.number), r)
  }

  /** Assignees and labels first, then the pull request, then its comments,
      then its reviews with their comments. */
  function ProcessPullRequest<S(!new)>(apply: Backend<S>, owner: string, name: string, pr: PullRequest, r: Run<S>): (out: Run<S>)
    ensures Grows(r, out)
  {
    var assignees := DownloadPullRequestAssignees(pr, r);
    var labels := DownloadPullRequestLabels(pr, assignees.run);
    var saved := Save(apply, labels.run, SavePullRequest(owner, name, pr, assignees.items, labels.items));
    var commented := DownloadPullRequestComments(apply, owner, name, pr, saved);
    var out := DownloadPullRequestReviews(apply, owner, name, pr, commented);
    GrowsTransitive(r, assignees.run, labels.run);
    GrowsTransitive(r, labels.run, saved);
    GrowsTransitive(r, saved, commented);
    GrowsTransitive(r, commented, out);
    out
  }

  function DownloadPullRequests<S(!new)>(apply: Backend<S>, owner: string, name: string, repository: Repository, r: Run<S>): (out: Run<S>)
    ensures Grows(r, out)
    ensures r.failure.None? && !Complete(repository.pullRequests) ==> out.failure.Some?
  {
    WalkDeliversServedPages(repository.pullRequests);
    Drive(Walk(repository.pullRequests), PullRequests, repository.fields.id, ProcessPullRequestVisit(apply, owner, name), r)
  }

  /** Everything between Begin and Commit/Rollback for a repository: the root
      query, topics, the repository save, issues, then pull requests. */
  function RepositoryBody<S(!new)>(apply: Backend<S>, owner: string, name: string, root: Fetched<Repository>, r: Run<S>): (out: Run<S>)
    ensures Grows(r, out)
  {
    var asked := Ask(r, RepositoryQuery(owner, name));
    var out :=
      if asked.failure.Some? then asked
      else if root.FetchFailed? then asked.(failure := Some(RootQueryFailed(RepositoryQuery(owner, name), root.reason)))
      else RepositoryContents(apply, owner, name, root.value, asked);
    GrowsTransitive(r, asked, out);
    out
  }

  /** Topics, the repository save, issues, then pull requests. */
  function RepositoryContents<S(!new)>(apply: Backend<S>, owner: string, name: string, repository: Repository, r: Run<S>): (out: Run<S>)
    ensures Grows(r, out)
  {
    var topics := DownloadTopics(repository, r);
    var saved := Save(apply, topics.run, SaveRepository(repository.fields, topics.items));
    var issues := DownloadIssues(apply, owner, name, repository, saved);
    var out := DownloadPullRequests(apply, owner, name, repository, issues);
    GrowsTransitive(r, topics.run, saved);
    GrowsTransitive(r, saved, issues);
    GrowsTransitive(r, issues, out);
    out
  }

  /** The version is set and a transaction begun before anything else; if
      Begin fails nothing else happens. Otherwise the run ends with exactly
      one Rollback when it failed, or exactly one Commit (whose error is
      ignored) when it succeeded. */
  function Bracket<S(!new)>(apply: Backend<S>, s: S, version: int, body: Run<S> -> Run<S>): (out: Run<S>)
    requires forall r :: Grows(r, body(r))
    ensures |out.trace| >= 2 && out.trace[0] == Called(Version(version)) && out.trace[1] == Called(Begin)
    ensures var begun := apply(apply(s, Version(version)).state, Begin);
      begun.err.Some? <==> (out.failure.Some? && out.failure.value.BeginFailed?)
    ensures out.failure.Some? && out.failure.value.BeginFailed? ==> |out.trace| == 2
    ensures !(out.failure.Some? && out.failure.value.BeginFailed?) ==>
      && |out.trace| >= 3
      && NoControl(out.trace[2..|out.trace| - 1])
      && out.trace[|out.trace| - 1] == Called(if out.failure.Some? then Rollback else Commit)
  {
    var versioned := apply(s, Version(version));
    var begun := apply(versioned.state, Begin);
    var started := [Called(Version(version)), Called(Begin)];
    if begun.err.Some? then Run(begun.state, started, Some(BeginFailed(begun.err.value)))
    else
      var r := Run(begun.state, started, None);
      var done := body(r);
      assert Grows(r, done);
      var end := if done.failure.Some? then Rollback else Commit;
      var out := Run(apply(done.state, end).state, done.trace + [Called(end)], done.failure);
      assert done.failure.Some? ==> !done.failure.value.BeginFailed? by {
        if done.failure.Some? { assert r.failure.None?; }
      }
      assert out.trace[2..|out.trace| - 1] == done.trace[2..];
      out
  }

  /** After Begin, a bracketed run's trace is Version, Begin, what its body
      added, then Commit or Rollback; it ends as its body did. */
  lemma BracketTrace<S(!new)>(apply: Backend<S>, s: S, version: int, body: Run<S> -> Run<S>)
    requires forall r :: Grows(r, body(r))
    requires apply(apply(s, Version(version)).state, Begin).err.None?
    ensures var out := Bracket(apply, s, version, body);
      var start := Run(apply(apply(s, Version(version)).state, Begin).state, [Called(Version(version)), Called(Begin)], None);
      && out.failure == body(start).failure
      && out.trace == body(start).trace + [Called(if out.failure.Some? then Rollback else Commit)]
      && body(start).trace == start.trace + body(start).trace[|start.trace|..]
  {
    var start := Run(apply(apply(s, Version(version)).state, Begin).state, [Called(Version(version)), Called(Begin)], None);
    var done := body(start);
    assert Grows(start, done);
    assert done.trace == start.trace + done.trace[|start.trace|..];
  }

  /** DownloadRepository of the source: Version, Begin, the repository
      traversal, then Commit or Rollback. */
  function DownloadRepository<S(!new)>(apply: Backend<S>, s: S, owner: string, name: string, version: int, root: Fetched<Repository>)
    : (out: Run<S>)
    ensures |out.trace| >= 2 && out.trace[0] == Called(Version(version)) && out.trace[1] == Called(Begin)
    ensures var begun := apply(apply(s, Version(version)).state, Begin);
      begun.err.Some? <==> (out.failure.Some? && out.failure.value.BeginFailed?)
    ensures out.failure.Some? && out.failure.value.BeginFailed? ==> |out.trace| == 2
    ensures !(out.failure.Some? && out.failure.value.BeginFailed?) ==>
      && |out.trace| >= 3
      && NoControl(out.trace[2..|out.trace| - 1])
      && out.trace[|out.trace| - 1] == Called(if out.failure.Some? then Rollback else Commit)
  {
    Bracket(apply, s, version, RepositoryBodyOf(apply, owner, name, root))
  }

  function RepositoryBodyOf<S(!new)>(apply: Backend<S>, owner: string, name: string, root: Fetched<Repository>): (body: Run<S> -> Run<S>)
    ensures forall r :: Grows(r, body(r))
  {
    (r: Run<S>) => RepositoryBody(apply, owner, name, root, r)
  }

  function DownloadUsers<S(!new)>(apply: Backend<S>, login: string, organization: Organization, r: Run<S>): (out: Run<S>)
    ensures Grows(r, out)
    ensures r.failure.None? && !Complete(organization.membersWithRole) ==> out.failure.Some?
  {
    WalkDeliversServedPages(organization.membersWithRole);
    Drive(Walk(organization.membersWithRole), MembersWithRole, login, SaveUserVisit(apply), r)
  }

  /** Everything between Begin and Commit/Rollback for an organization: the
      root query, the organization save, then its members. */
  function OrganizationBody<S(!new)>(apply: Backend<S>, login: string, root: Fetched<Organization>, r: Run<S>): (out: Run<S>)
    ensures Grows(r, out)
  {
    var asked := Ask(r, OrganizationQuery(login));
    var out :=
      if asked.failure.Some? then asked
      else if root.FetchFailed? then asked.(failure := Some(RootQueryFailed(OrganizationQuery(login), root.reason)))
      else OrganizationContents(apply, login, root.value, asked);
    GrowsTransitive(r, asked, out);
    out
  }

  /** The organization save, then its members. */
  function OrganizationContents<S(!new)>(apply: Backend<S>, login: string, organization: Organization, r: Run<S>): (out: Run<S>)
    ensures Grows(r, out)
  {
    var saved := Save(apply, r, SaveOrganization(organization));
    var out := DownloadUsers(apply, login, organization, saved);
    GrowsTransitive(r, saved, out);
    out
  }

  function OrganizationBodyOf<S(!new)>(apply: Backend<S>, login: string, root: Fetched<Organization>): (body: Run<S> -> Run<S>)
    ensures forall r :: Grows(r, body(r))
  {
    (r: Run<S>) => OrganizationBody(apply, login, root, r)
  }

  /** DownloadOrganization of the source: Version, Begin, the organization
      traversal, then Commit or Rollback. */
  function DownloadOrganization<S(!new)>(apply: Backend<S>, s: S, login: string, version: int, root: Fetched<Organization>)
    : (out: Run<S>)
    ensures |out.trace| >= 2 && out.trace[0] == Called(Version(version)) && out.trace[1] == Called(Begin)
    ensures var begun := apply(apply(s, Version(version)).state, Begin);
      begun.err.Some? <==> (out.failure.Some? && out.failure.value.BeginFailed?)
    ensures out.failure.Some? && out.failure.value.BeginFailed? ==> |out.trace| == 2
    ensures !(out.failure.Some? && out.failure.value.BeginFailed?) ==>
      && |out.trace| >= 3
      && NoControl(out.trace[2..|out.trace| - 1])
      && out.trace[|out.trace| - 1] == Called(if out.failure.Some? then Rollback else Commit)
  {
    Bracket(apply, s, version, OrganizationBodyOf(apply, login, root))
  }
}

=== FILE: graphql.dfy ===
/**
  The resource graph as the code-hosting platform serves it.

  Every paginated relation ("connection") of an entity is modelled by what the
  server will answer for it: the first page, which arrives embedded in the
  parent's own query response, and the server's replies to the follow-up page
  queries, in the order they would be issued. Query construction and the HTTP
  client are not modelled; a reply is either a page or a failure.
 */
module Graphql {

  datatype Option<+T> = None | Some(value: T)

  /** An opaque resume point handed back by the server with every page. */
  type Cursor = string

  /** One page of a connection together with its page info. */
  datatype Page<T> = Page(nodes: seq<T>, hasNextPage: bool, endCursor: Cursor)

  /** The outcome of one query: a value, or a definitive failure after retries. */
  datatype Fetched<T> = Got(value: T) | FetchFailed(reason: string)

  /** A connection: the embedded first page, then the replies the server gives
      to the first, second, ... follow-up page query of this connection. */
  datatype Connection<T> = Connection(first: Page<T>, replies: seq<Fetched<Page<T>>>)

  datatype IssueComment = IssueComment(id: string, author: string, body: string)

  datatype PullRequestReviewComment = PullRequestReviewComment(id: string, author: string, body: string)

  datatype PullRequestReview = PullRequestReview(
    id: string,
    databaseId: int,
    author: string,
    body: string,
    comments: Connection<PullRequestReviewComment>)

  /** Assignees are connections of logins, labels of label names. */
  datatype Issue = Issue(
    id: string,
    number: int,
    title: string,
    assignees: Connection<string>,
    labels: Connection<string>,
    comments: Connection<IssueComment>)

  datatype PullRequest = PullRequest(
    id: string,
    number: int,
    title: string,
    state: string,
    assignees: Connection<string>,
    labels: Connection<string>,
    comments: Connection<IssueComment>,
    reviews: Connection<PullRequestReview>)

  /** The scalar part of a repository; `owner` is the owner's login. */
  datatype RepositoryFields = RepositoryFields(id: string, owner: string, name: string)

  /** Topics are a connection of topic names. */
  datatype Repository = Repository(
    fields: RepositoryFields,
    topics: Connection<string>,
    issues: Connection<Issue>,
    pullRequests: Connection<PullRequest>)

  datatype UserExtended = UserExtended(login: string, name: string)

  datatype Organization = Organization(login: string, membersWithRole: Connection<UserExtended>)
}

=== FILE: mem.dfy ===
/**
  The in-memory storer: repositories by owner login then name, each with its
  topics and its pull requests by number; each pull request with its
  assignees, labels, comments in arrival order and reviews by database id;
  each review with its comments in arrival order.

  Organizations, users, issues and issue comments are accepted and not kept.
  Transactions and versions are accepted and do nothing, so a Rollback does
  not undo the saves made since Begin.
 */
module MemStore {
  import opened Graphql
  import opened Storer

  datatype PullRequestReview = StoredReview(review: Graphql.PullRequestReview, comments: seq<PullRequestReviewComment>)

  datatype PullRequest = StoredPullRequest(
    pullRequest: Graphql.PullRequest,
    assignees: seq<string>,
    labels: seq<string>,
    comments: seq<IssueComment>,
    reviews: map<int, PullRequestReview>)

  datatype Repo = Repo(fields: RepositoryFields, topics: seq<string>, prs: map<int, PullRequest>)

  datatype Mem = Mem(repos: map<string, map<string, Repo>>)

  // ---------------------------------------------------------------------
  // Lookups; a missing level anywhere on the path means absent.
  // ---------------------------------------------------------------------

  function RepoAt(m: Mem, owner: string, name: string): Option<Repo>
  {
    if owner in m.repos && name in m.repos[owner] then Some(m.repos[owner][name]) else None
  }

  function PullRequestAt(m: Mem, owner: string, name: string, number: int): Option<PullRequest>
  {
    var repo := RepoAt(m, owner, name);
    if repo.Some? && number in repo.value.prs then Some(repo.value.prs[number]) else None
  }

  function ReviewAt(m: Mem, owner: string, name: string, number: int, reviewId: int): Option<PullRequestReview>
  {
    var pr := PullRequestAt(m, owner, name, number);
    if pr.Some? && reviewId in pr.value.reviews then Some(pr.value.reviews[reviewId]) else None
  }

  /** `m'` differs from `m` at most in pull request `number` of `owner/name`,
      which both hold. */
  ghost predicate OnlyPullRequestChanged(m: Mem, m': Mem, owner: string, name: string, number: int)
  {
    && m'.repos.Keys == m.repos.Keys
    && (forall o, n :: o != owner || n != name ==> RepoAt(m', o, n) == RepoAt(m, o, n))
    && RepoAt(m, owner, name).Some? && RepoAt(m', owner, name).Some?
    && RepoAt(m', owner, name).value.fields == RepoAt(m, owner, name).value.fields
    && RepoAt(m', owner, name).value.topics == RepoAt(m, owner, name).value.topics
    && (forall k :: k != number ==> PullRequestAt(m', owner, name, k) == PullRequestAt(m, owner, name, k))
    && PullRequestAt(m', owner, name, number).Some?
  }

  /** Replaces pull request `number` of `owner/name`, which must exist. */
  function PutPullRequest(m: Mem, owner: string, name: string, number: int, pr: PullRequest): (m': Mem)
    requires RepoAt(m, owner, name).Some?
    ensures OnlyPullRequestChanged(m, m', owner, name, number)
    ensures PullRequestAt(m', owner, name, number) == Some(pr)
  {
    var repo := m.repos[owner][name];
    Mem(m.repos[owner := m.repos[owner][name := repo.(prs := repo.prs[number := pr])]])
  }

  // ---------------------------------------------------------------------
  // The storer methods.
  // ---------------------------------------------------------------------

  /** Creates the owner's map when absent and (re)installs the repository
      with its fields, its topics and no pull requests. */
  function SaveRepository(m: Mem, repository: RepositoryFields, topics: seq<string>): (out: Ack<Mem>)
    ensures out.err.None?
    ensures out.state.repos.Keys == m.repos.Keys + {repository.owner}
    ensures RepoAt(out.state, repository.owner, repository.name) == Some(Repo(repository, topics, map[]))
    ensures forall o, n :: o != repository.owner || n != repository.name ==> RepoAt(out.state, o, n) == RepoAt(m, o, n)
  {
    var owned := if repository.owner in m.repos then m.repos[repository.owner] else map[];
    Ack(Mem(m.repos[repository.owner := owned[repository.name := Repo(repository, topics, map[])]]), None)
  }

  /** Installs the pull request with exactly the given assignees and labels,
      no comments and no reviews, replacing any earlier one with its number;
      NotFound, and no change, without the repository. */
  function SavePullRequest(m: Mem, owner: string, name: string, pr: Graphql.PullRequest, assignees: seq<string>, labels: seq<string>)
    : (out: Ack<Mem>)
    ensures out.err.None? <==> RepoAt(m, owner, name).Some?
    ensures out.err.Some? ==> out == Ack(m, Some(NotFound))
    ensures out.err.None? ==>
      && OnlyPullRequestChanged(m, out.state, owner, name, pr.number)
      && PullRequestAt(out.state, owner, name, pr.number) == Some(StoredPullRequest(pr, assignees, labels, [], map[]))
  {
    if RepoAt(m, owner, name).None? then Ack(m, Some(NotFound))
    else Ack(PutPullRequest(m, owner, name, pr.number, StoredPullRequest(pr, assignees, labels, [], map[])), None)
  }

  /** Appends the comment to the pull request's comments; NotFound, and no
      change, without the pull request. */
  function SavePullRequestComment(m: Mem, owner: string, name: string, number: int, comment: IssueComment): (out: Ack<Mem>)
    ensures out.err.None? <==> PullRequestAt(m, owner, name, number).Some?
    ensures out.err.Some? ==> out == Ack(m, Some(NotFound))
    ensures out.err.None? ==>
      var before := PullRequestAt(m, owner, name, number).value;
      && OnlyPullRequestChanged(m, out.state, owner, name, number)
      && PullRequestAt(out.state, owner, name, number) == Some(before.(comments := before.comments + [comment]))
  {
    var pr := PullRequestAt(m, owner, name, number);
    if pr.None? then Ack(m, Some(NotFound))
    else Ack(PutPullRequest(m, owner, name, number, pr.value.(comments := pr.value.comments + [comment])), None)
  }

  /** Installs the review under its database id with no comments, replacing
      any earlier one with that id; NotFound, and no change, without the
      pull request. */
  function SavePullRequestReview(m: Mem, owner: string, name: string, number: int, review: Graphql.PullRequestReview)
    : (out: Ack<Mem>)
    ensures out.err.None? <==> PullRequestAt(m, owner, name, number).Some?
    ensures out.err.Some? ==> out == Ack(m, Some(NotFound))
    ensures out.err.None? ==>
      && OnlyPullRequestChanged(m, out.state, owner, name, number)
      && var before := PullRequestAt(m, owner, name, number).value;
      var after := PullRequestAt(out.state, owner, name, number).value;
      && after.pullRequest == before.pullRequest && after.assignees == before.assignees
      && after.labels == before.labels && after.comments == before.comments
      && after.reviews.Keys == before.reviews.Keys + {review.databaseId}
      && ReviewAt(out.state, owner, name, number, review.databaseId) == Some(StoredReview(review, []))
      && (forall id :: id != review.databaseId ==> ReviewAt(out.state, owner, name, number, id) == ReviewAt(m, owner, name, number, id))
  {
    var pr := PullRequestAt(m, owner, name, number);
    if pr.None? then Ack(m, Some(NotFound))
    else
      var reviews := pr.value.reviews[review.databaseId := StoredReview(review, [])];
      Ack(PutPullRequest(m, owner, name, number, pr.value.(reviews := reviews)), None)
  }

  /** Appends the comment to exactly that review's comments; NotFound, and no
      change, without the review. */
  function SavePullRequestReviewComment(m: Mem, owner: string, name: string, number: int, reviewId: int,
                                        comment: PullRequestReviewComment): (out: Ack<Mem>)
    ensures out.err.None? <==> ReviewAt(m, owner, name, number, reviewId).Some?
    ensures out.err.Some? ==> out == Ack(m, Some(NotFound))
    ensures out.err.None? ==>
      && OnlyPullRequestChanged(m, out.state, owner, name, number)
      && var before := PullRequestAt(m, owner, name, number).value;
      var after := PullRequestAt(out.state, owner, name, number).value;
      var review := ReviewAt(m, owner, name, number, reviewId).value;
      && after.pullRequest == before.pullRequest && after.assignees == before.assignees
      && after.labels == before.labels && after.comments == before.comments
      && after.reviews.Keys == before.reviews.Keys
      && ReviewAt(out.state, owner, name, number, reviewId) == Some(review.(comments := review.comments + [comment]))
      && (forall id :: id != reviewId ==> ReviewAt(out.state, owner, name, number, id) == ReviewAt(m, owner, name, number, id))
  {
    var review := ReviewAt(m, owner, name, number, reviewId);
    if review.None? then Ack(m, Some(NotFound))
    else
      var pr := PullRequestAt(m, owner, name, number).value;
      var reviews := pr.reviews[reviewId := review.value.(comments := review.value.comments + [comment])];
      Ack(PutPullRequest(m, owner, name, number, pr.(reviews := reviews)), None)
  }

  /** What a call needs to find in the store to succeed. */
  predicate ParentPresent(m: Mem, call: Call)
  {
    match call
    case SavePullRequest(owner, name, _, _, _) => RepoAt(m, owner, name).Some?
    case SavePullRequestComment(owner, name, number, _) => PullRequestAt(m, owner, name, number).Some?
    case SavePullRequestReview(owner, name, number, _) => PullRequestAt(m, owner, name, number).Some?
    case SavePullRequestReviewComment(owner, name, number, reviewId, _) => ReviewAt(m, owner, name, number, reviewId).Some?
    case _ => true
  }

  /** The in-memory storer as a backend. Calls that keep nothing (the
      organization, users, issues, issue comments, and every transaction
      and version call) succeed and leave the store as it is; the others
      fail with NotFound, leaving the store as it is, exactly when their
      parent is missing. */
  function Apply(m: Mem, call: Call): (out: Ack<Mem>)
    ensures out.err.None? <==> ParentPresent(m, call)
    ensures out.err.Some? ==> out == Ack(m, Some(NotFound))
    ensures call.SaveOrganization? || call.SaveUser? || call.SaveIssue? || call.SaveIssueComment? || call.IsControl() ==>
      out == Ack(m, None)
  {
    match call
    case SaveRepository(repository, topics) => SaveRepository(m, repository, topics)
    case SavePullRequest(owner, name, pr, assignees, labels) => SavePullRequest(m, owner, name, pr, assignees, labels)
    case SavePullRequestComment(owner, name, number, comment) => SavePullRequestComment(m, owner, name, number, comment)
    case SavePullRequestReview(owner, name, number, review) => SavePullRequestReview(m, owner, name, number, review)
    case SavePullRequestReviewComment(owner, name, number, reviewId, comment) =>
      SavePullRequestReviewComment(m, owner, name, number, reviewId, comment)
    case _ => Ack(m, None)
  }
}

=== FILE: mem_download.dfy ===
/**
  The in-memory storer under the downloader: the traversal order never makes
  it answer NotFound, and what it holds after a successful repository
  download is the repository with all its topics and one entry per pull
  request number. When the pull requests have distinct numbers, each entry
  is that pull request as served: its assignees, labels and comments in
  arrival order, and one review entry per review.
 */
module MemDownload {
  import opened Graphql
  import opened Pagination
  import opened Storer
  import opened Downloader
  import opened Traversal
  import opened MemStore

  lemma OnlyPullRequestChangedTransitive(a: Mem, b: Mem, c: Mem, owner: string, name: string, number: int)
    requires OnlyPullRequestChanged(a, b, owner, name, number) && OnlyPullRequestChanged(b, c, owner, name, number)
    ensures OnlyPullRequestChanged(a, c, owner, name, number)
  {
  }

  /** Pull request `number` keeps its own record, assignees, labels and
      comments from `m` to `m'`. */
  ghost predicate SameHead(m: Mem, m': Mem, owner: string, name: string, number: int)
  {
    && PullRequestAt(m, owner, name, number).Some? && PullRequestAt(m', owner, name, number).Some?
    && var before := PullRequestAt(m, owner, name, number).value;
    var after := PullRequestAt(m', owner, name, number).value;
    && after.pullRequest == before.pullRequest && after.assignees == before.assignees
    && after.labels == before.labels && after.comments == before.comments
  }

  // ---------------------------------------------------------------------
  // Comment lists grow in call order.
  // ---------------------------------------------------------------------

  lemma {:induction false} PullRequestCommentsAppend(m: Mem, owner: string, name: string, number: int, comments: seq<IssueComment>)
    requires PullRequestAt(m, owner, name, number).Some?
    ensures var out := Replay(Apply, m, FlatMap(comments, PullRequestCommentCall(owner, name, number)));
      var before := PullRequestAt(m, owner, name, number).value;
      && out.err.None?
      && OnlyPullRequestChanged(m, out.state, owner, name, number)
      && PullRequestAt(out.state, owner, name, number) == Some(before.(comments := before.comments + comments))
    decreases |comments|
  {
    var f := PullRequestCommentCall(owner, name, number);
    var before := PullRequestAt(m, owner, name, number).value;
    if |comments| == 0 {
      assert before.(comments := before.comments + comments) == before;
    } else {
      var call := SavePullRequestComment(owner, name, number, comments[0]);
      assert FlatMap(comments, f) == [call] + FlatMap(comments[1..], f);
      AcceptsSingle(Apply, m, call);
      var mid := Apply(m, call).state;
      PullRequestCommentsAppend(mid, owner, name, number, comments[1..]);
      ReplayAppend(Apply, m, [call], FlatMap(comments[1..], f));
      var out := Replay(Apply, m, FlatMap(comments, f));
      OnlyPullRequestChangedTransitive(m, mid, out.state, owner, name, number);
      assert before.comments + [comments[0]] + comments[1..] == before.comments + comments;
    }
  }

  /** From `m` to `m'` only review `reviewId` of pull request `number`
      changed, and it gained exactly `added` at the end of its comments. */
  ghost predicate AppendedReviewComments(m: Mem, m': Mem, owner: string, name: string, number: int, reviewId: int,
                                         added: seq<PullRequestReviewComment>)
    requires ReviewAt(m, owner, name, number, reviewId).Some?
  {
    var review := ReviewAt(m, owner, name, number, reviewId).value;
    && OnlyPullRequestChanged(m, m', owner, name, number)
    && SameHead(m, m', owner, name, number)
    && PullRequestAt(m', owner, name, number).value.reviews.Keys == PullRequestAt(m, owner, name, number).value.reviews.Keys
    && ReviewAt(m', owner, name, number, reviewId) == Some(review.(comments := review.comments + added))
    && (forall id :: id != reviewId ==> ReviewAt(m', owner, name, number, id) == ReviewAt(m, owner, name, number, id))
  }

  lemma AppendedReviewCommentsTransitive(a: Mem, b: Mem, c: Mem, owner: string, name: string, number: int, reviewId: int,
                                         first: seq<PullRequestReviewComment>, second: seq<PullRequestReviewComment>)
    requires ReviewAt(a, owner, name, number, reviewId).Some?
    requires AppendedReviewComments(a, b, owner, name, number, reviewId, first)
    requires AppendedReviewComments(b, c, owner, name, number, reviewId, second)
    ensures AppendedReviewComments(a, c, owner, name, number, reviewId, first + second)
  {
    var review := ReviewAt(a, owner, name, number, reviewId).value;
    OnlyPullRequestChangedTransitive(a, b, c, owner, name, number);
    assert review.comments + first + second == review.comments + (first + second);
  }

  /** A review's comment calls append exactly those comments to it. */
  lemma {:induction false} ReviewCommentsAppend(m: Mem, owner: string, name: string, number: int, reviewId: int,
                                                comments: seq<PullRequestReviewComment>)
    requires ReviewAt(m, owner, name, number, reviewId).Some?
    ensures var out := Replay(Apply, m, FlatMap(comments, ReviewCommentCall(owner, name, number, reviewId)));
      && out.err.None?
      && AppendedReviewComments(m, out.state, owner, name, number, reviewId, comments)
    decreases |comments|
  {
    var f := ReviewCommentCall(owner, name, number, reviewId);
    var review := ReviewAt(m, owner, name, number, reviewId).value;
    if |comments| == 0 {
      assert review.(comments := review.comments + comments) == review;
    } else {
      var call := SavePullRequestReviewComment(owner, name, number, reviewId, comments[0]);
      var mid := Apply(m, call).state;
      var rest := Replay(Apply, mid, FlatMap(comments[1..], f));
      assert Replay(Apply, m, FlatMap(comments, f)) == rest by {
        assert FlatMap(comments, f) == [call] + FlatMap(comments[1..], f);
        AcceptsSingle(Apply, m, call);
        ReplayAppend(Apply, m, [call], FlatMap(comments[1..], f));
      }
      assert AppendedReviewComments(m, mid, owner, name, number, reviewId, [comments[0]]);
      ReviewCommentsAppend(mid, owner, name, number, reviewId, comments[1..]);
      AppendedReviewCommentsTransitive(m, mid, rest.state, owner, name, number, reviewId, [comments[0]], comments[1..]);
      assert [comments[0]] + comments[1..] == comments;
    }
  }

  // ---------------------------------------------------------------------
  // Reviews.
  // ---------------------------------------------------------------------

  /** A review's calls install it with exactly its comments. */
  lemma ReviewBlock(m: Mem, owner: string, name: string, number: int, review: Graphql.PullRequestReview)
    requires PullRequestAt(m, owner, name, number).Some?
    ensures var out := Replay(Apply, m, ReviewCalls(owner, name, number, review));
      && out.err.None?
      && OnlyPullRequestChanged(m, out.state, owner, name, number)
      && SameHead(m, out.state, owner, name, number)
      && PullRequestAt(out.state, owner, name, number).value.reviews.Keys
         == PullRequestAt(m, owner, name, number).value.reviews.Keys + {review.databaseId}
      && ReviewAt(out.state, owner, name, number, review.databaseId) == Some(StoredReview(review, Content(review.comments)))
  {
    var call := SavePullRequestReview(owner, name, number, review);
    var rest := FlatMap(Content(review.comments), ReviewCommentCall(owner, name, number, review.databaseId));
    AcceptsSingle(Apply, m, call);
    var mid := Apply(m, call).state;
    ReviewCommentsAppend(mid, owner, name, number, review.databaseId, Content(review.comments));
    assert [] + Content(review.comments) == Content(review.comments);
    ReplayAppend(Apply, m, [call], rest);
    OnlyPullRequestChangedTransitive(m, mid, Replay(Apply, m, [call] + rest).state, owner, name, number);
  }

  lemma {:induction false} ReviewBlocks(m: Mem, owner: string, name: string, number: int, reviews: seq<Graphql.PullRequestReview>)
    requires PullRequestAt(m, owner, name, number).Some?
    ensures var out := Replay(Apply, m, FlatMap(reviews, ReviewCallsOf(owner, name, number)));
      && out.err.None?
      && OnlyPullRequestChanged(m, out.state, owner, name, number)
      && SameHead(m, out.state, owner, name, number)
      && PullRequestAt(out.state, owner, name, number).value.reviews.Keys
         == PullRequestAt(m, owner, name, number).value.reviews.Keys + set review | review in reviews :: review.databaseId
    decreases |reviews|
  {
    var f := ReviewCallsOf(owner, name, number);
    if |reviews| > 0 {
      var block := ReviewCalls(owner, name, number, reviews[0]);
      assert FlatMap(reviews, f) == block + FlatMap(reviews[1..], f);
      ReviewBlock(m, owner, name, number, reviews[0]);
      var mid := Replay(Apply, m, block).state;
      ReviewBlocks(mid, owner, name, number, reviews[1..]);
      ReplayAppend(Apply, m, block, FlatMap(reviews[1..], f));
      var out := Replay(Apply, m, FlatMap(reviews, f));
      OnlyPullRequestChangedTransitive(m, mid, out.state, owner, name, number);
      assert (set review | review in reviews :: review.databaseId)
          == {reviews[0].databaseId} + set review | review in reviews[1..] :: review.databaseId by {
        assert forall review :: review in reviews <==> review == reviews[0] || review in reviews[1..];
      }
    }
  }

  // ---------------------------------------------------------------------
  // Pull requests.
  // ---------------------------------------------------------------------

  /** A pull request's save and its comments install it with its full
      assignee and label lists, its comments in arrival order and no review. */
  lemma PullRequestHead(m: Mem, owner: string, name: string, pr: Graphql.PullRequest)
    requires RepoAt(m, owner, name).Some?
    ensures var calls := [SavePullRequest(owner, name, pr, Content(pr.assignees), Content(pr.labels))]
                         + FlatMap(Content(pr.comments), PullRequestCommentCall(owner, name, pr.number));
      var out := Replay(Apply, m, calls);
      && out.err.None?
      && OnlyPullRequestChanged(m, out.state, owner, name, pr.number)
      && PullRequestAt(out.state, owner, name, pr.number)
         == Some(StoredPullRequest(pr, Content(pr.assignees), Content(pr.labels), Content(pr.comments), map[]))
  {
    var call := SavePullRequest(owner, name, pr, Content(pr.assignees), Content(pr.labels));
    var comments := FlatMap(Content(pr.comments), PullRequestCommentCall(owner, name, pr.number));
    AcceptsSingle(Apply, m, call);
    var m1 := Apply(m, call).state;
    PullRequestCommentsAppend(m1, owner, name, pr.number, Content(pr.comments));
    assert [] + Content(pr.comments) == Content(pr.comments);
    ReplayAppend(Apply, m, [call], comments);
    OnlyPullRequestChangedTransitive(m, m1, Replay(Apply, m, [call] + comments).state, owner, name, pr.number);
  }

  /** A pull request's calls install it with its full assignee and label
      lists, its comments in arrival order, and one review entry per review
      id. */
  lemma PullRequestBlock(m: Mem, owner: string, name: string, pr: Graphql.PullRequest)
    requires RepoAt(m, owner, name).Some?
    ensures var out := Replay(Apply, m, PullRequestCalls(owner, name, pr));
      && out.err.None?
      && OnlyPullRequestChanged(m, out.state, owner, name, pr.number)
      && var stored := PullRequestAt(out.state, owner, name, pr.number).value;
      && stored.pullRequest == pr
      && stored.assignees == Content(pr.assignees) && stored.labels == Content(pr.labels)
      && stored.comments == Content(pr.comments)
      && stored.reviews.Keys == set review | review in Content(pr.reviews) :: review.databaseId
  {
    var head := [SavePullRequest(owner, name, pr, Content(pr.assignees), Content(pr.labels))]
                + FlatMap(Content(pr.comments), PullRequestCommentCall(owner, name, pr.number));
    var reviews := FlatMap(Content(pr.reviews), ReviewCallsOf(owner, name, pr.number));
    PullRequestHead(m, owner, name, pr);
    var m2 := Replay(Apply, m, head).state;
    ReviewBlocks(m2, owner, name, pr.number, Content(pr.reviews));
    ReplayAppend(Apply, m, head, reviews);
    OnlyPullRequestChangedTransitive(m, m2, Replay(Apply, m, head + reviews).state, owner, name, pr.number);
  }

  /** Repository `owner/name` keeps its fields and topics, every other
      repository stays as it is, and only pull request entries change. */
  ghost predicate OnlyPullRequestsChanged(m: Mem, m': Mem, owner: string, name: string)
  {
    && m'.repos.Keys == m.repos.Keys
    && (forall o, n :: o != owner || n != name ==> RepoAt(m', o, n) == RepoAt(m, o, n))
    && RepoAt(m, owner, name).Some? && RepoAt(m', owner, name).Some?
    && RepoAt(m', owner, name).value.fields == RepoAt(m, owner, name).value.fields
    && RepoAt(m', owner, name).value.topics == RepoAt(m, owner, name).value.topics
  }

  /** Changing one pull request adds its number to the repository's keys. */
  lemma PullRequestKeys(m: Mem, m': Mem, owner: string, name: string, number: int)
    requires OnlyPullRequestChanged(m, m', owner, name, number)
    ensures OnlyPullRequestsChanged(m, m', owner, name)
    ensures RepoAt(m', owner, name).value.prs.Keys == RepoAt(m, owner, name).value.prs.Keys + {number}
  {
    var before := RepoAt(m, owner, name).value.prs;
    var after := RepoAt(m', owner, name).value.prs;
    forall k ensures k in after <==> k in before || k == number {
      if k != number {
        assert PullRequestAt(m', owner, name, k) == PullRequestAt(m, owner, name, k);
      }
    }
  }

  lemma {:induction false} PullRequestBlocks(m: Mem, owner: string, name: string, prs: seq<Graphql.PullRequest>)
    requires RepoAt(m, owner, name).Some?
    ensures var out := Replay(Apply, m, FlatMap(prs, PullRequestCallsOf(owner, name)));
      && out.err.None?
      && OnlyPullRequestsChanged(m, out.state, owner, name)
      && RepoAt(out.state, owner, name).value.prs.Keys == RepoAt(m, owner, name).value.prs.Keys + set pr | pr in prs :: pr.number
    decreases |prs|
  {
    var f := PullRequestCallsOf(owner, name);
    if |prs| > 0 {
      var block := PullRequestCalls(owner, name, prs[0]);
      PullRequestBlock(m, owner, name, prs[0]);
      var mid := Replay(Apply, m, block).state;
      assert Replay(Apply, m, FlatMap(prs, f)) == Replay(Apply, mid, FlatMap(prs[1..], f)) by {
        assert FlatMap(prs, f) == block + FlatMap(prs[1..], f);
        ReplayAppend(Apply, m, block, FlatMap(prs[1..], f));
      }
      PullRequestKeys(m, mid, owner, name, prs[0].number);
      PullRequestBlocks(mid, owner, name, prs[1..]);
      assert (set pr | pr in prs :: pr.number) == {prs[0].number} + set pr | pr in prs[1..] :: pr.number by {
        assert forall pr :: pr in prs <==> pr == prs[0] || pr in prs[1..];
      }
    }
  }

  /** `stored` is pull request `pr` as served: its record, all assignees,
      labels and comments in arrival order, one review entry per review. */
  ghost predicate StoredAsServed(stored: Option<MemStore.PullRequest>, pr: Graphql.PullRequest)
  {
    && stored.Some?
    && stored.value.pullRequest == pr
    && stored.value.assignees == Content(pr.assignees)
    && stored.value.labels == Content(pr.labels)
    && stored.value.comments == Content(pr.comments)
    && stored.value.reviews.Keys == set review | review in Content(pr.reviews) :: review.databaseId
  }

  function Numbers(prs: seq<Graphql.PullRequest>): set<int>
  {
    set pr | pr in prs :: pr.number
  }

  predicate DistinctNumbers(prs: seq<Graphql.PullRequest>)
  {
    forall i, j :: 0 <= i < j < |prs| ==> prs[i].number != prs[j].number
  }

  lemma NumbersTail(prs: seq<Graphql.PullRequest>)
    requires |prs| > 0
    ensures Numbers(prs) == {prs[0].number} + Numbers(prs[1..])
    ensures DistinctNumbers(prs) ==> prs[0].number !in Numbers(prs[1..]) && DistinctNumbers(prs[1..])
  {
    var rest := prs[1..];
    assert forall pr :: pr in prs <==> pr == prs[0] || pr in rest;
    if DistinctNumbers(prs) {
      forall pr | pr in rest ensures pr.number != prs[0].number {
        var j :| 0 <= j < |rest| && rest[j] == pr;
        assert prs[j + 1] == pr;
      }
      forall i, j | 0 <= i < j < |rest| ensures rest[i].number != rest[j].number {
        assert rest[i] == prs[i + 1] && rest[j] == prs[j + 1];
      }
    }
  }

  /** One pull request's block stores it as served and touches no other number. */
  lemma PullRequestBlockHolds(m: Mem, owner: string, name: string, pr: Graphql.PullRequest)
    requires RepoAt(m, owner, name).Some?
    ensures var out := Replay(Apply, m, PullRequestCalls(owner, name, pr));
      && out.err.None?
      && RepoAt(out.state, owner, name).Some?
      && StoredAsServed(PullRequestAt(out.state, owner, name, pr.number), pr)
      && forall k :: k != pr.number ==> PullRequestAt(out.state, owner, name, k) == PullRequestAt(m, owner, name, k)
  {
    PullRequestBlock(m, owner, name, pr);
  }

  /** The pull request blocks leave every other number's entry alone and,
      when no two pull requests share a number, store each one as served. */
  lemma {:induction false} PullRequestBlocksHold(m: Mem, owner: string, name: string, prs: seq<Graphql.PullRequest>)
    requires RepoAt(m, owner, name).Some?
    ensures var out := Replay(Apply, m, FlatMap(prs, PullRequestCallsOf(owner, name))).state;
      && (forall k :: k !in Numbers(prs) ==> PullRequestAt(out, owner, name, k) == PullRequestAt(m, owner, name, k))
      && (DistinctNumbers(prs) ==> forall pr :: pr in prs ==> StoredAsServed(PullRequestAt(out, owner, name, pr.number), pr))
    decreases |prs|
  {
    var f := PullRequestCallsOf(owner, name);
    if |prs| > 0 {
      var block := PullRequestCalls(owner, name, prs[0]);
      var rest := prs[1..];
      var mid := Replay(Apply, m, block).state;
      var out := Replay(Apply, m, FlatMap(prs, f)).state;
      PullRequestBlockHolds(m, owner, name, prs[0]);
      assert out == Replay(Apply, mid, FlatMap(rest, f)).state by {
        assert FlatMap(prs, f) == block + FlatMap(rest, f);
        ReplayAppend(Apply, m, block, FlatMap(rest, f));
      }
      PullRequestBlocksHold(mid, owner, name, rest);
      NumbersTail(prs);
      if DistinctNumbers(prs) {
        forall pr | pr in prs ensures StoredAsServed(PullRequestAt(out, owner, name, pr.number), pr) {
          if pr != prs[0] {
            assert pr in rest;
          }
        }
      }
    }
  }

  // ---------------------------------------------------------------------
  // Issues are accepted and not kept.
  // ---------------------------------------------------------------------

  lemma {:induction false} IssueCommentsInert(m: Mem, owner: string, name: string, number: int, comments: seq<IssueComment>)
    ensures Replay(Apply, m, FlatMap(comments, IssueCommentCall(owner, name, number))) == Ack(m, None)
    decreases |comments|
  {
    var f := IssueCommentCall(owner, name, number);
    if |comments| > 0 {
      var call := SaveIssueComment(owner, name, number, comments[0]);
      assert FlatMap(comments, f) == [call] + FlatMap(comments[1..], f);
      AcceptsSingle(Apply, m, call);
      IssueCommentsInert(m, owner, name, number, comments[1..]);
      ReplayAppend(Apply, m, [call], FlatMap(comments[1..], f));
    }
  }

  lemma {:induction false} IssueBlocksInert(m: Mem, owner: string, name: string, issues: seq<Issue>)
    ensures Replay(Apply, m, FlatMap(issues, IssueCallsOf(owner, name))) == Ack(m, None)
    decreases |issues|
  {
    var f := IssueCallsOf(owner, name);
    if |issues| > 0 {
      var issue := issues[0];
      var call := SaveIssue(owner, name, issue, Content(issue.assignees), Content(issue.labels));
      var comments := FlatMap(Content(issue.comments), IssueCommentCall(owner, name, issue.number));
      assert FlatMap(issues, f) == [call] + comments + FlatMap(issues[1..], f);
      AcceptsSingle(Apply, m, call);
      IssueCommentsInert(m, owner, name, issue.number, Content(issue.comments));
      ReplayAppend(Apply, m, [call], comments);
      IssueBlocksInert(m, owner, name, issues[1..]);
      ReplayAppend(Apply, m, [call] + comments, FlatMap(issues[1..], f));
    }
  }

  // ---------------------------------------------------------------------
  // Whole repository.
  // ---------------------------------------------------------------------

  /** What the in-memory storer holds for `owner/name` after the reference
      calls of a repository whose own owner and name are those. */
  ghost predicate HoldsRepository(m: Mem, out: Mem, owner: string, name: string, repository: Repository)
  {
    && out.repos.Keys == m.repos.Keys + {owner}
    && (forall o, n :: o != owner || n != name ==> RepoAt(out, o, n) == RepoAt(m, o, n))
    && RepoAt(out, owner, name).Some?
    && RepoAt(out, owner, name).value.fields == repository.fields
    && RepoAt(out, owner, name).value.topics == Content(repository.topics)
    && RepoAt(out, owner, name).value.prs.Keys == (set pr | pr in Content(repository.pullRequests) :: pr.number)
    && (DistinctNumbers(Content(repository.pullRequests)) ==>
          forall pr :: pr in Content(repository.pullRequests) ==>
            StoredAsServed(PullRequestAt(out, owner, name, pr.number), pr))
  }

  /** The in-memory storer accepts every call of a repository download, in
      traversal order, when the repository's own owner and name are the ones
      its children are saved under. */
  lemma MemAcceptsRepository(m: Mem, owner: string, name: string, repository: Repository)
    requires repository.fields.owner == owner && repository.fields.name == name
    ensures var out := Replay(Apply, m, RepositoryCalls(owner, name, repository));
      out.err.None? && HoldsRepository(m, out.state, owner, name, repository)
  {
    var call := SaveRepository(repository.fields, Content(repository.topics));
    var issues := FlatMap(Content(repository.issues), IssueCallsOf(owner, name));
    var prs := FlatMap(Content(repository.pullRequests), PullRequestCallsOf(owner, name));
    AcceptsSingle(Apply, m, call);
    var m1 := Apply(m, call).state;
    IssueBlocksInert(m1, owner, name, Content(repository.issues));
    ReplayAppend(Apply, m, [call], issues);
    PullRequestBlocks(m1, owner, name, Content(repository.pullRequests));
    PullRequestBlocksHold(m1, owner, name, Content(repository.pullRequests));
    ReplayAppend(Apply, m, [call] + issues, prs);
  }

  /** A resolved repository downloaded into the in-memory storer: the run
      succeeds, makes Version, Begin, the reference calls and Commit, and
      leaves the store holding the repository. */
  lemma MemDownloadRepository(m: Mem, owner: string, name: string, version: int, repository: Repository)
    requires repository.fields.owner == owner && repository.fields.name == name
    requires RepositoryResolved(repository)
    ensures var out := DownloadRepository(Apply, m, owner, name, version, Got(repository));
      && out.failure.None?
      && Calls(out.trace) == [Version(version), Begin] + RepositoryCalls(owner, name, repository) + [Commit]
      && HoldsRepository(m, out.state, owner, name, repository)
  {
    DownloadRepositoryOutcome(Apply, m, owner, name, version, repository);
    MemAcceptsRepository(m, owner, name, repository);
  }

  /** Without the repository in the store, its first pull request is
      rejected, and with it the whole block of pull requests. */
  lemma MemRejectsPullRequests(m: Mem, owner: string, name: string, prs: seq<Graphql.PullRequest>)
    requires RepoAt(m, owner, name).None?
    requires |prs| > 0
    ensures !Accepts(Apply, m, FlatMap(prs, PullRequestCallsOf(owner, name)))
  {
    var f := PullRequestCallsOf(owner, name);
    var first := SavePullRequest(owner, name, prs[0], Content(prs[0].assignees), Content(prs[0].labels));
    var head := PullRequestCalls(owner, name, prs[0]);
    var tail := head[1..];
    assert head == [first] + tail;
    AcceptsSingle(Apply, m, first);
    ReplayAppend(Apply, m, [first], tail);
    assert FlatMap(prs, f) == head + FlatMap(prs[1..], f);
    ReplayAppend(Apply, m, head, FlatMap(prs[1..], f));
  }

  /** The reference calls of a repository are rejected when the repository
      is filed under a pair other than the one its pull requests are saved
      under, and nothing is filed under that pair yet. */
  lemma MemRejectsRenamedCalls(m: Mem, owner: string, name: string, repository: Repository)
    requires RepoAt(m, owner, name).None?
    requires repository.fields.owner != owner || repository.fields.name != name
    requires |Content(repository.pullRequests)| > 0
    ensures !Accepts(Apply, m, RepositoryCalls(owner, name, repository))
  {
    var call := SaveRepository(repository.fields, Content(repository.topics));
    var issues := FlatMap(Content(repository.issues), IssueCallsOf(owner, name));
    AcceptsSingle(Apply, m, call);
    var m1 := Apply(m, call).state;
    IssueBlocksInert(m1, owner, name, Content(repository.issues));
    ReplayAppend(Apply, m, [call], issues);
    MemRejectsPullRequests(m1, owner, name, Content(repository.pullRequests));
    ReplayAppend(Apply, m, [call] + issues, FlatMap(Content(repository.pullRequests), PullRequestCallsOf(owner, name)));
  }

  /** The pull requests of a repository are saved under the owner and name
      the download was asked for, while the in-memory storer files the
      repository under its own fields. When the two differ (say, only in
      letter case) and the store has nothing under the requested pair, the
      first pull request is answered with NotFound and the whole download
      ends in a Rollback. */
  lemma MemRejectsRenamedRepository(m: Mem, owner: string, name: string, version: int, repository: Repository)
    requires RepoAt(m, owner, name).None?
    requires repository.fields.owner != owner || repository.fields.name != name
    requires |Content(repository.pullRequests)| > 0
    ensures var out := DownloadRepository(Apply, m, owner, name, version, Got(repository));
      && out.failure.Some? && !out.failure.value.BeginFailed?
      && out.trace[|out.trace| - 1] == Called(Rollback)
  {
    DownloadRepositoryOutcome(Apply, m, owner, name, version, repository);
    MemRejectsRenamedCalls(m, owner, name, repository);
  }

  lemma {:induction false} UsersInert(m: Mem, users: seq<UserExtended>)
    ensures Replay(Apply, m, FlatMap(users, UserCall())) == Ack(m, None)
    decreases |users|
  {
    if |users| > 0 {
      assert FlatMap(users, UserCall()) == [SaveUser(users[0])] + FlatMap(users[1..], UserCall());
      AcceptsSingle(Apply, m, SaveUser(users[0]));
      UsersInert(m, users[1..]);
      ReplayAppend(Apply, m, [SaveUser(users[0])], FlatMap(users[1..], UserCall()));
    }
  }

  /** A resolved organization downloaded into the in-memory storer succeeds
      and leaves the store as it was: organizations and users are not kept. */
  lemma MemDownloadOrganization(m: Mem, login: string, version: int, organization: Organization)
    requires OrganizationResolved(organization)
    ensures var out := DownloadOrganization(Apply, m, login, version, Got(organization));
      && out.failure.None?
      && Calls(out.trace) == [Version(version), Begin] + OrganizationCalls(organization) + [Commit]
      && out.state == m
  {
    DownloadOrganizationOutcome(Apply, m, login, version, organization);
    AcceptsSingle(Apply, m, SaveOrganization(organization));
    UsersInert(m, Content(organization.membersWithRole));
    ReplayAppend(Apply, m, [SaveOrganization(organization)], FlatMap(Content(organization.membersWithRole), UserCall()));
  }
}

=== FILE: migration.dfy ===
/**
  The pieces of the Bitbucket Server migration example that run on the
  in-memory store: the byte-length cap applied to every text sent to the
  target server, and the choice of which stored pull requests to migrate.
  The calls to the target server are one abstract parameter.
 */
module Migration {
  import opened Graphql
  import opened MemStore

  newtype byte = x: int | 0 <= x < 256

  /** The longest text sent unchanged. */
  const MaxLength := 1000

  /** How many leading bytes a longer text keeps. */
  const KeptLength := 999

  /** The bytes of "...". */
  const Ellipsis: seq<byte> := [46, 46, 46]

  /** Caps a text (Go strings are byte strings): a text of at most
      `MaxLength` bytes is kept, a longer one becomes its first `KeptLength`
      bytes followed by "...". */
  function Trim(s: seq<byte>): (t: seq<byte>)
    ensures |s| <= MaxLength ==> t == s
    ensures |s| > MaxLength ==> |t| == KeptLength + 3 && t[..KeptLength] == s[..KeptLength] && t[KeptLength..] == Ellipsis
    ensures |t| <= KeptLength + 3
    ensures |t| == KeptLength + 3 <==> |s| > MaxLength
  {
    if |s| > MaxLength then s[..KeptLength] + Ellipsis else s
  }

  /** Capping a capped text changes nothing. */
  lemma TrimIdempotent(s: seq<byte>)
    ensures Trim(Trim(s)) == Trim(s)
  {
    if |s| > MaxLength {
      var t := Trim(s);
      assert t[..KeptLength] + Ellipsis == t by {
        assert t == t[..KeptLength] + t[KeptLength..];
      }
    }
  }

  /** Only pull requests in state OPEN are migrated. */
  predicate IsOpen(pr: MemStore.PullRequest)
  {
    pr.pullRequest.state == "OPEN"
  }

  /** Some element of a non-empty set; Go's map iteration order is unspecified. */
  method Pick(s: set<int>) returns (k: int)
    requires s != {}
    ensures k in s
  {
    // A set with no element would be the empty set, which `s` is not.
    assert exists x :: x in s by {
      if forall x :: x !in s { assert false; }
    }
    k :| k in s;
  }

  datatype Outcome =
    | RepoMissing
      /** The pull request numbers handed to the migration, in call order,
          and those whose migration failed. */
    | Migrated(attempted: seq<int>, failed: set<int>)

  /** Hands every OPEN pull request of `owner/name` to `migratePR` exactly
      once, in some order of the store's map, and goes on after a failure:
      the result is an error only when the repository is not in the store.
      `migratePR` reports whether the migration of one pull request
      succeeded. */
  method Migrate(m: Mem, owner: string, name: string, migratePR: (int, MemStore.PullRequest) -> bool) returns (outcome: Outcome)
    ensures outcome.RepoMissing? <==> RepoAt(m, owner, name).None?
    ensures outcome.Migrated? ==>
      var prs := RepoAt(m, owner, name).value.prs;
      && (forall i :: 0 <= i < |outcome.attempted| ==> outcome.attempted[i] in prs && IsOpen(prs[outcome.attempted[i]]))
      && (forall k :: k in prs && IsOpen(prs[k]) ==> k in outcome.attempted)
      && (forall i, j :: 0 <= i < j < |outcome.attempted| ==> outcome.attempted[i] != outcome.attempted[j])
      && (forall k :: k in outcome.failed <==> k in outcome.attempted && !migratePR(k, prs[k]))
  {
    var repo := RepoAt(m, owner, name);
    if repo.None? {
      return RepoMissing;
    }
    var prs := repo.value.prs;
    var remaining := prs.Keys;
    var attempted: seq<int> := [];
    var failed: set<int> := {};
    while remaining != {}
      invariant remaining <= prs.Keys
      invariant forall i :: 0 <= i < |attempted| ==> attempted[i] in prs && IsOpen(prs[attempted[i]]) && attempted[i] !in remaining
      invariant forall k :: k in prs && k !in remaining && IsOpen(prs[k]) ==> k in attempted
      invariant forall i, j :: 0 <= i < j < |attempted| ==> attempted[i] != attempted[j]
      invariant forall k :: k in failed <==> k in attempted && !migratePR(k, prs[k])
      decreases |remaining|
    {
      var number := Pick(remaining);
      remaining := remaining - {number};
      if IsOpen(prs[number]) {
        attempted := attempted + [number];
        if !migratePR(number, prs[number]) {
          failed := failed + {number};
        }
      }
    }
    return Migrated(attempted, failed);
  }
}

=== FILE: pagination.dfy ===
/**
  The pagination walker shared by every `download*` function of the
  downloader: consume the embedded first page, then, while the page just
  processed says `hasNextPage`, query the next page with that page's
  `endCursor`; stop at the first failed query.

  `Walk` turns a connection into the exact schedule of what the walker does:
  visit a node, issue a page query, or abort. Running a schedule against a
  storer is `Downloader.Drive`; because a visit that fails stops the run
  before the next step, the schedule also fixes that page k+1 is never
  requested before every node of page k has been handled.
 */
module Pagination {
  import opened Graphql

  datatype Step<T> = Visit(node: T) | Fetch(after: Cursor) | Abort(reason: string)

  /** The failure reported when a page query is issued after the server's
      replies for the connection have run out. */
  const NoReply := "no reply to page query"

  function Visits<T>(nodes: seq<T>): (steps: seq<Step<T>>)
    ensures |steps| == |nodes|
    ensures forall i :: 0 <= i < |nodes| ==> steps[i] == Visit(nodes[i])
  {
    if |nodes| == 0 then [] else [Visit(nodes[0])] + Visits(nodes[1..])
  }

  /** What the walker does once `page` has been processed, `replies` being the
      server's answers to the follow-up queries still to come. */
  function Continue<T>(page: Page<T>, replies: seq<Fetched<Page<T>>>): (steps: seq<Step<T>>)
    ensures steps == [] <==> !page.hasNextPage
    ensures steps != [] ==> steps[0] == Fetch(page.endCursor)
    decreases |replies|
  {
    if !page.hasNextPage then []
    else if |replies| == 0 then [Fetch(page.endCursor), Abort(NoReply)]
    else match replies[0]
      case FetchFailed(reason) => [Fetch(page.endCursor), Abort(reason)]
      case Got(next) => [Fetch(page.endCursor)] + Visits(next.nodes) + Continue(next, replies[1..])
  }

  /** The walk of one connection: the embedded first page needs no query. */
  function Walk<T>(c: Connection<T>): (steps: seq<Step<T>>)
    ensures |steps| > |c.first.nodes| <==> c.first.hasNextPage
    ensures |steps| > |c.first.nodes| ==> steps[|c.first.nodes|] == Fetch(c.first.endCursor)
  {
    Visits(c.first.nodes) + Continue(c.first, c.replies)
  }

  // ---------------------------------------------------------------------
  // Reference view: which pages the server serves, independent of the walk.
  // ---------------------------------------------------------------------

  /** The pages served starting from `page`: every page but the last says
      `hasNextPage` and was the reply to the query following its predecessor;
      the sequence ends at a last page or at a query that got no page. */
  function ServedFrom<T>(page: Page<T>, replies: seq<Fetched<Page<T>>>): (pages: seq<Page<T>>)
    ensures 1 <= |pages| <= |replies| + 1 && pages[0] == page
    ensures forall i :: 0 <= i < |pages| - 1 ==> pages[i].hasNextPage
    ensures forall i {:trigger replies[i]} :: 0 <= i < |pages| - 1 ==> replies[i] == Got(pages[i + 1])
    ensures var k := |pages| - 1; !pages[k].hasNextPage || k == |replies| || replies[k].FetchFailed?
    decreases |replies|
  {
    if !page.hasNextPage || |replies| == 0 || replies[0].FetchFailed? then [page]
    else [page] + ServedFrom(replies[0].value, replies[1..])
  }

  function Served<T>(c: Connection<T>): (pages: seq<Page<T>>)
    ensures |pages| >= 1
  {
    ServedFrom(c.first, c.replies)
  }

  function Last<T>(s: seq<T>): T
    requires |s| >= 1
  {
    s[|s| - 1]
  }

  /** The server answers every query the walker makes for `c`. */
  predicate Complete<T>(c: Connection<T>)
  {
    !Last(Served(c)).hasNextPage
  }

  /** Why the walk of an incomplete connection stops. */
  function FailureReason<T>(c: Connection<T>): string
    requires !Complete(c)
  {
    FailureAt(c.replies, |Served(c)| - 1)
  }

  /** The number of page queries a walk of `c` issues. */
  function QueryCount<T>(c: Connection<T>): nat
  {
    if Complete(c) then |Served(c)| - 1 else |Served(c)|
  }

  function Flatten<T>(pages: seq<Page<T>>): seq<T>
  {
    if |pages| == 0 then [] else pages[0].nodes + Flatten(pages[1..])
  }

  function TotalSize<T>(pages: seq<Page<T>>): nat
  {
    if |pages| == 0 then 0 else |pages[0].nodes| + TotalSize(pages[1..])
  }

  /** The logical content of a connection: the served pages' nodes, in order. */
  function Content<T>(c: Connection<T>): seq<T>
  {
    Flatten(Served(c))
  }

  /** Pages laid out one after the other, each follow-up page preceded by the
      query that carries its predecessor's end cursor. */
  function Layout<T>(pages: seq<Page<T>>): seq<Step<T>>
    requires |pages| >= 1
    decreases |pages|
  {
    Visits(pages[0].nodes) + if |pages| == 1 then [] else [Fetch(pages[0].endCursor)] + Layout(pages[1..])
  }

  // ---------------------------------------------------------------------
  // Projections of a schedule.
  // ---------------------------------------------------------------------

  function Visited<T>(steps: seq<Step<T>>): seq<T>
  {
    if |steps| == 0 then []
    else (if steps[0].Visit? then [steps[0].node] else []) + Visited(steps[1..])
  }

  function Cursors<T>(steps: seq<Step<T>>): seq<Cursor>
  {
    if |steps| == 0 then []
    else (if steps[0].Fetch? then [steps[0].after] else []) + Cursors(steps[1..])
  }

  predicate NoAbort<T>(steps: seq<Step<T>>)
  {
    forall i :: 0 <= i < |steps| ==> !steps[i].Abort?
  }

  /** Every abort comes right after the page query that failed. */
  predicate FetchBeforeAbort<T>(steps: seq<Step<T>>)
  {
    forall i :: 0 <= i < |steps| && steps[i].Abort? ==> 0 < i && steps[i - 1].Fetch?
  }

  // ---------------------------------------------------------------------
  // Lemmas.
  // ---------------------------------------------------------------------

  lemma VisitedAppend<T>(a: seq<Step<T>>, b: seq<Step<T>>)
    ensures Visited(a + b) == Visited(a) + Visited(b)
    ensures Cursors(a + b) == Cursors(a) + Cursors(b)
  {
    VisitedConcat(a, b);
    CursorsConcat(a, b);
  }

  lemma {:induction false} VisitedConcat<T>(a: seq<Step<T>>, b: seq<Step<T>>)
    ensures Visited(a + b) == Visited(a) + Visited(b)
    decreases |a|
  {
    if |a| == 0 {
      assert a + b == b;
    } else {
      assert (a + b)[0] == a[0] && (a + b)[1..] == a[1..] + b;
      VisitedConcat(a[1..], b);
    }
  }

  lemma {:induction false} CursorsConcat<T>(a: seq<Step<T>>, b: seq<Step<T>>)
    ensures Cursors(a + b) == Cursors(a) + Cursors(b)
    decreases |a|
  {
    if |a| == 0 {
      assert a + b == b;
    } else {
      assert (a + b)[0] == a[0] && (a + b)[1..] == a[1..] + b;
      CursorsConcat(a[1..], b);
    }
  }

  lemma {:induction false} VisitsProjections<T>(nodes: seq<T>)
    ensures Visited(Visits(nodes)) == nodes
    ensures Cursors(Visits(nodes)) == []
    ensures NoAbort(Visits(nodes))
    decreases |nodes|
  {
    if |nodes| > 0 {
      VisitsProjections(nodes[1..]);
      VisitedAppend([Visit(nodes[0])], Visits(nodes[1..]));
    }
  }

  /** The failure reported for the `k`-th follow-up query. */
  function FailureAt<T>(replies: seq<Fetched<Page<T>>>, k: nat): string
  {
    if k < |replies| && replies[k].FetchFailed? then replies[k].reason else NoReply
  }

  /** How a walk that got the pages `pages` ends: nothing more after a last
      page, otherwise one more query and an abort. */
  function Ending<T>(pages: seq<Page<T>>, replies: seq<Fetched<Page<T>>>): seq<Step<T>>
    requires |pages| >= 1
  {
    if !Last(pages).hasNextPage then []
    else [Fetch(Last(pages).endCursor), Abort(FailureAt(replies, |pages| - 1))]
  }

  /** A walk is the served pages laid out in order; if some query fails, the
      query is followed by an abort and nothing else. */
  lemma {:induction false} ContinueFollowsServedPages<T>(page: Page<T>, replies: seq<Fetched<Page<T>>>)
    ensures Visits(page.nodes) + Continue(page, replies)
      == Layout(ServedFrom(page, replies)) + Ending(ServedFrom(page, replies), replies)
    decreases |replies|
  {
    if !page.hasNextPage || |replies| == 0 || replies[0].FetchFailed? {
      assert ServedFrom(page, replies) == [page];
    } else {
      ContinueFollowsServedPages(replies[0].value, replies[1..]);
      ContinueAnsweredQuery(page, replies);
    }
  }

  /** After an answered query, a walk ends the way the walk from the answer does. */
  lemma EndingShift<T>(page: Page<T>, replies: seq<Fetched<Page<T>>>)
    requires page.hasNextPage && |replies| > 0 && replies[0].Got?
    ensures Ending(ServedFrom(page, replies), replies)
      == Ending(ServedFrom(replies[0].value, replies[1..]), replies[1..])
  {
    var pages := ServedFrom(page, replies);
    var rest := ServedFrom(replies[0].value, replies[1..]);
    assert pages == [page] + rest;
    assert |pages| - 1 == |rest|;
    assert pages[|pages| - 1] == rest[|rest| - 1];
    assert |rest| - 1 < |replies| - 1 ==> replies[1..][|rest| - 1] == replies[|rest|];
    assert FailureAt(replies, |pages| - 1) == FailureAt(replies[1..], |rest| - 1);
    assert Last(pages) == Last(rest);
  }

  /** The inductive step of `ContinueFollowsServedPages`: the query after
      `page` was answered with a page. */
  lemma ContinueAnsweredQuery<T>(page: Page<T>, replies: seq<Fetched<Page<T>>>)
    requires page.hasNextPage && |replies| > 0 && replies[0].Got?
    requires Visits(replies[0].value.nodes) + Continue(replies[0].value, replies[1..])
      == Layout(ServedFrom(replies[0].value, replies[1..])) + Ending(ServedFrom(replies[0].value, replies[1..]), replies[1..])
    ensures Visits(page.nodes) + Continue(page, replies)
      == Layout(ServedFrom(page, replies)) + Ending(ServedFrom(page, replies), replies)
  {
    var pages := ServedFrom(page, replies);
    var next := replies[0].value;
    var rest := ServedFrom(next, replies[1..]);
    var nodes, fetch, more, tail := Visits(page.nodes), [Fetch(page.endCursor)], Visits(next.nodes), Continue(next, replies[1..]);
    assert Continue(page, replies) == fetch + more + tail;
    assert Layout(pages) == nodes + (fetch + Layout(rest)) by {
      assert pages == [page] + rest;
      assert pages[1..] == rest;
    }
    EndingShift(page, replies);
    var ending := Ending(pages, replies);
    Regroup(nodes, fetch, more, tail, Layout(rest), ending);
  }

  lemma Regroup<U>(a: seq<U>, b: seq<U>, c: seq<U>, d: seq<U>, e: seq<U>, f: seq<U>)
    requires c + d == e + f
    ensures a + (b + c + d) == (a + (b + e)) + f
  {
    calc {
      a + (b + c + d);
      a + (b + (c + d));
      a + (b + (e + f));
      (a + (b + e)) + f;
    }
  }

  lemma WalkFollowsServedPages<T>(c: Connection<T>)
    ensures Walk(c) == Layout(Served(c)) +
      if Complete(c) then [] else [Fetch(Last(Served(c)).endCursor), Abort(FailureReason(c))]
  {
    var pages := Served(c);
    assert Walk(c) == Visits(c.first.nodes) + Continue(c.first, c.replies);
    ContinueFollowsServedPages(c.first, c.replies);
    if Complete(c) {
      assert Ending(pages, c.replies) == [];
    } else {
      assert Ending(pages, c.replies) == [Fetch(Last(pages).endCursor), Abort(FailureReason(c))];
    }
  }

  /** Laid-out pages visit every node of every page in order, and query once
      per follow-up page with the end cursor of the page before it. */
  lemma {:induction false} LayoutProjections<T>(pages: seq<Page<T>>)
    requires |pages| >= 1
    ensures Visited(Layout(pages)) == Flatten(pages)
    ensures Cursors(Layout(pages)) == seq(|pages| - 1, i requires 0 <= i < |pages| - 1 => pages[i].endCursor)
    ensures NoAbort(Layout(pages))
    decreases |pages|
  {
    VisitsProjections(pages[0].nodes);
    if |pages| == 1 {
      assert Layout(pages) == Visits(pages[0].nodes);
      assert Flatten(pages) == pages[0].nodes + Flatten(pages[1..]);
    } else {
      LayoutProjections(pages[1..]);
      var tail := [Fetch(pages[0].endCursor)] + Layout(pages[1..]);
      VisitedAppend([Fetch(pages[0].endCursor)], Layout(pages[1..]));
      VisitedAppend(Visits(pages[0].nodes), tail);
      assert Layout(pages) == Visits(pages[0].nodes) + tail;
    }
  }

  lemma {:induction false} FlattenSize<T>(pages: seq<Page<T>>)
    ensures |Flatten(pages)| == TotalSize(pages)
    decreases |pages|
  {
    if |pages| > 0 {
      FlattenSize(pages[1..]);
    }
  }

  /** The walker's contract: it hands over exactly the connection's content in
      arrival order (as many nodes as the served pages hold together), issues
      one query per follow-up page with the end cursor of the page just
      processed, and aborts, as its very last step, exactly when some query
      fails. */
  lemma WalkDeliversServedPages<T>(c: Connection<T>)
    ensures Visited(Walk(c)) == Content(c)
    ensures |Visited(Walk(c))| == TotalSize(Served(c))
    ensures Cursors(Walk(c)) == seq(QueryCount(c), i requires 0 <= i < QueryCount(c) => Served(c)[i].endCursor)
    ensures Complete(c) <==> NoAbort(Walk(c))
    ensures !Complete(c) ==> Last(Walk(c)) == Abort(FailureReason(c)) && NoAbort(Walk(c)[..|Walk(c)| - 1])
  {
    var pages := Served(c);
    WalkFollowsServedPages(c);
    LayoutProjections(pages);
    FlattenSize(pages);
    if !Complete(c) {
      var tail := [Fetch(Last(pages).endCursor), Abort(FailureReason(c))];
      VisitedAppend(Layout(pages), tail);
      VisitedAppend([tail[0]], [tail[1]]);
      assert tail == [tail[0]] + [tail[1]];
      assert Visited(tail) == [];
      assert Cursors(tail) == [Last(pages).endCursor];
      assert Visited(Walk(c)) == Flatten(pages) + [];
      var want := seq(QueryCount(c), i requires 0 <= i < QueryCount(c) => pages[i].endCursor);
      assert Cursors(Walk(c)) == want by {
        assert Cursors(Walk(c)) == Cursors(Layout(pages)) + [Last(pages).endCursor];
        assert |want| == |pages|;
        forall i | 0 <= i < |pages|
          ensures Cursors(Walk(c))[i] == want[i]
        {
          if i < |pages| - 1 {
            assert Cursors(Walk(c))[i] == Cursors(Layout(pages))[i];
          }
        }
      }
      assert Walk(c)[..|Walk(c)| - 1] == Layout(pages) + [Fetch(Last(pages).endCursor)];
      assert Walk(c)[|Walk(c)| - 1] == Abort(FailureReason(c));
    } else {
      assert Walk(c) == Layout(pages);
    }
  }

  /** A connection whose embedded page is its last issues no query at all. */
  lemma LastFirstPageMeansNoQuery<T>(c: Connection<T>)
    requires !c.first.hasNextPage
    ensures Walk(c) == Visits(c.first.nodes)
    ensures Cursors(Walk(c)) == [] && Visited(Walk(c)) == c.first.nodes
  {
    VisitsProjections(c.first.nodes);
  }

  lemma {:induction false} ContinueFetchesBeforeAbort<T>(page: Page<T>, replies: seq<Fetched<Page<T>>>)
    ensures FetchBeforeAbort(Continue(page, replies))
    decreases |replies|
  {
    if page.hasNextPage && |replies| > 0 && replies[0].Got? {
      var next := replies[0].value;
      ContinueFetchesBeforeAbort(next, replies[1..]);
      FetchesBeforeAbortAfterVisits(Fetch(page.endCursor), next.nodes, Continue(next, replies[1..]));
      assert Continue(page, replies) == [Fetch(page.endCursor)] + (Visits(next.nodes) + Continue(next, replies[1..]));
    }
  }

  /** Page nodes never abort, and a continuation starts with a query. */
  lemma FetchesBeforeAbortAfterVisits<T>(query: Step<T>, nodes: seq<T>, rest: seq<Step<T>>)
    requires query.Fetch? && FetchBeforeAbort(rest) && (rest != [] ==> rest[0].Fetch?)
    ensures FetchBeforeAbort(Visits(nodes) + rest)
    ensures FetchBeforeAbort([query] + (Visits(nodes) + rest))
  {
  }

  /** A walk aborts only right after the page query that failed. */
  lemma WalkFetchesBeforeAbort<T>(c: Connection<T>)
    ensures FetchBeforeAbort(Walk(c))
  {
    ContinueFetchesBeforeAbort(c.first, c.replies);
    FetchesBeforeAbortAfterVisits(Fetch(c.first.endCursor), c.first.nodes, Continue(c.first, c.replies));
  }
}

=== FILE: stopping.dfy ===
/**
  What a downloader run writes when it does NOT succeed. Every run, resolved
  tree or not, makes a prefix of the reference call list and nothing after
  its first error: what failed, a rejected save or a failed page or root
  query, is the last event of the run, so nothing is asked or called after
  it.
  Together with `Traversal.DownloadRepositoryOutcome` this covers every run
  after Begin.
 */
module Stopping {
  import opened Graphql
  import opened Pagination
  import opened Storer
  import opened Downloader
  import opened Traversal

  /** `made`, the calls a run made from backend state `s`, is a prefix of
      `calls`, all of `calls` when the run ended well; the backend accepted
      every call made, except that a run failed by a rejected save made that
      save last and was left where the backend's rejection left it. */
  ghost predicate Stopped<S(!new)>(apply: Backend<S>, s: S, made: seq<Call>, out: Run<S>, calls: seq<Call>)
  {
    && |made| <= |calls| && made == calls[..|made|]
    && (out.failure.None? ==> made == calls)
    && if out.failure.Some? && out.failure.value.SaveFailed? then
         && |made| > 0 && made[|made| - 1] == out.failure.value.call
         && Accepts(apply, s, made[..|made| - 1])
         && apply(Replay(apply, s, made[..|made| - 1]).state, made[|made| - 1]) == Ack(out.state, Some(out.failure.value.saveError))
       else
         Accepts(apply, s, made) && out.state == Replay(apply, s, made).state
  }

  /** `q` is the query that `e` reports as failed: a page query of the
      failed connection, or the failed root query. */
  predicate FailedQuery(e: Error, q: Query)
  {
    || (e.PageQueryFailed? && q.PageQuery? && q.kind == e.kind && q.parent == e.parent)
    || (e.RootQueryFailed? && q == e.query)
  }

  /** A failed run made what failed last: the rejected save, or the failed
      query. Nothing follows it in the trace, neither a call nor a query. */
  predicate EndsAtFailure<S>(out: Run<S>)
  {
    out.failure.Some? ==>
      && |out.trace| > 0
      && var last := out.trace[|out.trace| - 1];
      if out.failure.value.SaveFailed? then last == Called(out.failure.value.call)
      else last.Queried? && FailedQuery(out.failure.value, last.query)
  }

  /** A failed run made a query last, the one its failure reports. */
  predicate EndsAtFailedQuery<S>(out: Run<S>)
  {
    out.failure.Some? ==>
      && |out.trace| > 0
      && out.trace[|out.trace| - 1].Queried?
      && FailedQuery(out.failure.value, out.trace[|out.trace| - 1].query)
  }

  /** The last event of `trace` asks a page of connection (`kind`, `parent`). */
  predicate AsksLast(trace: seq<Event>, kind: Kind, parent: string)
  {
    && |trace| > 0
    && trace[|trace| - 1].Queried?
    && trace[|trace| - 1].query.PageQuery?
    && trace[|trace| - 1].query.kind == kind
    && trace[|trace| - 1].query.parent == parent
  }

  /** Every abort of `steps` comes right after a page query of (`kind`,
      `parent`): the Fetch before it or, for a leading abort, the last
      event of `trace`. */
  predicate AbortsAfterAsk<T>(steps: seq<Step<T>>, kind: Kind, parent: string, trace: seq<Event>)
  {
    && (|steps| > 0 && steps[0].Abort? ==> AsksLast(trace, kind, parent))
    && forall i :: 0 < i < |steps| && steps[i].Abort? ==> steps[i - 1].Fetch?
  }

  /** From an unfailed `r`, the step to `out` made calls that stop, in the
      sense of `Stopped`, inside `calls`, and ends at its failure. */
  ghost predicate Follows<S(!new)>(apply: Backend<S>, r: Run<S>, out: Run<S>, calls: seq<Call>)
  {
    r.failure.None? ==>
      var before := Calls(r.trace);
      var after := Calls(out.trace);
      && |before| <= |after| && after[..|before|] == before
      && Stopped(apply, r.state, after[|before|..], out, calls)
      && EndsAtFailure(out)
  }

  lemma WalkAbortsAfterAsk<T>(c: Connection<T>, kind: Kind, parent: string, trace: seq<Event>)
    ensures AbortsAfterAsk(Walk(c), kind, parent, trace)
  {
    WalkFetchesBeforeAbort(c);
  }

  /** Past its first step, a schedule's aborts follow its own Fetch steps;
      after a leading Fetch, `trace'` is expected to end with that query. */
  lemma AbortsAfterAskTail<T>(steps: seq<Step<T>>, kind: Kind, parent: string, trace: seq<Event>, trace': seq<Event>)
    requires AbortsAfterAsk(steps, kind, parent, trace) && |steps| > 0
    requires steps[0].Fetch? ==> AsksLast(trace', kind, parent)
    ensures AbortsAfterAsk(steps[1..], kind, parent, trace')
  {
    forall i | 0 < i < |steps[1..]| && steps[1..][i].Abort?
      ensures steps[1..][i - 1].Fetch?
    {
      assert steps[i + 1].Abort?;
    }
  }

  /** A gathering walk that failed made the failed page query last. */
  lemma {:induction false} CollectEndsAtQuery<S(!new)>(steps: seq<Step<string>>, kind: Kind, parent: string, r: Run<S>, acc: seq<string>)
    requires r.failure.None? && AbortsAfterAsk(steps, kind, parent, r.trace)
    ensures EndsAtFailedQuery(Collect(steps, kind, parent, r, acc).run)
    decreases |steps|
  {
    if |steps| > 0 {
      var out := Collect(steps, kind, parent, r, acc).run;
      match steps[0]
        case Visit(node) =>
          assert out == Collect(steps[1..], kind, parent, r, acc + [node]).run;
          AbortsAfterAskTail(steps, kind, parent, r.trace, r.trace);
          CollectEndsAtQuery(steps[1..], kind, parent, r, acc + [node]);
        case Fetch(cursor) =>
          var asked := Ask(r, PageQuery(kind, parent, cursor));
          assert out == Collect(steps[1..], kind, parent, asked, acc).run;
          AbortsAfterAskTail(steps, kind, parent, r.trace, asked.trace);
          CollectEndsAtQuery(steps[1..], kind, parent, asked, acc);
        case Abort(reason) =>
          assert out == r.(failure := Some(PageQueryFailed(kind, parent, reason)));
          assert AsksLast(r.trace, kind, parent);
    }
  }

  /** The same for the gathering walk of a whole connection. */
  lemma WalkCollectEndsAtQuery<S(!new)>(c: Connection<string>, kind: Kind, parent: string, r: Run<S>)
    ensures r.failure.None? ==> EndsAtFailure(Collect(Walk(c), kind, parent, r, []).run)
  {
    if r.failure.None? {
      WalkAbortsAfterAsk(c, kind, parent, r.trace);
      CollectEndsAtQuery(Walk(c), kind, parent, r, []);
    }
  }

  lemma FollowsSave<S(!new)>(apply: Backend<S>, r: Run<S>, call: Call)
    requires !call.IsControl()
    ensures Follows(apply, r, Save(apply, r, call), [call])
  {
    if r.failure.None? {
      CallsSnoc(r.trace, Called(call));
      var out := Save(apply, r, call);
      assert Calls(out.trace)[|Calls(r.trace)|..] == [call];
      AcceptsSingle(apply, r.state, call);
      assert [call][..0] == [];
    }
  }

  /** A step that only queries, and fails, if at all, on a query. */
  lemma FollowsQuiet<S(!new)>(apply: Backend<S>, r: Run<S>, out: Run<S>)
    requires Grows(r, out) && out.state == r.state
    requires forall i :: |r.trace| <= i < |out.trace| ==> out.trace[i].Queried?
    requires r.failure.None? && out.failure.Some? ==> !out.failure.value.SaveFailed?
    requires r.failure.None? ==> EndsAtFailure(out)
    ensures Follows(apply, r, out, [])
  {
    if r.failure.None? {
      CallsOfQueries(r.trace, out.trace);
      assert Calls(out.trace)[|Calls(r.trace)|..] == [];
    }
  }

  lemma FollowsCompose<S(!new)>(apply: Backend<S>, r1: Run<S>, r2: Run<S>, r3: Run<S>, a: seq<Call>, b: seq<Call>)
    requires Follows(apply, r1, r2, a) && Follows(apply, r2, r3, b) && Grows(r2, r3)
    ensures Follows(apply, r1, r3, a + b)
  {
    if r1.failure.None? {
      if r2.failure.Some? {
        assert r3 == r2;
        var made := Calls(r2.trace)[|Calls(r1.trace)|..];
        assert made == (a + b)[..|made|];
      } else {
        FollowsComposeUnfailed(apply, r1, r2, r3, a, b);
      }
    }
  }

  /** `FollowsCompose` when the middle run has not failed: the calls made
      are all of `a`, then a prefix of `b`. */
  lemma FollowsComposeUnfailed<S(!new)>(apply: Backend<S>, r1: Run<S>, r2: Run<S>, r3: Run<S>, a: seq<Call>, b: seq<Call>)
    requires r1.failure.None? && r2.failure.None?
    requires Follows(apply, r1, r2, a) && Follows(apply, r2, r3, b)
    ensures Follows(apply, r1, r3, a + b)
  {
    var c1, c2, c3 := Calls(r1.trace), Calls(r2.trace), Calls(r3.trace);
    var m12, m23 := c2[|c1|..], c3[|c2|..];
    assert m12 == a;
    assert c3[..|c1|] == c1 by {
      assert c3[..|c1|] == c3[..|c2|][..|c1|];
    }
    var made := c3[|c1|..];
    assert made == a + m23 by {
      assert c3 == c2 + m23;
      assert c2 == c1 + a;
    }
    assert made == (a + b)[..|made|] by {
      assert m23 == b[..|m23|];
    }
    ReplayAppend(apply, r1.state, a, m23);
    if r3.failure.Some? && r3.failure.value.SaveFailed? {
      var k := |m23| - 1;
      assert made[..|made| - 1] == a + m23[..k];
      assert made[|made| - 1] == m23[k];
      ReplayAppend(apply, r1.state, a, m23[..k]);
    }
  }

  /** A query makes no call: what follows it follows the run it was asked from. */
  lemma FollowsAsk<S(!new)>(apply: Backend<S>, r: Run<S>, q: Query, out: Run<S>, calls: seq<Call>)
    requires Follows(apply, Ask(r, q), out, calls)
    ensures Follows(apply, r, out, calls)
  {
    CallsSnoc(r.trace, Queried(q));
  }

  /** A walk follows the concatenated call blocks of the nodes it visited,
      whether or not it ran to its end. */
  lemma {:induction false} FollowsDrive<T(!new), S(!new)>(
    apply: Backend<S>, steps: seq<Step<T>>, kind: Kind, parent: string,
    visit: (Run<S>, T) -> Run<S>, f: T -> seq<Call>, r: Run<S>)
    requires forall r', t :: Grows(r', visit(r', t))
    requires forall r', t :: t in Visited(steps) ==> Follows(apply, r', visit(r', t), f(t))
    requires AbortsAfterAsk(steps, kind, parent, r.trace)
    ensures Follows(apply, r, Drive(steps, kind, parent, visit, r), FlatMap(Visited(steps), f))
    decreases |steps|
  {
    if r.failure.None? && |steps| > 0 {
      var rest := steps[1..];
      var out := Drive(steps, kind, parent, visit, r);
      var calls := FlatMap(Visited(steps), f);
      match steps[0]
      case Visit(node) =>
        var next := visit(r, node);
        assert Follows(apply, next, Drive(rest, kind, parent, visit, next), FlatMap(Visited(rest), f)) by {
          assert Visited(steps) == [node] + Visited(rest);
          assert forall t :: t in Visited(rest) ==> t in Visited(steps);
          AbortsAfterAskTail(steps, kind, parent, r.trace, next.trace);
          FollowsDrive(apply, rest, kind, parent, visit, f, next);
        }
        FollowsVisit(apply, steps, kind, parent, visit, f, r);
      case Fetch(cursor) =>
        var next := Ask(r, PageQuery(kind, parent, cursor));
        assert Follows(apply, r, out, calls) by {
          assert Visited(steps) == Visited(rest);
          assert out == Drive(rest, kind, parent, visit, next);
          AbortsAfterAskTail(steps, kind, parent, r.trace, next.trace);
          FollowsDrive(apply, rest, kind, parent, visit, f, next);
          FollowsAsk(apply, r, PageQuery(kind, parent, cursor), out, calls);
        }
      case Abort(reason) =>
        assert steps[0].Abort?;
        FollowsAbort(apply, r, kind, parent, reason, calls);
    } else if r.failure.None? {
      assert Calls(r.trace)[|Calls(r.trace)|..] == [];
    }
  }

  /** A visit followed by a walk that follows the rest of the nodes' calls
      follows all of them. */
  lemma FollowsVisit<T(!new), S(!new)>(
    apply: Backend<S>, steps: seq<Step<T>>, kind: Kind, parent: string,
    visit: (Run<S>, T) -> Run<S>, f: T -> seq<Call>, r: Run<S>)
    requires forall r', t :: Grows(r', visit(r', t))
    requires r.failure.None? && |steps| > 0 && steps[0].Visit?
    requires Follows(apply, r, visit(r, steps[0].node), f(steps[0].node))
    requires var next := visit(r, steps[0].node);
      Follows(apply, next, Drive(steps[1..], kind, parent, visit, next), FlatMap(Visited(steps[1..]), f))
    ensures Follows(apply, r, Drive(steps, kind, parent, visit, r), FlatMap(Visited(steps), f))
  {
    var node := steps[0].node;
    var next := visit(r, node);
    var rest := steps[1..];
    assert Drive(steps, kind, parent, visit, r) == Drive(rest, kind, parent, visit, next);
    assert FlatMap(Visited(steps), f) == f(node) + FlatMap(Visited(rest), f) by {
      assert Visited(steps) == [node] + Visited(rest);
      assert Visited(steps)[1..] == Visited(rest);
    }
    FollowsCompose(apply, r, next, Drive(rest, kind, parent, visit, next), f(node), FlatMap(Visited(rest), f));
  }

  /** A walk that aborts right after asking for a page makes no call and
      ends at that query. */
  lemma FollowsAbort<S(!new)>(apply: Backend<S>, r: Run<S>, kind: Kind, parent: string, reason: string, calls: seq<Call>)
    requires r.failure.None? && AsksLast(r.trace, kind, parent)
    ensures Follows(apply, r, r.(failure := Some(PageQueryFailed(kind, parent, reason))), calls)
  {
    assert Calls(r.trace)[|Calls(r.trace)|..] == [];
    assert calls[..0] == [];
  }

  // ---------------------------------------------------------------------
  // Per level, for any tree, served to the end or not.
  // ---------------------------------------------------------------------

  lemma ReviewFollows<S(!new)>(apply: Backend<S>, owner: string, name: string, number: int, review: PullRequestReview, r: Run<S>)
    ensures Follows(apply, r, ProcessReview(apply, owner, name, number, review, r), ReviewCalls(owner, name, number, review))
  {
    var saved := Save(apply, r, SavePullRequestReview(owner, name, number, review));
    FollowsSave(apply, r, SavePullRequestReview(owner, name, number, review));
    var visit := SaveReviewCommentVisit(apply, owner, name, number, review.databaseId);
    var f := ReviewCommentCall(owner, name, number, review.databaseId);
    WalkDeliversServedPages(review.comments);
    forall r': Run<S>, c | c in Visited(Walk(review.comments))
      ensures Follows(apply, r', visit(r', c), f(c))
    {
      FollowsSave(apply, r', SavePullRequestReviewComment(owner, name, number, review.databaseId, c));
    }
    WalkAbortsAfterAsk(review.comments, ReviewComments, review.id, saved.trace);
    FollowsDrive(apply, Walk(review.comments), ReviewComments, review.id, visit, f, saved);
    FollowsCompose(apply, r, saved, ProcessReview(apply, owner, name, number, review, r),
                   [SavePullRequestReview(owner, name, number, review)], FlatMap(Content(review.comments), f));
  }

  /** Two gathering walks in a row, then one save that, when both walks ran
      to their end, is the reference save `ref`. */
  lemma GatherThenSaveFollows<S(!new)>(apply: Backend<S>, r: Run<S>, first: Run<S>, second: Run<S>, call: Call, ref: Call)
    requires !call.IsControl()
    requires Grows(r, first) && first.state == r.state
    requires forall i :: |r.trace| <= i < |first.trace| ==> first.trace[i].Queried?
    requires r.failure.None? && first.failure.Some? ==> first.failure.value.PageQueryFailed?
    requires r.failure.None? ==> EndsAtFailure(first)
    requires Grows(first, second) && second.state == first.state
    requires forall i :: |first.trace| <= i < |second.trace| ==> second.trace[i].Queried?
    requires first.failure.None? && second.failure.Some? ==> second.failure.value.PageQueryFailed?
    requires first.failure.None? ==> EndsAtFailure(second)
    requires r.failure.None? && second.failure.None? ==> call == ref
    ensures Follows(apply, r, Save(apply, second, call), [ref])
  {
    FollowsQuiet(apply, r, first);
    FollowsQuiet(apply, first, second);
    FollowsCompose(apply, r, first, second, [], []);
    if r.failure.None? && second.failure.None? {
      FollowsSave(apply, second, call);
    }
    FollowsCompose(apply, r, second, Save(apply, second, call), [], [ref]);
    assert [] + [ref] == [ref];
  }

  lemma IssueFollows<S(!new)>(apply: Backend<S>, owner: string, name: string, issue: Issue, r: Run<S>)
    ensures Follows(apply, r, ProcessIssue(apply, owner, name, issue, r), IssueCalls(owner, name, issue))
  {
    var assignees := DownloadIssueAssignees(issue, r);
    var labels := DownloadIssueLabels(issue, assignees.run);
    var call := SaveIssue(owner, name, issue, assignees.items, labels.items);
    var ref := SaveIssue(owner, name, issue, Content(issue.assignees), Content(issue.labels));
    var saved := Save(apply, labels.run, call);
    assert Follows(apply, r, saved, [ref]) by {
      WalkCollectEndsAtQuery(issue.assignees, IssueAssignees, issue.id, r);
      WalkCollectEndsAtQuery(issue.labels, IssueLabels, issue.id, assignees.run);
      GatherThenSaveFollows(apply, r, assignees.run, labels.run, call, ref);
    }
    var visit := SaveIssueCommentVisit(apply, owner, name, issue.number);
    var f := IssueCommentCall(owner, name, issue.number);
    assert Follows(apply, saved, ProcessIssue(apply, owner, name, issue, r), FlatMap(Content(issue.comments), f)) by {
      WalkDeliversServedPages(issue.comments);
      forall r': Run<S>, c | c in Visited(Walk(issue.comments))
        ensures Follows(apply, r', visit(r', c), f(c))
      {
        FollowsSave(apply, r', SaveIssueComment(owner, name, issue.number, c));
      }
      WalkAbortsAfterAsk(issue.comments, IssueComments, issue.id, saved.trace);
      FollowsDrive(apply, Walk(issue.comments), IssueComments, issue.id, visit, f, saved);
    }
    FollowsCompose(apply, r, saved, ProcessIssue(apply, owner, name, issue, r), [ref], FlatMap(Content(issue.comments), f));
  }

  lemma PullRequestHeadFollows<S(!new)>(apply: Backend<S>, owner: string, name: string, pr: PullRequest, r: Run<S>)
    ensures var assignees := DownloadPullRequestAssignees(pr, r);
      var labels := DownloadPullRequestLabels(pr, assignees.run);
      var saved := Save(apply, labels.run, SavePullRequest(owner, name, pr, assignees.items, labels.items));
      Follows(apply, r, DownloadPullRequestComments(apply, owner, name, pr, saved),
              [SavePullRequest(owner, name, pr, Content(pr.assignees), Content(pr.labels))]
                + FlatMap(Content(pr.comments), PullRequestCommentCall(owner, name, pr.number)))
  {
    var assignees := DownloadPullRequestAssignees(pr, r);
    var labels := DownloadPullRequestLabels(pr, assignees.run);
    var call := SavePullRequest(owner, name, pr, assignees.items, labels.items);
    var ref := SavePullRequest(owner, name, pr, Content(pr.assignees), Content(pr.labels));
    var saved := Save(apply, labels.run, call);
    assert Follows(apply, r, saved, [ref]) by {
      WalkCollectEndsAtQuery(pr.assignees, PullRequestAssignees, pr.id, r);
      WalkCollectEndsAtQuery(pr.labels, PullRequestLabels, pr.id, assignees.run);
      GatherThenSaveFollows(apply, r, assignees.run, labels.run, call, ref);
    }
    var visit := SavePullRequestCommentVisit(apply, owner, name, pr.number);
    var f := PullRequestCommentCall(owner, name, pr.number);
    assert Follows(apply, saved, DownloadPullRequestComments(apply, owner, name, pr, saved), FlatMap(Content(pr.comments), f)) by {
      WalkDeliversServedPages(pr.comments);
      forall r': Run<S>, c | c in Visited(Walk(pr.comments))
        ensures Follows(apply, r', visit(r', c), f(c))
      {
        FollowsSave(apply, r', SavePullRequestComment(owner, name, pr.number, c));
      }
      WalkAbortsAfterAsk(pr.comments, PullRequestComments, pr.id, saved.trace);
      FollowsDrive(apply, Walk(pr.comments), PullRequestComments, pr.id, visit, f, saved);
    }
    FollowsCompose(apply, r, saved, DownloadPullRequestComments(apply, owner, name, pr, saved), [ref], FlatMap(Content(pr.comments), f));
  }

  lemma PullRequestFollows<S(!new)>(apply: Backend<S>, owner: string, name: string, pr: PullRequest, r: Run<S>)
    ensures Follows(apply, r, ProcessPullRequest(apply, owner, name, pr, r), PullRequestCalls(owner, name, pr))
  {
    var assignees := DownloadPullRequestAssignees(pr, r);
    var labels := DownloadPullRequestLabels(pr, assignees.run);
    var saved := Save(apply, labels.run, SavePullRequest(owner, name, pr, assignees.items, labels.items));
    var commented := DownloadPullRequestComments(apply, owner, name, pr, saved);
    var head := [SavePullRequest(owner, name, pr, Content(pr.assignees), Content(pr.labels))]
      + FlatMap(Content(pr.comments), PullRequestCommentCall(owner, name, pr.number));
    PullRequestHeadFollows(apply, owner, name, pr, r);
    var visit := ProcessReviewVisit(apply, owner, name, pr.number);
    var f := ReviewCallsOf(owner, name, pr.number);
    WalkDeliversServedPages(pr.reviews);
    forall r': Run<S>, review | review in Visited(Walk(pr.reviews))
      ensures Follows(apply, r', visit(r', review), f(review))
    {
      ReviewFollows(apply, owner, name, pr.number, review, r');
    }
    WalkAbortsAfterAsk(pr.reviews, PullRequestReviews, pr.id, commented.trace);
    FollowsDrive(apply, Walk(pr.reviews), PullRequestReviews, pr.id, visit, f, commented);
    FollowsCompose(apply, r, commented, ProcessPullRequest(apply, owner, name, pr, r), head, FlatMap(Content(pr.reviews), f));
  }

  /** A failed assignee or label walk ends an issue right there: the run
      made no call, so neither `SaveIssue` nor any comment is reached. */
  lemma IssueGatherStops<S(!new)>(apply: Backend<S>, owner: string, name: string, issue: Issue, r: Run<S>)
    requires r.failure.None?
    ensures var assignees := DownloadIssueAssignees(issue, r);
      var labels := DownloadIssueLabels(issue, assignees.run);
      labels.run.failure.Some? ==>
        && ProcessIssue(apply, owner, name, issue, r) == labels.run
        && Calls(labels.run.trace) == Calls(r.trace)
  {
    var assignees := DownloadIssueAssignees(issue, r);
    var labels := DownloadIssueLabels(issue, assignees.run);
    if labels.run.failure.Some? {
      CallsOfQueries(r.trace, assignees.run.trace);
      CallsOfQueries(assignees.run.trace, labels.run.trace);
    }
  }

  /** A failed assignee or label walk ends a pull request right there: no
      `SavePullRequest`, no comment and no review is reached. */
  lemma PullRequestGatherStops<S(!new)>(apply: Backend<S>, owner: string, name: string, pr: PullRequest, r: Run<S>)
    requires r.failure.None?
    ensures var assignees := DownloadPullRequestAssignees(pr, r);
      var labels := DownloadPullRequestLabels(pr, assignees.run);
      labels.run.failure.Some? ==>
        && ProcessPullRequest(apply, owner, name, pr, r) == labels.run
        && Calls(labels.run.trace) == Calls(r.trace)
  {
    var assignees := DownloadPullRequestAssignees(pr, r);
    var labels := DownloadPullRequestLabels(pr, assignees.run);
    if labels.run.failure.Some? {
      CallsOfQueries(r.trace, assignees.run.trace);
      CallsOfQueries(assignees.run.trace, labels.run.trace);
    }
  }

  /** A failed topics walk ends a repository's traversal before
      `SaveRepository`: the run made no call. */
  lemma TopicsStop<S(!new)>(apply: Backend<S>, owner: string, name: string, repository: Repository, r: Run<S>)
    requires r.failure.None?
    ensures var topics := DownloadTopics(repository, r);
      topics.run.failure.Some? ==>
        && RepositoryContents(apply, owner, name, repository, r) == topics.run
        && Calls(topics.run.trace) == Calls(r.trace)
  {
    var topics := DownloadTopics(repository, r);
    if topics.run.failure.Some? {
      CallsOfQueries(r.trace, topics.run.trace);
    }
  }

  lemma IssuesFollows<S(!new)>(apply: Backend<S>, owner: string, name: string, repository: Repository, r: Run<S>)
    ensures Follows(apply, r, DownloadIssues(apply, owner, name, repository, r),
                    FlatMap(Content(repository.issues), IssueCallsOf(owner, name)))
  {
    var visit := ProcessIssueVisit(apply, owner, name);
    var f := IssueCallsOf(owner, name);
    WalkDeliversServedPages(repository.issues);
    forall r': Run<S>, issue | issue in Visited(Walk(repository.issues))
      ensures Follows(apply, r', visit(r', issue), f(issue))
    {
      IssueFollows(apply, owner, name, issue, r');
    }
    WalkAbortsAfterAsk(repository.issues, Issues, repository.fields.id, r.trace);
    FollowsDrive(apply, Walk(repository.issues), Issues, repository.fields.id, visit, f, r);
  }

  lemma PullRequestsFollows<S(!new)>(apply: Backend<S>, owner: string, name: string, repository: Repository, r: Run<S>)
    ensures Follows(apply, r, DownloadPullRequests(apply, owner, name, repository, r),
                    FlatMap(Content(repository.pullRequests), PullRequestCallsOf(owner, name)))
  {
    var visit := ProcessPullRequestVisit(apply, owner, name);
    var f := PullRequestCallsOf(owner, name);
    WalkDeliversServedPages(repository.pullRequests);
    forall r': Run<S>, pr | pr in Visited(Walk(repository.pullRequests))
      ensures Follows(apply, r', visit(r', pr), f(pr))
    {
      PullRequestFollows(apply, owner, name, pr, r');
    }
    WalkAbortsAfterAsk(repository.pullRequests, PullRequests, repository.fields.id, r.trace);
    FollowsDrive(apply, Walk(repository.pullRequests), PullRequests, repository.fields.id, visit, f, r);
  }

  lemma RepositoryContentsFollows<S(!new)>(apply: Backend<S>, owner: string, name: string, repository: Repository, r: Run<S>)
    ensures Follows(apply, r, RepositoryContents(apply, owner, name, repository, r), RepositoryCalls(owner, name, repository))
  {
    var topics := DownloadTopics(repository, r);
    var call := SaveRepository(repository.fields, topics.items);
    var ref := SaveRepository(repository.fields, Content(repository.topics));
    var saved := Save(apply, topics.run, call);
    WalkCollectEndsAtQuery(repository.topics, Topics, repository.fields.id, r);
    FollowsQuiet(apply, r, topics.run);
    if r.failure.None? && topics.run.failure.None? {
      FollowsSave(apply, topics.run, call);
    }
    FollowsCompose(apply, r, topics.run, saved, [], [ref]);
    assert [] + [ref] == [ref];
    var issued := DownloadIssues(apply, owner, name, repository, saved);
    var issues := FlatMap(Content(repository.issues), IssueCallsOf(owner, name));
    IssuesFollows(apply, owner, name, repository, saved);
    FollowsCompose(apply, r, saved, issued, [ref], issues);
    var prs := FlatMap(Content(repository.pullRequests), PullRequestCallsOf(owner, name));
    PullRequestsFollows(apply, owner, name, repository, issued);
    FollowsCompose(apply, r, issued, RepositoryContents(apply, owner, name, repository, r), [ref] + issues, prs);
  }

  lemma OrganizationContentsFollows<S(!new)>(apply: Backend<S>, login: string, organization: Organization, r: Run<S>)
    ensures Follows(apply, r, OrganizationContents(apply, login, organization, r), OrganizationCalls(organization))
  {
    var saved := Save(apply, r, SaveOrganization(organization));
    FollowsSave(apply, r, SaveOrganization(organization));
    var visit := SaveUserVisit(apply);
    var f := UserCall();
    WalkDeliversServedPages(organization.membersWithRole);
    forall r': Run<S>, u | u in Visited(Walk(organization.membersWithRole))
      ensures Follows(apply, r', visit(r', u), f(u))
    {
      FollowsSave(apply, r', SaveUser(u));
    }
    WalkAbortsAfterAsk(organization.membersWithRole, MembersWithRole, login, saved.trace);
    FollowsDrive(apply, Walk(organization.membersWithRole), MembersWithRole, login, visit, f, saved);
    FollowsCompose(apply, r, saved, OrganizationContents(apply, login, organization, r),
                   [SaveOrganization(organization)], FlatMap(Content(organization.membersWithRole), f));
  }

  /** The reference calls of a repository download whose root query got
      `root`: none when that query failed. */
  function RepositoryRootCalls(owner: string, name: string, root: Fetched<Repository>): seq<Call>
  {
    match root
    case Got(repository) => RepositoryCalls(owner, name, repository)
    case FetchFailed(_) => []
  }

  /** The reference calls of an organization download whose root query got
      `root`: none when that query failed. */
  function OrganizationRootCalls(root: Fetched<Organization>): seq<Call>
  {
    match root
    case Got(organization) => OrganizationCalls(organization)
    case FetchFailed(_) => []
  }

  /** A root query that failed is the last event, and no call was made. */
  lemma FollowsRootFailure<S(!new)>(apply: Backend<S>, r: Run<S>, q: Query, reason: string)
    requires r.failure.None?
    ensures Follows(apply, r, Ask(r, q).(failure := Some(RootQueryFailed(q, reason))), [])
  {
    CallsSnoc(r.trace, Queried(q));
    assert Calls(r.trace)[|Calls(r.trace)|..] == [];
  }

  lemma RepositoryBodyFollows<S(!new)>(apply: Backend<S>, owner: string, name: string, root: Fetched<Repository>, r: Run<S>)
    ensures Follows(apply, r, RepositoryBody(apply, owner, name, root, r), RepositoryRootCalls(owner, name, root))
  {
    var q := RepositoryQuery(owner, name);
    var asked := Ask(r, q);
    match root
    case Got(repository) =>
      assert RepositoryBody(apply, owner, name, root, r) == RepositoryContents(apply, owner, name, repository, asked);
      RepositoryContentsFollows(apply, owner, name, repository, asked);
      FollowsAsk(apply, r, q, RepositoryBody(apply, owner, name, root, r), RepositoryCalls(owner, name, repository));
    case FetchFailed(reason) =>
      if r.failure.None? {
        FollowsRootFailure(apply, r, q, reason);
      }
  }

  lemma OrganizationBodyFollows<S(!new)>(apply: Backend<S>, login: string, root: Fetched<Organization>, r: Run<S>)
    ensures Follows(apply, r, OrganizationBody(apply, login, root, r), OrganizationRootCalls(root))
  {
    var q := OrganizationQuery(login);
    var asked := Ask(r, q);
    match root
    case Got(organization) =>
      assert OrganizationBody(apply, login, root, r) == OrganizationContents(apply, login, organization, asked);
      OrganizationContentsFollows(apply, login, organization, asked);
      FollowsAsk(apply, r, q, OrganizationBody(apply, login, root, r), OrganizationCalls(organization));
    case FetchFailed(reason) =>
      if r.failure.None? {
        FollowsRootFailure(apply, r, q, reason);
      }
  }

  /** What a bracketed run that failed after Begin made, given that its body
      follows `calls`: Version, Begin, a prefix of `calls` and Rollback. The
      event right before Rollback is what failed: the rejected save, which
      ends the prefix, or the failed query. */
  ghost predicate StoppedThenRolledBack<S(!new)>(apply: Backend<S>, begun: S, version: int, out: Run<S>, calls: seq<Call>)
  {
    var made := Calls(out.trace);
    var k := |made| - 3;
    && out.failure.Some?
    && 3 <= |made| <= |calls| + 3
    && made == [Version(version), Begin] + calls[..k] + [Rollback]
    && |out.trace| >= 2
    && out.trace[|out.trace| - 1] == Called(Rollback)
    && var failed := out.trace[|out.trace| - 2];
    && (out.failure.value.SaveFailed? ==>
          && k > 0 && calls[k - 1] == out.failure.value.call
          && failed == Called(out.failure.value.call)
          && Accepts(apply, begun, calls[..k - 1])
          && apply(Replay(apply, begun, calls[..k - 1]).state, calls[k - 1]).err == Some(out.failure.value.saveError))
    && (!out.failure.value.SaveFailed? ==>
          && Accepts(apply, begun, calls[..k])
          && failed.Queried?
          && FailedQuery(out.failure.value, failed.query))
  }

  lemma StartCalls(version: int)
    ensures Calls([Called(Version(version)), Called(Begin)]) == [Version(version), Begin]
  {
    CallsSnoc([Called(Version(version))], Called(Begin));
    assert [Called(Version(version))] + [Called(Begin)] == [Called(Version(version)), Called(Begin)];
    assert Calls([Called(Version(version))]) == [Version(version)] by {
      assert [Called(Version(version))] == [] + [Called(Version(version))];
      CallsSnoc([], Called(Version(version)));
    }
  }

  lemma BracketStops<S(!new)>(apply: Backend<S>, s: S, version: int, body: Run<S> -> Run<S>, calls: seq<Call>)
    requires forall r :: Grows(r, body(r))
    requires apply(apply(s, Version(version)).state, Begin).err.None?
    requires var start := Run(apply(apply(s, Version(version)).state, Begin).state, [Called(Version(version)), Called(Begin)], None);
      Follows(apply, start, body(start), calls)
    ensures var out := Bracket(apply, s, version, body);
      out.failure.Some? ==> StoppedThenRolledBack(apply, apply(apply(s, Version(version)).state, Begin).state, version, out, calls)
  {
    var begun := apply(apply(s, Version(version)).state, Begin).state;
    var start := Run(begun, [Called(Version(version)), Called(Begin)], None);
    var done := body(start);
    var out := Bracket(apply, s, version, body);
    BracketTrace(apply, s, version, body);
    if out.failure.Some? {
      assert out.trace == done.trace + [Called(Rollback)];
      StartCalls(version);
      CallsSnoc(done.trace, Called(Rollback));
      var c := Calls(done.trace);
      var m := c[2..];
      assert c == [Version(version), Begin] + m;
      assert Stopped(apply, begun, m, done, calls);
      assert m == calls[..|m|];
      assert EndsAtFailure(done);
      assert out.trace[|out.trace| - 2] == done.trace[|done.trace| - 1];
      if done.failure.value.SaveFailed? {
        assert calls[..|m| - 1] == m[..|m| - 1];
      }
      assert Calls(out.trace) == [Version(version), Begin] + calls[..|m|] + [Rollback];
    }
  }

  /** A repository download that fails after Begin, whatever its root query
      got, made Version, Begin, a prefix of the reference calls and
      Rollback, nothing else: the storer accepted every call of the prefix,
      and the event right before Rollback is what failed, a rejected save
      ending the prefix or the failed query. */
  lemma DownloadRepositoryStops<S(!new)>(apply: Backend<S>, s: S, owner: string, name: string, version: int, root: Fetched<Repository>)
    requires apply(apply(s, Version(version)).state, Begin).err.None?
    ensures var out := DownloadRepository(apply, s, owner, name, version, root);
      out.failure.Some? ==>
        StoppedThenRolledBack(apply, apply(apply(s, Version(version)).state, Begin).state, version, out,
                              RepositoryRootCalls(owner, name, root))
  {
    var start := Run(apply(apply(s, Version(version)).state, Begin).state, [Called(Version(version)), Called(Begin)], None);
    RepositoryBodyFollows(apply, owner, name, root, start);
    BracketStops(apply, s, version, RepositoryBodyOf(apply, owner, name, root), RepositoryRootCalls(owner, name, root));
  }

  /** The organization counterpart of `DownloadRepositoryStops`. */
  lemma DownloadOrganizationStops<S(!new)>(apply: Backend<S>, s: S, login: string, version: int, root: Fetched<Organization>)
    requires apply(apply(s, Version(version)).state, Begin).err.None?
    ensures var out := DownloadOrganization(apply, s, login, version, root);
      out.failure.Some? ==>
        StoppedThenRolledBack(apply, apply(apply(s, Version(version)).state, Begin).state, version, out,
                              OrganizationRootCalls(root))
  {
    var start := Run(apply(apply(s, Version(version)).state, Begin).state, [Called(Version(version)), Called(Begin)], None);
    OrganizationBodyFollows(apply, login, root, start);
    BracketStops(apply, s, version, OrganizationBodyOf(apply, login, root), OrganizationRootCalls(root));
  }
}

=== FILE: storer.dfy ===
/**
  The storer capability the downloader writes through: one call per save,
  plus transaction and version management. A backend is any total function
  from a state and a call to the next state and an optional error; the
  in-memory backend is `MemStore.Apply`.
 */
module Storer {
  import opened Graphql

  datatype StoreError = NotFound | Failure(reason: string)

  datatype Call =
    | SaveOrganization(organization: Organization)
    | SaveUser(user: UserExtended)
    | SaveRepository(repository: RepositoryFields, topics: seq<string>)
    | SaveIssue(owner: string, name: string, issue: Issue, assignees: seq<string>, labels: seq<string>)
    | SaveIssueComment(owner: string, name: string, issueNumber: int, comment: IssueComment)
    | SavePullRequest(owner: string, name: string, pr: PullRequest, assignees: seq<string>, labels: seq<string>)
    | SavePullRequestComment(owner: string, name: string, pullRequestNumber: int, comment: IssueComment)
    | SavePullRequestReview(owner: string, name: string, pullRequestNumber: int, review: PullRequestReview)
    | SavePullRequestReviewComment(owner: string, name: string, pullRequestNumber: int, reviewId: int,
                                   reviewComment: PullRequestReviewComment)
    | Begin
    | Commit
    | Rollback
    | Version(v: int)
    | SetActiveVersion(v: int)
    | Cleanup(currentVersion: int)
  {
    /** Transaction and version management, as opposed to a save. */
    predicate IsControl()
    {
      Begin? || Commit? || Rollback? || Version? || SetActiveVersion? || Cleanup?
    }
  }

  /** A backend's answer to one call. `Version` has no result in the storer
      interface; callers ignore `err` for it. */
  datatype Ack<S> = Ack(state: S, err: Option<StoreError>)

  /** A storer backend: the next state and the answer for each call. */
  type Backend<!S> = (S, Call) -> Ack<S>

  /** The calls applied one after the other, stopping at the first rejected one. */
  function Replay<S>(apply: Backend<S>, s: S, calls: seq<Call>): Ack<S>
    decreases |calls|
  {
    if |calls| == 0 then Ack(s, None)
    else
      var first := apply(s, calls[0]);
      if first.err.Some? then first else Replay(apply, first.state, calls[1..])
  }

  predicate Accepts<S>(apply: Backend<S>, s: S, calls: seq<Call>)
  {
    Replay(apply, s, calls).err.None?
  }

  /** Replaying a concatenation is replaying its halves in turn. */
  lemma {:induction false} ReplayAppend<S>(apply: Backend<S>, s: S, a: seq<Call>, b: seq<Call>)
    ensures Accepts(apply, s, a + b) <==> Accepts(apply, s, a) && Accepts(apply, Replay(apply, s, a).state, b)
    ensures Accepts(apply, s, a) ==> Replay(apply, s, a + b) == Replay(apply, Replay(apply, s, a).state, b)
    decreases |a|
  {
    if |a| == 0 {
      assert a + b == b;
    } else {
      assert (a + b)[0] == a[0];
      assert (a + b)[1..] == a[1..] + b;
      var first := apply(s, a[0]);
      if first.err.None? {
        ReplayAppend(apply, first.state, a[1..], b);
      }
    }
  }

  /** A single call is accepted when the backend accepts it, and leaves the
      backend where that call does. */
  lemma AcceptsSingle<S>(apply: Backend<S>, s: S, call: Call)
    ensures Accepts(apply, s, [call]) <==> apply(s, call).err.None?
    ensures Replay(apply, s, [call]).state == apply(s, call).state
  {
    var first := apply(s, call);
    assert [call][1..] == [];
    if first.err.None? {
      assert Replay(apply, first.state, []) == Ack(first.state, None);
    }
  }

  function FlatMap<T, U>(xs: seq<T>, f: T -> seq<U>): seq<U>
  {
    if |xs| == 0 then [] else f(xs[0]) + FlatMap(xs[1..], f)
  }

  lemma {:induction false} FlatMapAppend<T, U>(xs: seq<T>, ys: seq<T>, f: T -> seq<U>)
    ensures FlatMap(xs + ys, f) == FlatMap(xs, f) + FlatMap(ys, f)
    decreases |xs|
  {
    if |xs| == 0 {
      assert xs + ys == ys;
    } else {
      assert (xs + ys)[1..] == xs[1..] + ys;
      FlatMapAppend(xs[1..], ys, f);
    }
  }

  /** A backend accepts a block of calls per element when each block is
      accepted from any state satisfying `inv` and leads back into `inv`. */
  lemma {:induction false} AcceptsFlatMap<T, S>(apply: Backend<S>, s: S, xs: seq<T>, f: T -> seq<Call>, inv: S -> bool)
    requires inv(s)
    requires forall x, s' :: x in xs && inv(s') ==> Accepts(apply, s', f(x)) && inv(Replay(apply, s', f(x)).state)
    ensures Accepts(apply, s, FlatMap(xs, f)) && inv(Replay(apply, s, FlatMap(xs, f)).state)
    decreases |xs|
  {
    if |xs| > 0 {
      var mid := Replay(apply, s, f(xs[0])).state;
      assert forall x :: x in xs[1..] ==> x in xs;
      AcceptsFlatMap(apply, mid, xs[1..], f, inv);
      ReplayAppend(apply, s, f(xs[0]), FlatMap(xs[1..], f));
    }
  }
}

=== FILE: traversal.dfy ===
/**
  What a downloader run writes, stated against the fully resolved resource
  tree rather than against the walk.

  `RepositoryCalls` and `OrganizationCalls` list, in traversal order, the
  saves a run makes when every connection of the tree is served to the end:
  the repository with all its topics, then per issue the issue with all its
  assignees and labels followed by its comments, then per pull request the
  pull request, its comments, and per review the review followed by its
  comments. The theorems say that a run succeeds exactly when the tree is
  resolved and the backend accepts that list, and that a successful run made
  exactly those calls between Begin and Commit.
 */
module Traversal {
  import opened Graphql
  import opened Pagination
  import opened Storer
  import opened Downloader

  /** The storer calls of a trace, in order. */
  function Calls(trace: seq<Event>): seq<Call>
    decreases |trace|
  {
    if |trace| == 0 then []
    else Calls(trace[..|trace| - 1]) + (if Last(trace).Called? then [Last(trace).call] else [])
  }

  lemma CallsSnoc(trace: seq<Event>, e: Event)
    ensures Calls(trace + [e]) == Calls(trace) + (if e.Called? then [e.call] else [])
  {
    assert (trace + [e])[..|trace|] == trace;
  }

  /** Appending queries only appends no call. */
  lemma {:induction false} CallsOfQueries(trace: seq<Event>, longer: seq<Event>)
    requires |trace| <= |longer| && longer[..|trace|] == trace
    requires forall i :: |trace| <= i < |longer| ==> longer[i].Queried?
    ensures Calls(longer) == Calls(trace)
    decreases |longer|
  {
    if |longer| > |trace| {
      var shorter := longer[..|longer| - 1];
      assert shorter[..|trace|] == trace;
      CallsOfQueries(trace, shorter);
    } else {
      assert longer == trace;
    }
  }

  /** From an unfailed `r`, the step to `out` succeeds exactly when the backend
      accepts `calls` from `r`'s state, and then it made exactly those calls
      and left the backend where replaying them does. */
  ghost predicate Replays<S(!new)>(apply: Backend<S>, r: Run<S>, out: Run<S>, calls: seq<Call>)
  {
    r.failure.None? ==>
      && (out.failure.None? <==> Accepts(apply, r.state, calls))
      && (out.failure.None? ==>
            Calls(out.trace) == Calls(r.trace) + calls && out.state == Replay(apply, r.state, calls).state)
  }

  lemma SaveReplays<S(!new)>(apply: Backend<S>, r: Run<S>, call: Call)
    requires !call.IsControl()
    ensures Replays(apply, r, Save(apply, r, call), [call])
  {
    if r.failure.None? {
      CallsSnoc(r.trace, Called(call));
      var ack := apply(r.state, call);
      assert [call][1..] == [];
      assert Replay(apply, r.state, [call]) == if ack.err.Some? then ack else Ack(ack.state, None);
    }
  }

  /** A step that only queries replays the empty call list. */
  lemma QuietReplays<S(!new)>(apply: Backend<S>, r: Run<S>, out: Run<S>)
    requires Grows(r, out) && out.state == r.state
    requires forall i :: |r.trace| <= i < |out.trace| ==> out.trace[i].Queried?
    requires r.failure.None? ==> out.failure.None?
    ensures Replays(apply, r, out, [])
  {
    CallsOfQueries(r.trace, out.trace);
  }

  lemma ReplaysCompose<S(!new)>(apply: Backend<S>, r1: Run<S>, r2: Run<S>, r3: Run<S>, a: seq<Call>, b: seq<Call>)
    requires Replays(apply, r1, r2, a) && Replays(apply, r2, r3, b) && Grows(r2, r3)
    ensures Replays(apply, r1, r3, a + b)
  {
    if r1.failure.None? {
      ReplayAppend(apply, r1.state, a, b);
      if r2.failure.None? {
        assert Calls(r1.trace) + a + b == Calls(r1.trace) + (a + b);
      }
    }
  }

  // ---------------------------------------------------------------------
  // Driving a walk.
  // ---------------------------------------------------------------------

  /** When no query of the walk fails and each visit replays its node's calls,
      the walk replays the calls of its visited nodes one after the other. */
  lemma {:induction false} DriveReplays<T(!new), S(!new)>(
    apply: Backend<S>, steps: seq<Step<T>>, kind: Kind, parent: string,
    visit: (Run<S>, T) -> Run<S>, f: T -> seq<Call>, r: Run<S>)
    requires forall r', t :: Grows(r', visit(r', t))
    requires NoAbort(steps)
    requires forall r', t :: t in Visited(steps) ==> Replays(apply, r', visit(r', t), f(t))
    ensures Replays(apply, r, Drive(steps, kind, parent, visit, r), FlatMap(Visited(steps), f))
    decreases |steps|
  {
    if r.failure.None? && |steps| > 0 {
      NoAbortTail(steps);
      var rest := steps[1..];
      var out := Drive(steps, kind, parent, visit, r);
      match steps[0]
      case Visit(node) =>
        assert Visited(steps) == [node] + Visited(rest);
        var next := visit(r, node);
        DriveReplays(apply, rest, kind, parent, visit, f, next);
        assert FlatMap(Visited(steps), f) == f(node) + FlatMap(Visited(rest), f) by {
          assert Visited(steps)[1..] == Visited(rest);
        }
        ReplaysCompose(apply, r, next, out, f(node), FlatMap(Visited(rest), f));
      case Fetch(cursor) =>
        assert Visited(steps) == Visited(rest);
        var next := Ask(r, PageQuery(kind, parent, cursor));
        DriveReplays(apply, rest, kind, parent, visit, f, next);
        CallsSnoc(r.trace, Queried(PageQuery(kind, parent, cursor)));
    }
  }

  /** A walk fails when one of its visited nodes fails every unfailed run. */
  lemma {:induction false} DriveFails<T(!new), S(!new)>(
    steps: seq<Step<T>>, kind: Kind, parent: string, visit: (Run<S>, T) -> Run<S>, r: Run<S>, t: T)
    requires forall r', t' :: Grows(r', visit(r', t'))
    requires t in Visited(steps)
    requires forall r': Run<S> :: r'.failure.None? ==> visit(r', t).failure.Some?
    ensures r.failure.None? ==> Drive(steps, kind, parent, visit, r).failure.Some?
    decreases |steps|
  {
    if r.failure.None? {
      var rest := steps[1..];
      assert Visited(steps) == (if steps[0].Visit? then [steps[0].node] else []) + Visited(rest);
      match steps[0]
      case Visit(node) =>
        if node != t {
          DriveFails(rest, kind, parent, visit, visit(r, node), t);
        }
      case Fetch(cursor) =>
        DriveFails(rest, kind, parent, visit, Ask(r, PageQuery(kind, parent, cursor)), t);
      case Abort(_) =>
    }
  }

  // ---------------------------------------------------------------------
  // Reference call lists.
  // ---------------------------------------------------------------------

  function IssueCommentCall(owner: string, name: string, number: int): IssueComment -> seq<Call>
  {
    (c: IssueComment) => [SaveIssueComment(owner, name, number, c)]
  }

  function PullRequestCommentCall(owner: string, name: string, number: int): IssueComment -> seq<Call>
  {
    (c: IssueComment) => [SavePullRequestComment(owner, name, number, c)]
  }

  function ReviewCommentCall(owner: string, name: string, number: int, reviewId: int): PullRequestReviewComment -> seq<Call>
  {
    (c: PullRequestReviewComment) => [SavePullRequestReviewComment(owner, name, number, reviewId, c)]
  }

  function UserCall(): UserExtended -> seq<Call>
  {
    (u: UserExtended) => [SaveUser(u)]
  }

  function IssueCalls(owner: string, name: string, issue: Issue): seq<Call>
  {
    [SaveIssue(owner, name, issue, Content(issue.assignees), Content(issue.labels))]
      + FlatMap(Content(issue.comments), IssueCommentCall(owner, name, issue.number))
  }

  function IssueCallsOf(owner: string, name: string): Issue -> seq<Call>
  {
    (issue: Issue) => IssueCalls(owner, name, issue)
  }

  function ReviewCalls(owner: string, name: string, number: int, review: PullRequestReview): seq<Call>
  {
    [SavePullRequestReview(owner, name, number, review)]
      + FlatMap(Content(review.comments), ReviewCommentCall(owner, name, number, review.databaseId))
  }

  function ReviewCallsOf(owner: string, name: string, number: int): PullRequestReview -> seq<Call>
  {
    (review: PullRequestReview) => ReviewCalls(owner, name, number, review)
  }

  function PullRequestCalls(owner: string, name: string, pr: PullRequest): seq<Call>
  {
    [SavePullRequest(owner, name, pr, Content(pr.assignees), Content(pr.labels))]
      + FlatMap(Content(pr.comments), PullRequestCommentCall(owner, name, pr.number))
      + FlatMap(Content(pr.reviews), ReviewCallsOf(owner, name, pr.number))
  }

  function PullRequestCallsOf(owner: string, name: string): PullRequest -> seq<Call>
  {
    (pr: PullRequest) => PullRequestCalls(owner, name, pr)
  }

  function RepositoryCalls(owner: string, name: string, repository: Repository): seq<Call>
  {
    [SaveRepository(repository.fields, Content(repository.topics))]
      + FlatMap(Content(repository.issues), IssueCallsOf(owner, name))
      + FlatMap(Content(repository.pullRequests), PullRequestCallsOf(owner, name))
  }

  function OrganizationCalls(organization: Organization): seq<Call>
  {
    [SaveOrganization(organization)] + FlatMap(Content(organization.membersWithRole), UserCall())
  }

  // ---------------------------------------------------------------------
  // Resolved trees: every connection is served to its last page.
  // ---------------------------------------------------------------------

  predicate ReviewResolved(review: PullRequestReview)
  {
    Complete(review.comments)
  }

  predicate IssueResolved(issue: Issue)
  {
    Complete(issue.assignees) && Complete(issue.labels) && Complete(issue.comments)
  }

  predicate PullRequestResolved(pr: PullRequest)
  {
    && Complete(pr.assignees) && Complete(pr.labels) && Complete(pr.comments) && Complete(pr.reviews)
    && forall review :: review in Content(pr.reviews) ==> ReviewResolved(review)
  }

  predicate RepositoryResolved(repository: Repository)
  {
    && Complete(repository.topics) && Complete(repository.issues) && Complete(repository.pullRequests)
    && (forall issue :: issue in Content(repository.issues) ==> IssueResolved(issue))
    && (forall pr :: pr in Content(repository.pullRequests) ==> PullRequestResolved(pr))
  }

  predicate OrganizationResolved(organization: Organization)
  {
    Complete(organization.membersWithRole)
  }

  // ---------------------------------------------------------------------
  // Per level: a resolved entity replays its reference calls; an
  // unresolved one fails the run.
  // ---------------------------------------------------------------------

  lemma ReviewReplays<S(!new)>(apply: Backend<S>, owner: string, name: string, number: int, review: PullRequestReview, r: Run<S>)
    requires ReviewResolved(review)
    ensures Replays(apply, r, ProcessReview(apply, owner, name, number, review, r), ReviewCalls(owner, name, number, review))
  {
    var saved := Save(apply, r, SavePullRequestReview(owner, name, number, review));
    SaveReplays(apply, r, SavePullRequestReview(owner, name, number, review));
    var visit := SaveReviewCommentVisit(apply, owner, name, number, review.databaseId);
    var f := ReviewCommentCall(owner, name, number, review.databaseId);
    WalkDeliversServedPages(review.comments);
    forall r': Run<S>, c | c in Visited(Walk(review.comments))
      ensures Replays(apply, r', visit(r', c), f(c))
    {
      SaveReplays(apply, r', SavePullRequestReviewComment(owner, name, number, review.databaseId, c));
    }
    DriveReplays(apply, Walk(review.comments), ReviewComments, review.id, visit, f, saved);
    ReplaysCompose(apply, r, saved, ProcessReview(apply, owner, name, number, review, r),
                   [SavePullRequestReview(owner, name, number, review)], FlatMap(Content(review.comments), f));
  }

  lemma ReviewFails<S(!new)>(apply: Backend<S>, owner: string, name: string, number: int, review: PullRequestReview, r: Run<S>)
    requires !ReviewResolved(review)
    ensures r.failure.None? ==> ProcessReview(apply, owner, name, number, review, r).failure.Some?
  {
  }

  /** Two gathering walks in a row followed by one save replay that save. */
  lemma GatherThenSaveReplays<S(!new)>(apply: Backend<S>, r: Run<S>, first: Run<S>, second: Run<S>, call: Call)
    requires !call.IsControl()
    requires Grows(r, first) && first.state == r.state && (r.failure.None? ==> first.failure.None?)
    requires forall i :: |r.trace| <= i < |first.trace| ==> first.trace[i].Queried?
    requires Grows(first, second) && second.state == first.state && (first.failure.None? ==> second.failure.None?)
    requires forall i :: |first.trace| <= i < |second.trace| ==> second.trace[i].Queried?
    ensures Replays(apply, r, Save(apply, second, call), [call])
  {
    QuietReplays(apply, r, first);
    QuietReplays(apply, first, second);
    ReplaysCompose(apply, r, first, second, [], []);
    SaveReplays(apply, second, call);
    ReplaysCompose(apply, r, second, Save(apply, second, call), [], [call]);
    assert [] + [call] == [call];
  }

  lemma IssueSaveReplays<S(!new)>(apply: Backend<S>, owner: string, name: string, issue: Issue, r: Run<S>)
    requires IssueResolved(issue)
    ensures var assignees := DownloadIssueAssignees(issue, r);
      var labels := DownloadIssueLabels(issue, assignees.run);
      Replays(apply, r, Save(apply, labels.run, SaveIssue(owner, name, issue, assignees.items, labels.items)),
              [SaveIssue(owner, name, issue, Content(issue.assignees), Content(issue.labels))])
  {
    var assignees := DownloadIssueAssignees(issue, r);
    var labels := DownloadIssueLabels(issue, assignees.run);
    GatherThenSaveReplays(apply, r, assignees.run, labels.run, SaveIssue(owner, name, issue, assignees.items, labels.items));
  }

  lemma IssueCommentsReplays<S(!new)>(apply: Backend<S>, owner: string, name: string, issue: Issue, r: Run<S>)
    requires Complete(issue.comments)
    ensures Replays(apply, r, DownloadIssueComments(apply, owner, name, issue, r),
                    FlatMap(Content(issue.comments), IssueCommentCall(owner, name, issue.number)))
  {
    var visit := SaveIssueCommentVisit(apply, owner, name, issue.number);
    var f := IssueCommentCall(owner, name, issue.number);
    WalkDeliversServedPages(issue.comments);
    forall r': Run<S>, c | c in Visited(Walk(issue.comments))
      ensures Replays(apply, r', visit(r', c), f(c))
    {
      SaveReplays(apply, r', SaveIssueComment(owner, name, issue.number, c));
    }
    DriveReplays(apply, Walk(issue.comments), IssueComments, issue.id, visit, f, r);
  }

  lemma IssueReplays<S(!new)>(apply: Backend<S>, owner: string, name: string, issue: Issue, r: Run<S>)
    requires IssueResolved(issue)
    ensures Replays(apply, r, ProcessIssue(apply, owner, name, issue, r), IssueCalls(owner, name, issue))
  {
    var assignees := DownloadIssueAssignees(issue, r);
    var labels := DownloadIssueLabels(issue, assignees.run);
    var saved := Save(apply, labels.run, SaveIssue(owner, name, issue, assignees.items, labels.items));
    IssueSaveReplays(apply, owner, name, issue, r);
    IssueCommentsReplays(apply, owner, name, issue, saved);
    ReplaysCompose(apply, r, saved, ProcessIssue(apply, owner, name, issue, r),
                   [SaveIssue(owner, name, issue, Content(issue.assignees), Content(issue.labels))],
                   FlatMap(Content(issue.comments), IssueCommentCall(owner, name, issue.number)));
  }

  lemma IssueFails<S(!new)>(apply: Backend<S>, owner: string, name: string, issue: Issue, r: Run<S>)
    requires !IssueResolved(issue)
    ensures r.failure.None? ==> ProcessIssue(apply, owner, name, issue, r).failure.Some?
  {
  }

  lemma PullRequestSaveReplays<S(!new)>(apply: Backend<S>, owner: string, name: string, pr: PullRequest, r: Run<S>)
    requires Complete(pr.assignees) && Complete(pr.labels)
    ensures var assignees := DownloadPullRequestAssignees(pr, r);
      var labels := DownloadPullRequestLabels(pr, assignees.run);
      Replays(apply, r, Save(apply, labels.run, SavePullRequest(owner, name, pr, assignees.items, labels.items)),
              [SavePullRequest(owner, name, pr, Content(pr.assignees), Content(pr.labels))])
  {
    var assignees := DownloadPullRequestAssignees(pr, r);
    var labels := DownloadPullRequestLabels(pr, assignees.run);
    GatherThenSaveReplays(apply, r, assignees.run, labels.run, SavePullRequest(owner, name, pr, assignees.items, labels.items));
  }

  lemma PullRequestCommentsReplays<S(!new)>(apply: Backend<S>, owner: string, name: string, pr: PullRequest, r: Run<S>)
    requires Complete(pr.comments)
    ensures Replays(apply, r, DownloadPullRequestComments(apply, owner, name, pr, r),
                    FlatMap(Content(pr.comments), PullRequestCommentCall(owner, name, pr.number)))
  {
    var visit := SavePullRequestCommentVisit(apply, owner, name, pr.number);
    var f := PullRequestCommentCall(owner, name, pr.number);
    WalkDeliversServedPages(pr.comments);
    forall r': Run<S>, c | c in Visited(Walk(pr.comments))
      ensures Replays(apply, r', visit(r', c), f(c))
    {
      SaveReplays(apply, r', SavePullRequestComment(owner, name, pr.number, c));
    }
    DriveReplays(apply, Walk(pr.comments), PullRequestComments, pr.id, visit, f, r);
  }

  lemma PullRequestReviewsReplays<S(!new)>(apply: Backend<S>, owner: string, name: string, pr: PullRequest, r: Run<S>)
    requires Complete(pr.reviews)
    requires forall review :: review in Content(pr.reviews) ==> ReviewResolved(review)
    ensures Replays(apply, r, DownloadPullRequestReviews(apply, owner, name, pr, r),
                    FlatMap(Content(pr.reviews), ReviewCallsOf(owner, name, pr.number)))
  {
    var visit := ProcessReviewVisit(apply, owner, name, pr.number);
    var f := ReviewCallsOf(owner, name, pr.number);
    WalkDeliversServedPages(pr.reviews);
    forall r': Run<S>, review | review in Visited(Walk(pr.reviews))
      ensures Replays(apply, r', visit(r', review), f(review))
    {
      ReviewReplays(apply, owner, name, pr.number, review, r');
    }
    DriveReplays(apply, Walk(pr.reviews), PullRequestReviews, pr.id, visit, f, r);
  }

  lemma PullRequestReplays<S(!new)>(apply: Backend<S>, owner: string, name: string, pr: PullRequest, r: Run<S>)
    requires PullRequestResolved(pr)
    ensures Replays(apply, r, ProcessPullRequest(apply, owner, name, pr, r), PullRequestCalls(owner, name, pr))
  {
    var assignees := DownloadPullRequestAssignees(pr, r);
    var labels := DownloadPullRequestLabels(pr, assignees.run);
    var saved := Save(apply, labels.run, SavePullRequest(owner, name, pr, assignees.items, labels.items));
    var head := [SavePullRequest(owner, name, pr, Content(pr.assignees), Content(pr.labels))];
    PullRequestSaveReplays(apply, owner, name, pr, r);
    var commented := DownloadPullRequestComments(apply, owner, name, pr, saved);
    var comments := FlatMap(Content(pr.comments), PullRequestCommentCall(owner, name, pr.number));
    PullRequestCommentsReplays(apply, owner, name, pr, saved);
    ReplaysCompose(apply, r, saved, commented, head, comments);
    PullRequestReviewsReplays(apply, owner, name, pr, commented);
    ReplaysCompose(apply, r, commented, ProcessPullRequest(apply, owner, name, pr, r), head + comments,
                   FlatMap(Content(pr.reviews), ReviewCallsOf(owner, name, pr.number)));
  }

  lemma PullRequestFails<S(!new)>(apply: Backend<S>, owner: string, name: string, pr: PullRequest, r: Run<S>)
    requires !PullRequestResolved(pr)
    ensures r.failure.None? ==> ProcessPullRequest(apply, owner, name, pr, r).failure.Some?
  {
    if r.failure.None? && Complete(pr.assignees) && Complete(pr.labels) && Complete(pr.comments) && Complete(pr.reviews) {
      var review :| review in Content(pr.reviews) && !ReviewResolved(review);
      var visit := ProcessReviewVisit(apply, owner, name, pr.number);
      forall r': Run<S> | r'.failure.None?
        ensures visit(r', review).failure.Some?
      {
        ReviewFails(apply, owner, name, pr.number, review, r');
      }
      WalkDeliversServedPages(pr.reviews);
      var assignees := DownloadPullRequestAssignees(pr, r);
      var labels := DownloadPullRequestLabels(pr, assignees.run);
      var saved := Save(apply, labels.run, SavePullRequest(owner, name, pr, assignees.items, labels.items));
      var commented := DownloadPullRequestComments(apply, owner, name, pr, saved);
      DriveFails(Walk(pr.reviews), PullRequestReviews, pr.id, visit, commented, review);
    }
  }

  // ---------------------------------------------------------------------
  // Whole runs.
  // ---------------------------------------------------------------------

  lemma IssuesReplays<S(!new)>(apply: Backend<S>, owner: string, name: string, repository: Repository, r: Run<S>)
    requires Complete(repository.issues)
    requires forall issue :: issue in Content(repository.issues) ==> IssueResolved(issue)
    ensures Replays(apply, r, DownloadIssues(apply, owner, name, repository, r),
                    FlatMap(Content(repository.issues), IssueCallsOf(owner, name)))
  {
    var visit := ProcessIssueVisit(apply, owner, name);
    var f := IssueCallsOf(owner, name);
    WalkDeliversServedPages(repository.issues);
    forall r': Run<S>, issue | issue in Visited(Walk(repository.issues))
      ensures Replays(apply, r', visit(r', issue), f(issue))
    {
      IssueReplays(apply, owner, name, issue, r');
    }
    DriveReplays(apply, Walk(repository.issues), Issues, repository.fields.id, visit, f, r);
  }

  lemma PullRequestsReplays<S(!new)>(apply: Backend<S>, owner: string, name: string, repository: Repository, r: Run<S>)
    requires Complete(repository.pullRequests)
    requires forall pr :: pr in Content(repository.pullRequests) ==> PullRequestResolved(pr)
    ensures Replays(apply, r, DownloadPullRequests(apply, owner, name, repository, r),
                    FlatMap(Content(repository.pullRequests), PullRequestCallsOf(owner, name)))
  {
    var visit := ProcessPullRequestVisit(apply, owner, name);
    var f := PullRequestCallsOf(owner, name);
    WalkDeliversServedPages(repository.pullRequests);
    forall r': Run<S>, pr | pr in Visited(Walk(repository.pullRequests))
      ensures Replays(apply, r', visit(r', pr), f(pr))
    {
      PullRequestReplays(apply, owner, name, pr, r');
    }
    DriveReplays(apply, Walk(repository.pullRequests), PullRequests, repository.fields.id, visit, f, r);
  }

  /** Topics are gathered to the end and the repository is saved with them. */
  lemma RepositorySaveReplays<S(!new)>(apply: Backend<S>, repository: Repository, r: Run<S>)
    requires Complete(repository.topics)
    ensures var topics := DownloadTopics(repository, r);
      Replays(apply, r, Save(apply, topics.run, SaveRepository(repository.fields, topics.items)),
              [SaveRepository(repository.fields, Content(repository.topics))])
  {
    var topics := DownloadTopics(repository, r);
    QuietReplays(apply, r, topics.run);
    var call := SaveRepository(repository.fields, topics.items);
    SaveReplays(apply, topics.run, call);
    ReplaysCompose(apply, r, topics.run, Save(apply, topics.run, call), [], [call]);
    assert [] + [call] == [call];
  }

  lemma RepositoryContentsReplays<S(!new)>(apply: Backend<S>, owner: string, name: string, repository: Repository, r: Run<S>)
    requires RepositoryResolved(repository)
    ensures Replays(apply, r, RepositoryContents(apply, owner, name, repository, r), RepositoryCalls(owner, name, repository))
  {
    var topics := DownloadTopics(repository, r);
    var saved := Save(apply, topics.run, SaveRepository(repository.fields, topics.items));
    var head := [SaveRepository(repository.fields, Content(repository.topics))];
    RepositorySaveReplays(apply, repository, r);
    var issued := DownloadIssues(apply, owner, name, repository, saved);
    var issues := FlatMap(Content(repository.issues), IssueCallsOf(owner, name));
    IssuesReplays(apply, owner, name, repository, saved);
    ReplaysCompose(apply, r, saved, issued, head, issues);
    var prs := FlatMap(Content(repository.pullRequests), PullRequestCallsOf(owner, name));
    PullRequestsReplays(apply, owner, name, repository, issued);
    ReplaysCompose(apply, r, issued, RepositoryContents(apply, owner, name, repository, r), head + issues, prs);
  }

  lemma RepositoryContentsFails<S(!new)>(apply: Backend<S>, owner: string, name: string, repository: Repository, r: Run<S>)
    requires !RepositoryResolved(repository)
    ensures r.failure.None? ==> RepositoryContents(apply, owner, name, repository, r).failure.Some?
  {
    if r.failure.None? && Complete(repository.topics) && Complete(repository.issues) && Complete(repository.pullRequests) {
      var topics := DownloadTopics(repository, r);
      var saved := Save(apply, topics.run, SaveRepository(repository.fields, topics.items));
      var issued := DownloadIssues(apply, owner, name, repository, saved);
      if issue :| issue in Content(repository.issues) && !IssueResolved(issue) {
        var visit := ProcessIssueVisit(apply, owner, name);
        forall r': Run<S> | r'.failure.None?
          ensures visit(r', issue).failure.Some?
        {
          IssueFails(apply, owner, name, issue, r');
        }
        WalkDeliversServedPages(repository.issues);
        DriveFails(Walk(repository.issues), Issues, repository.fields.id, visit, saved, issue);
      } else {
        var pr :| pr in Content(repository.pullRequests) && !PullRequestResolved(pr);
        var visit := ProcessPullRequestVisit(apply, owner, name);
        forall r': Run<S> | r'.failure.None?
          ensures visit(r', pr).failure.Some?
        {
          PullRequestFails(apply, owner, name, pr, r');
        }
        WalkDeliversServedPages(repository.pullRequests);
        DriveFails(Walk(repository.pullRequests), PullRequests, repository.fields.id, visit, issued, pr);
      }
    }
  }

  /** The run between Begin and Commit succeeds exactly when `ok` holds and
      the backend accepts `calls`, and then made exactly `calls`. */
  ghost predicate BodyOutcome<S(!new)>(apply: Backend<S>, r: Run<S>, out: Run<S>, calls: seq<Call>, ok: bool)
  {
    && (out.failure.None? <==> ok && Accepts(apply, r.state, calls))
    && (out.failure.None? ==>
          Calls(out.trace) == Calls(r.trace) + calls && out.state == Replay(apply, r.state, calls).state)
  }

  /** Version, Begin and the closing Commit around a body with a known outcome. */
  lemma BracketOutcome<S(!new)>(apply: Backend<S>, s: S, version: int, body: Run<S> -> Run<S>, calls: seq<Call>, ok: bool)
    requires forall r :: Grows(r, body(r))
    requires apply(apply(s, Version(version)).state, Begin).err.None?
    requires var start := Run(apply(apply(s, Version(version)).state, Begin).state, [Called(Version(version)), Called(Begin)], None);
      BodyOutcome(apply, start, body(start), calls, ok)
    ensures var begun := apply(apply(s, Version(version)).state, Begin).state;
      var out := Bracket(apply, s, version, body);
      && (out.failure.None? <==> ok && Accepts(apply, begun, calls))
      && (out.failure.None? ==>
            && Calls(out.trace) == [Version(version), Begin] + calls + [Commit]
            && out.state == apply(Replay(apply, begun, calls).state, Commit).state)
  {
    var start := Run(apply(apply(s, Version(version)).state, Begin).state, [Called(Version(version)), Called(Begin)], None);
    var done := body(start);
    CallsSnoc([Called(Version(version))], Called(Begin));
    assert [Called(Version(version))] + [Called(Begin)] == start.trace;
    assert Calls([Called(Version(version))]) == [Version(version)] by {
      assert [Called(Version(version))] == [] + [Called(Version(version))];
      CallsSnoc([], Called(Version(version)));
    }
    CallsSnoc(done.trace, Called(if done.failure.Some? then Rollback else Commit));
  }

  /** A root query in front of a step changes nothing it replays. */
  lemma ReplaysAfterAsk<S(!new)>(apply: Backend<S>, r: Run<S>, q: Query, out: Run<S>, calls: seq<Call>)
    requires Replays(apply, Ask(r, q), out, calls)
    ensures Replays(apply, r, out, calls)
  {
    CallsSnoc(r.trace, Queried(q));
  }

  lemma RepositoryBodyOutcome<S(!new)>(apply: Backend<S>, owner: string, name: string, repository: Repository, r: Run<S>)
    requires r.failure.None?
    ensures BodyOutcome(apply, r, RepositoryBody(apply, owner, name, Got(repository), r),
                        RepositoryCalls(owner, name, repository), RepositoryResolved(repository))
  {
    var asked := Ask(r, RepositoryQuery(owner, name));
    var out := RepositoryBody(apply, owner, name, Got(repository), r);
    assert out == RepositoryContents(apply, owner, name, repository, asked);
    if RepositoryResolved(repository) {
      RepositoryContentsReplays(apply, owner, name, repository, asked);
      ReplaysAfterAsk(apply, r, RepositoryQuery(owner, name), out, RepositoryCalls(owner, name, repository));
    } else {
      RepositoryContentsFails(apply, owner, name, repository, asked);
    }
  }

  /** The outcome of a repository download whose Version and Begin went
      through: it succeeds exactly when every connection of the repository is
      served to the end and the backend accepts the reference calls; a
      successful run made Version, Begin, the reference calls and Commit, in
      that order, and nothing else. */
  lemma DownloadRepositoryOutcome<S(!new)>(apply: Backend<S>, s: S, owner: string, name: string, version: int, repository: Repository)
    requires apply(apply(s, Version(version)).state, Begin).err.None?
    ensures var begun := apply(apply(s, Version(version)).state, Begin).state;
      var out := DownloadRepository(apply, s, owner, name, version, Got(repository));
      var calls := RepositoryCalls(owner, name, repository);
      && (out.failure.None? <==> RepositoryResolved(repository) && Accepts(apply, begun, calls))
      && (out.failure.None? ==>
            && Calls(out.trace) == [Version(version), Begin] + calls + [Commit]
            && out.state == apply(Replay(apply, begun, calls).state, Commit).state)
  {
    var start := Run(apply(apply(s, Version(version)).state, Begin).state, [Called(Version(version)), Called(Begin)], None);
    RepositoryBodyOutcome(apply, owner, name, repository, start);
    BracketOutcome(apply, s, version, RepositoryBodyOf(apply, owner, name, Got(repository)),
                   RepositoryCalls(owner, name, repository), RepositoryResolved(repository));
  }

  /** A failed repository query ends the run right after Begin, with a
      Rollback and no save. */
  lemma RepositoryQueryFailure<S(!new)>(apply: Backend<S>, s: S, owner: string, name: string, version: int, reason: string)
    requires apply(apply(s, Version(version)).state, Begin).err.None?
    ensures var out := DownloadRepository(apply, s, owner, name, version, FetchFailed(reason));
      && out.failure == Some(RootQueryFailed(RepositoryQuery(owner, name), reason))
      && out.trace == [Called(Version(version)), Called(Begin), Queried(RepositoryQuery(owner, name)), Called(Rollback)]
      && Calls(out.trace) == [Version(version), Begin, Rollback]
  {
    var begun := apply(apply(s, Version(version)).state, Begin).state;
    var start := Run(begun, [Called(Version(version)), Called(Begin)], None);
    var asked := Ask(start, RepositoryQuery(owner, name));
    CallsSnoc([Called(Version(version))], Called(Begin));
    CallsSnoc(start.trace, Queried(RepositoryQuery(owner, name)));
    CallsSnoc(asked.trace, Called(Rollback));
  }

  /** A failed organization query ends the run right after Begin, with a
      Rollback and no save. */
  lemma OrganizationQueryFailure<S(!new)>(apply: Backend<S>, s: S, login: string, version: int, reason: string)
    requires apply(apply(s, Version(version)).state, Begin).err.None?
    ensures var out := DownloadOrganization(apply, s, login, version, FetchFailed(reason));
      && out.failure == Some(RootQueryFailed(OrganizationQuery(login), reason))
      && out.trace == [Called(Version(version)), Called(Begin), Queried(OrganizationQuery(login)), Called(Rollback)]
      && Calls(out.trace) == [Version(version), Begin, Rollback]
  {
    var begun := apply(apply(s, Version(version)).state, Begin).state;
    var start := Run(begun, [Called(Version(version)), Called(Begin)], None);
    var asked := Ask(start, OrganizationQuery(login));
    CallsSnoc([Called(Version(version))], Called(Begin));
    CallsSnoc(start.trace, Queried(OrganizationQuery(login)));
    CallsSnoc(asked.trace, Called(Rollback));
  }

  lemma OrganizationContentsReplays<S(!new)>(apply: Backend<S>, login: string, organization: Organization, r: Run<S>)
    requires OrganizationResolved(organization)
    ensures Replays(apply, r, OrganizationContents(apply, login, organization, r), OrganizationCalls(organization))
  {
    var saved := Save(apply, r, SaveOrganization(organization));
    SaveReplays(apply, r, SaveOrganization(organization));
    var visit := SaveUserVisit(apply);
    var f := UserCall();
    WalkDeliversServedPages(organization.membersWithRole);
    forall r': Run<S>, u | u in Visited(Walk(organization.membersWithRole))
      ensures Replays(apply, r', visit(r', u), f(u))
    {
      SaveReplays(apply, r', SaveUser(u));
    }
    DriveReplays(apply, Walk(organization.membersWithRole), MembersWithRole, login, visit, f, saved);
    ReplaysCompose(apply, r, saved, OrganizationContents(apply, login, organization, r),
                   [SaveOrganization(organization)], FlatMap(Content(organization.membersWithRole), f));
  }

  lemma OrganizationBodyOutcome<S(!new)>(apply: Backend<S>, login: string, organization: Organization, r: Run<S>)
    requires r.failure.None?
    ensures BodyOutcome(apply, r, OrganizationBody(apply, login, Got(organization), r),
                        OrganizationCalls(organization), OrganizationResolved(organization))
  {
    var asked := Ask(r, OrganizationQuery(login));
    var out := OrganizationBody(apply, login, Got(organization), r);
    assert out == OrganizationContents(apply, login, organization, asked);
    if OrganizationResolved(organization) {
      OrganizationContentsReplays(apply, login, organization, asked);
      ReplaysAfterAsk(apply, r, OrganizationQuery(login), out, OrganizationCalls(organization));
    }
  }

  /** The organization counterpart of `DownloadRepositoryOutcome`. */
  lemma DownloadOrganizationOutcome<S(!new)>(apply: Backend<S>, s: S, login: string, version: int, organization: Organization)
    requires apply(apply(s, Version(version)).state, Begin).err.None?
    ensures var begun := apply(apply(s, Version(version)).state, Begin).state;
      var out := DownloadOrganization(apply, s, login, version, Got(organization));
      var calls := OrganizationCalls(organization);
      && (out.failure.None? <==> OrganizationResolved(organization) && Accepts(apply, begun, calls))
      && (out.failure.None? ==>
            && Calls(out.trace) == [Version(version), Begin] + calls + [Commit]
            && out.state == apply(Replay(apply, begun, calls).state, Commit).state)
  {
    var start := Run(apply(apply(s, Version(version)).state, Begin).state, [Called(Version(version)), Called(Begin)], None);
    OrganizationBodyOutcome(apply, login, organization, start);
    BracketOutcome(apply, s, version, OrganizationBodyOf(apply, login, Got(organization)),
                   OrganizationCalls(organization), OrganizationResolved(organization));
  }
}
